=== FILE: README.md ===
# Korea apartment price ranking dashboard: a Dafny model

The repository collects apartment sale reports from the Korean land
ministry's real-transaction API (국토교통부 아파트 매매 실거래가). It builds two
dashboards from them.

- **Nationwide district top 10.** For every district (`sido|sigungu`) it finds
  the ten complexes with the highest price per pyeong over the last six
  months. For each complex it draws a monthly price series over 36 months.
- **Seoul top 20.** It finds the twenty most expensive complexes in Seoul and
  their monthly averages. It also computes the district distribution, rank
  changes against the previous run, and a few headline insights (average,
  month-over-month change, up/down streak, biggest riser and faller).

There are two collectors:

- `fetch_all.py` builds both dashboards from one collection. Its `fetch`
  retries with exponential backoff on HTTP 429.
- `fetch_district_data.py` builds only the district dashboard. Its `fetch`
  makes a single attempt.

The model covers the data logic between the HTTP replies and the JSON/HTML
output, one module per concern:

| module | file | models |
|---|---|---|
| `Wrappers` | wrappers.dfy | `Option` |
| `Text` | text.dfy | `str.strip`, `str.replace(',', '')`, `zfill`, `in` on strings, Python string order, `sorted(set(...))` |
| `Numeric` | numeric.dfy | `int()` and `float()` on ASCII text, `{:,}` digit grouping, Python `round` (half to even) on exact rationals |
| `Money` | money.dfy | `fp`, the 억/만 rendering of a price, with a reader that inverts it |
| `Calendar` | calendar.dfy | proleptic Gregorian day arithmetic, `%Y%m` keys, `get_months` |
| `Records` | records.dfy | `gt`, `parse`, the record fields and grouping keys, `SEOUL_CODES` |
| `Fetcher` | fetcher.dfy | both `fetch` routines over an abstract sequence of replies |
| `Seqs` | seqs.dfy | list comprehensions: filter, count, map, set image |
| `Ranking` | ranking.dfy | the keep-the-best dedup loop, the stable `sorted(..., reverse=True)`, `[:n]` |
| `Series` | series.dfy | chart labels, monthly-mean series with gaps, deal count, top-list average |
| `Districts` | districts.dfy | `defaultdict(list)` grouping, the per-district top-10 map, `codes_needed` |
| `Seoul` | seoul.dfy | `seoul_top20`, `seoul_monthly_avg`, `seoul_per_apt_monthly`, `seoul_region_dist`, `seoul_rank_changes`, `seoul_insights`, the riser/faller pick |
| `Collection` | collection.dfy | `fetch_all_recent`/`fetch_history` as folds over an uninterpreted `fetch`, the history codes and months, `alldata`, the Seoul subset |

The model makes these choices:

- **Replies, time and region table as parameters.**
  - The network is a function from attempt number to reply.
  - Sleeps are returned as a list of waits in milliseconds.
  - "Today" is a date parameter.
  - The region table is an abstract map from code to (sido, sigungu).
- **Python dictionaries** are sequences of (key, value) pairs kept in insertion
  order.
- **Sets the source iterates** (`codes_needed`, `all_history_codes`) are
  sequences whose elements equal the set. `FetchGridOrder` shows that the
  order does not change which records are collected.
- **Ties.** The dedup loops use a strict `>`, so on a tie the first record
  seen is kept. Python's sort is stable with `reverse=True`. The top lists are
  therefore non-increasing, ties in first-appearance order, not strictly
  decreasing.

Notes on the code's behaviour:

- **Top lists** are non-increasing, not strictly descending. Equal prices
  stay in the list in first-seen order.
- **`get_months(n)`** returns at most n keys, not always n. Its 30-day steps
  can skip a month and land twice in another (`Calendar.SkipsFebruary`).
- **History region codes.**
  - In `fetch_all.py` they are the codes of every recent record. The Seoul
    top-20 codes add nothing, because they are a subset
    (`Collection.HistoryCodesSpec`).
  - In `fetch_district_data.py` they are the codes of the top-10 entries.
    Line 240 has no effect, because line 242 resets the set.
- **`price_per_pyeong`** is non-negative whenever the price is, and at most 0
  for a negative price, which `int()` accepts.

## Model

| member | source | states |
|---|---|---|
| Calendar.SubDays | fetch_district_data.py:145 | subtracting days from a valid date gives a valid date no later in month order, and an earlier month once at least the day-of-month is subtracted |
| Calendar.SubDaysOrdinal | fetch_district_data.py:145 | `d - timedelta(days=k)` exists exactly when the day number stays at least 1 (year 1 onwards), and is then the date k days earlier |
| Calendar.PrevMonthLast | fetch_district_data.py:145 | the last day of the previous month is the day just before the first of the month |
| Calendar.MonthKey | fetch_district_data.py:146 | `%Y%m` is six digits whose value is year*100+month |
| Calendar.MonthKeyOrder | fetch_district_data.py:146-147 | the string order of two month keys is the order of their months, and equal keys mean the same month |
| Calendar.GetMonths | fetch_district_data.py:141-147 | when every step stays at or after year 1, the months are strictly ascending (so distinct) and at most n |
| Calendar.StepKeysDefined | fetch_district_data.py:144-146 | the n steps back from the first of the month are all defined exactly when the last one stays at or after 0001-01-01 |
| Calendar.GetMonthsElems | fetch_district_data.py:144-147 | the keys are exactly the month keys of first-of-month minus 30*i days for i < n |
| Calendar.GetMonthsLast | fetch_all.py:177-183 | for n >= 1, whenever the steps stay in the calendar, the last key is the current month |
| Calendar.SkipsFebruary | fetch_district_data.py:145 | from 2026-03-01 the 30-, 60- and 90-day steps land on 2026-01-30, 2025-12-31 and 2025-12-01 |
| Calendar.MonthMissed | fetch_district_data.py:141-147 | a month that no 30-day step lands in is absent from `get_months(n)` |
| Calendar.MonthRepeated | fetch_district_data.py:141-147 | two steps landing in the same month make `get_months(n)` shorter than n |
| Calendar.GetMonthsSkips | fetch_district_data.py:141-147 | on 2026-03-15, `get_months(3)` is defined and lacks February 2026 |
| Calendar.GetMonthsRepeats | fetch_district_data.py:141-147 | on 2026-03-15, `get_months(4)` is defined and holds fewer than four months |
| Fetcher.Fetch | fetch_all.py:186-222 | the retrying fetch never makes more than `retries` requests and makes at least one when retries > 0 |
| Fetcher.FirstServed | fetch_all.py:192-200 | the attempt the retry loop stops at: every earlier attempt was a 429, and this one was not unless retries ran out |
| Fetcher.Backoffs | fetch_all.py:196-199 | the waits slept by a run of 429s, attempt k waiting 10 * 2^k seconds |
| Fetcher.Attempts | fetch_all.py:192-222 | the attempts from `attempt` on make at most `retries - attempt` requests; AttemptsSpec fixes their records, waits and request count |
| Fetcher.AttemptsSpec | fetch_all.py:192-222 | an independent description of the loop: after the run of 429s, a good reply is parsed after the 0.5 s delay; a result-code error, another HTTP error or an exception returns [] without delay; running out returns [] after all backoffs |
| Fetcher.AllRateLimited | fetch_all.py:192-222 | five 429s sleep 10, 20, 40, 80 and 160 s, make five requests and return [] without raising |
| Fetcher.FetchStopsOnError | fetch_all.py:201-220 | a non-429 HTTP error, any other exception or a result code other than 00/000 on the first attempt returns [] after one request and no sleep |
| Fetcher.FetchOnce | fetch_district_data.py:150-158 | the single-shot fetch returns [] on any failed request, and otherwise the parse of the reply, whatever its result code |
| Fetcher.FetchOnceIgnoresResultCode | fetch_district_data.py:150-158 | on a reply whose result code the retrying fetch rejects, the single-shot fetch still returns the parsed records while one attempt of the retrying fetch returns none |
| Fetcher.FetchOnceAgrees | fetch_district_data.py:150-158 | on a reply that is neither a 429 nor a result-code error, the single-shot fetch returns what one attempt of the retrying fetch returns |
| Money.FpSplit | fetch_district_data.py:199-202 | `p // 10000` and `p % 10000` satisfy b*10000 + r == p with 0 <= r < 10000 |
| Money.FpSplitUnique | fetch_all.py:270-273 | that split is the only one with a remainder in [0, 10000) |
| Money.Fp | fetch_all.py:270-273 | the rendering ends in 만 and contains 억 exactly when p >= 10000 |
| Money.ReadFpFp | fetch_district_data.py:199-202 | reading the 억/만 rendering back recovers every integer price, so `fp` loses nothing |
| Numeric.DigitsFixedOrder | fetch_district_data.py:146-147 | zero-padded keys of equal width sort as their numbers do |
| Numeric.Grouped | fetch_all.py:273 | `{:,}` of a natural is digits and commas, starts with a digit, and is the number once its commas are removed |
| Numeric.ParseInt | fetch_all.py:233-237 | `int()` accepts only text whose stripped form ends in a digit |
| Numeric.ParseIntText | fetch_all.py:235 | `int(str(n)) == n` for every integer |
| Numeric.ParseIntGrouped | fetch_all.py:233-235 | removing the commas of a `{:,}` rendering and applying `int()` gives the number back |
| Numeric.ParseDecimal | fetch_all.py:230 | `float()` accepts only non-blank text, and a negative value only after a leading minus |
| Numeric.ParseDecimalText | fetch_all.py:230 | a decimal written as digits, a point and a fixed-width fraction parses to its exact value |
| Numeric.RoundDiv | fetch_all.py:373 | `round(a / b)` is the nearest integer, halves going to the even one |
| Numeric.RoundDivUnique | fetch_all.py:373 | only one integer meets that rule |
| Numeric.RoundReal | fetch_all.py:245 | `round(x)` of a real is within a half of x, halves going to the even integer |
| Numeric.RoundRealMonotone | fetch_all.py:245 | rounding never reverses the order of two values |
| Numeric.RoundedMean | fetch_all.py:373 | `round(sum(v) / len(v))` is within half of the exact mean, and even on a tie |
| Numeric.RoundedMeanUnique | fetch_all.py:373 | no other integer is within half of the exact mean with ties to even |
| Numeric.RoundedMeanBounds | fetch_all.py:384 | a rounded mean lies within any bounds that hold for all its values |
| Text.StripShape | fetch_all.py:260 | `strip()` removes exactly a whitespace prefix and suffix and leaves no whitespace at either end |
| Text.RemoveMembers | fetch_all.py:233 | `replace(',', '')` keeps exactly the characters that are not commas |
| Text.ZFill | fetch_all.py:342 | `zfill(w)` pads with zeros to width w after any sign, and leaves longer text alone |
| Text.Find | fetch_all.py:211 | `'429' in str(e)` holds exactly when the text occurs at some position |
| Text.InsertSorted | fetch_district_data.py:146-147 | adding a key to a sorted distinct list keeps it sorted and distinct, with one more element unless already present |
| Text.SortedDistinct | fetch_all.py:340-344 | `sorted(set(xs))` is strictly ascending and holds exactly the elements of xs |
| Text.LessTotal | fetch_all.py:344 | Python's string order is total on distinct strings |
| Records.Gt | fetch_all.py:258-260 | `gt` is the default when the tag is missing or its text is empty, and otherwise no longer than the tag's text |
| Records.GtTrimmed | fetch_district_data.py:194-196 | a present tag's value is its text with exactly the surrounding whitespace cut off: a slice with only whitespace before and after it, which neither starts nor ends with whitespace |
| Records.PricePerPyeongNonNegative | fetch_all.py:245 | a non-negative price gives a non-negative price per pyeong |
| Records.PricePerPyeongMonotone | fetch_all.py:245 | on the same area a higher price never has a lower price per pyeong |
| Records.RegionOf | fetch_all.py:238 | the region lookup falls back to ('', '') for an unknown code |
| Records.Kept | fetch_all.py:231-252 | an item becomes a record exactly when its area is at least 59 m² and its comma-free price parses, with that area, price, code and region |
| Records.Outcome | fetch_all.py:229-252 | an unparsable area stops the whole parse; otherwise the item is kept or skipped as above, and a kept record is sound and is the record built from the item |
| Records.ScanAppend | fetch_all.py:227-255 | parsing stops for good at the first failure: items after it contribute nothing |
| Records.ScanMembers | fetch_district_data.py:163-191 | the parsed records are exactly the records kept from the items before the first failure |
| Records.ParseItems | fetch_all.py:225-255 | the parse loop never yields more records than items; ScanMembers, ParseItemsSound and ParseItemsFrom fix which records |
| Records.ParseItemsSound | fetch_all.py:225-255 | every parsed record has area >= 59, the input code and its region from the table |
| Records.ParseItemsFrom | fetch_all.py:229-252 | every parsed record carries the parsed area and comma-free price of one of the items |
| Records.Parse | fetch_district_data.py:161-191 | malformed XML yields no records, and never more records than items |
| Records.SeoulCodes | fetch_all.py:170 | a code is a Seoul code exactly when the table lists it under 서울시 |
| Seqs.FilterMembers | fetch_all.py:910 | a comprehension filter keeps exactly the elements that pass its test |
| Seqs.CountFilter | fetch_all.py:379-382 | counting with `sum(1 for ...)` is the length of the filtered list |
| Ranking.Best | fetch_all.py:330-334 | the dedup keeps at most one entry per key and never more entries than records |
| Ranking.BestSpec | fetch_all.py:330-334 | each kept entry is the first-seen maximum of its key, every key is represented, and keys appear in first-seen order |
| Ranking.SortDesc | fetch_all.py:335 | `sorted(..., reverse=True)` is a permutation of its input |
| Ranking.SortDescSorted | fetch_all.py:335 | the sorted list is non-increasing by the weight |
| Ranking.SortDescStable | fetch_all.py:335 | entries of equal weight keep their relative order (Python's sort is stable) |
| Ranking.SortDescTies | fetch_all.py:463 | two entries of equal weight come out in the order they had going in, stated on positions: if the input increases along some measure, so does every pair of tied outputs |
| Ranking.Take | fetch_all.py:335 | `[:n]` is the first min(n, len) entries |
| Ranking.TopNSpec | fetch_district_data.py:232-237 | the top list has distinct keys, is non-increasing, holds first-seen maxima, has min(n, keys) entries, and every record left out is no dearer than every entry |
| Series.Slot | fetch_all.py:371-375 | a chart cell is None exactly when no record falls in it, and otherwise the rounded mean (half to even) of the prices of the records in it |
| Series.SlotBounds | fetch_all.py:372-373 | a filled cell lies between the cheapest and dearest price it averages |
| Series.Labels | fetch_all.py:340-344 | the labels are strictly ascending and no more than the records |
| Series.LabelsMembers | fetch_district_data.py:265-269 | the labels are exactly the `YYYY.MM` of some record |
| Series.LabelSetFilter | fetch_all.py:429-430 | the labels of a filtered list are the labels of the records passing the filter |
| Series.DistrictRow | fetch_all.py:369-376 | a row has one cell per label, None exactly where the complex has no sale in that month, and otherwise the rounded mean of that month's prices |
| Series.DistrictRowBounds | fetch_district_data.py:296-298 | a filled cell lies between the complex's cheapest and dearest sale that month |
| Series.DistrictSeries | fetch_district_data.py:292-301 | one row per top-10 entry, by name, each as long as the labels |
| Series.DealCount | fetch_all.py:379-382 | the deal count is at most the district's records, and 0 exactly when none is in the recent months |
| Series.DealCountAppend | fetch_district_data.py:304-307 | deal counts add up over a split of the records |
| Series.MinPrice | fetch_all.py:384 | the position of a cheapest entry |
| Series.MaxPrice | fetch_all.py:384 | the position of a dearest entry |
| Series.TopAverageBounds | fetch_district_data.py:309 | the top-list average lies between its cheapest and dearest entry |
| Districts.GroupPos | fetch_all.py:325 | the position of a key's group, or the end when the key has none yet |
| Districts.GroupBy | fetch_all.py:322-325 | grouping yields no more groups than records; GroupBySpec fixes the groups and their order |
| Districts.GroupBySpec | fetch_all.py:322-325 | the groups have distinct keys, each holds exactly the records of its key in order and is non-empty, every record's key has a group, and the groups come in the order their keys first occur (the dict's insertion order) |
| Districts.GroupByOrder | fetch_all.py:322-325 | every group's key occurs in the records, and of two groups the earlier one's key occurs first |
| Districts.Top10 | fetch_district_data.py:232-237 | one district's top list has at most 10 entries; TopNSpec fixes which |
| Districts.Top10Map | fetch_district_data.py:229-239 | every top-10 list in the map has between 1 and 10 entries |
| Districts.TopMapKeepsAll | fetch_all.py:329-337 | when every group's list is non-empty, the map has one entry per group, in group order |
| Districts.Top10NonEmpty | fetch_all.py:336-337 | a non-empty group always gets a non-empty top 10, so `if t10` never drops a district |
| Districts.Top10MapSpec | fetch_all.py:322-337 | one entry per district with a recent sale, distinct keys; each list has 1 to 10 entries, distinct names, non-increasing price, each the first-seen maximum for its name in the district |
| Districts.Top10Entry | fetch_district_data.py:232-237 | a district's top 10 has distinct names, non-increasing prices, and first-seen maxima |
| Districts.RegionCodes | fetch_all.py:920-922 | every record's code is among the region codes |
| Districts.CodesNeeded | fetch_district_data.py:242-245 | the region codes of the entries of the top-10 map; CodesNeededSpec and CodesNeededCover characterise it |
| Districts.CodesNeededCover | fetch_district_data.py:229-246 | when no district's recent records carry two different region codes, the codes needed are exactly the recent records' codes |
| Districts.CodesNeededSpec | fetch_district_data.py:242-246 | the codes needed are codes of recent records, and there is at least one when there is a recent record |
| Seoul.Top20 | fetch_all.py:416-422 | the Seoul ranking has at most 20 entries |
| Seoul.Top20Spec | fetch_all.py:416-422 | the top 20 has distinct (name, sido, sigungu) keys, is non-increasing, holds first-seen maxima, has min(20, complexes) entries, and no complex left out is dearer than an entry |
| Seoul.MonthlyAvg | fetch_all.py:425-432 | no more monthly averages than records; MonthlyAvgMonths fixes the months, MonthlyAvgValue fixes each value and MonthlyAvgBounds bounds it |
| Seoul.MonthlyAvgValue | fetch_all.py:425-432 | each monthly average is the rounded mean of the prices of the top-20 complexes' sales in that month |
| Seoul.MonthlyAvgMonths | fetch_all.py:425-432 | the monthly averages are in ascending month order, one per month in which a top-20 complex sold |
| Seoul.MonthlyAvgBounds | fetch_all.py:431-432 | each monthly average lies between that month's cheapest and dearest top-20 sale |
| Seoul.PerAptMonthly | fetch_all.py:435-456 | one series per top-20 entry, named after it and as long as the months; a cell is None exactly when that complex has no sale that month, and otherwise the rounded mean of its prices that month |
| Seoul.AptRow | fetch_all.py:448-454 | one complex's row: per month, None without a sale and otherwise the rounded mean of its prices |
| Seoul.PerAptMonthsAgree | fetch_all.py:436-445 | the per-complex chart's months are the months of the monthly averages |
| Seoul.Tally | fetch_all.py:459-462 | no more districts than top-20 entries; TallySpec fixes the entries and their order |
| Seoul.TallySpec | fetch_all.py:459-462 | the tally has one entry per district, each the number of top-20 entries in it, and the districts come in the order they first appear in the top 20 |
| Seoul.RegionDist | fetch_all.py:459-463 | no more districts than top-20 entries; RegionDistSpec fixes the counts and the order, ties included |
| Seoul.RegionDistSpec | fetch_all.py:459-463 | the distribution has distinct districts, non-increasing counts, each the number of top-20 entries in the district, covers every entry's district, and of two districts with equal counts the one that appears first in the top 20 comes first |
| Seoul.TopRegionFirst | fetch_all.py:505 | when the distribution breaks ties by first appearance, every entry whose district ties with the first district lies at or after that district's first entry |
| Seoul.RegionDistTop | fetch_all.py:459-463 | the first district's count is its true count, no district has more, and it is the earliest of the districts with that many |
| Seoul.Ranks | fetch_all.py:476 | the new rank state holds every current key, each with a rank between 1 and the list length |
| Seoul.RanksSpec | fetch_all.py:476 | the new rank state holds exactly the current keys (old ones dropped), each at the position of its last occurrence |
| Seoul.RanksDistinct | fetch_all.py:476 | with distinct keys entry i is saved with rank i + 1 |
| Seoul.RankChanges | fetch_all.py:471-476 | one change per entry: 'new' exactly when its key is not in the previous state, and otherwise the previous rank minus the 1-based position; the saved state holds every key of the list at the rank of its last entry |
| Seoul.RankChangesSpec | fetch_all.py:466-479 | a change is the previous rank minus the new rank; against its own saved state a list shows no movement |
| Seoul.Extreme | fetch_all.py:562-565 | `max`/`min` over the movers picks a mover of extreme delta, the first such one, and none when nobody moved |
| Seoul.Riser | fetch_all.py:562-567 | a riser shown is an entry that moved up; MoversSpec fixes when one is shown and which |
| Seoul.Faller | fetch_all.py:562-569 | a faller shown is an entry that moved down; MoversSpec fixes when one is shown and which |
| Seoul.MoversSpec | fetch_all.py:562-569 | a biggest riser is shown exactly when some delta is positive, a biggest faller exactly when some is negative, each the first with the extreme delta |
| Seoul.RunBack | fetch_all.py:493-501 | walking back from a month counts the consecutive diffs going the same way and stops at the first that does not |
| Seoul.Streak | fetch_all.py:490-501 | with fewer than two months the streak is 0 and flat; otherwise the direction is up exactly when the last diff is positive (a zero diff counts as down), 1 <= streak <= months - 1, and the streak is the maximal run of same-direction diffs ending at the last month |
| Seoul.StreakWalk | fetch_all.py:490-501 | the loop in `seoul_insights` computes that streak and direction |
| Seoul.Mom | fetch_all.py:485-488 | the month-over-month change is 0 with fewer than two months or a non-positive previous month, and otherwise the percent change of the last month |
| Seoul.MomSign | fetch_all.py:485-488 | the unrounded change is positive exactly when the last month rose and negative exactly when it fell |
| Seoul.Insights | fetch_all.py:502-507 | the top complex is the first of the top 20, with its price; the change is the month-over-month change and the streak and direction are those of the monthly averages |
| Seoul.InsightsAvg | fetch_all.py:484 | the average lies between the cheapest and dearest top-20 entry |
| Seoul.InsightsRegion | fetch_all.py:489-505 | the top region's count is its number of top-20 entries, no district has more, and of the districts with that many it is the first to appear in the top 20 |
| Collection.FetchMonthsMembers | fetch_all.py:288-289 | one code's records are exactly those returned for one of its months |
| Collection.FetchGrid | fetch_all.py:280-310 | the records of every month of every code, codes in order; FetchGridMembers, FetchGridAppend and FetchGridOrder characterise it |
| Collection.FetchGridMembers | fetch_all.py:280-294 | the collected records are exactly those returned by one of the (code, month) requests |
| Collection.FetchGridAppend | fetch_all.py:297-310 | collecting a split list of codes gives each part's records one after the other |
| Collection.FetchGridOrder | fetch_all.py:302-304 | the records collected for a set of codes do not depend on the order it is walked in |
| Collection.AllData | fetch_district_data.py:252-256 | the recent records are a prefix of all the data |
| Collection.AllDataMembers | fetch_all.py:935-938 | a record is in all the data exactly when it is recent or returned by a history request |
| Collection.SeoulOnly | fetch_all.py:910 | every record of the Seoul subset has a Seoul code |
| Collection.HistoryCodes | fetch_all.py:912-929 | the district codes united with the Seoul top-20 codes; HistoryCodesSpec shows it equals the recent records' codes |
| Collection.HistoryCodesSpec | fetch_all.py:915-929 | the history codes are exactly the region codes of the recent records |
| Collection.GroupCodesAll | fetch_all.py:916-922 | the district groups' codes are exactly the recent records' codes |
| Collection.SeoulTopCodes | fetch_all.py:925-926 | the Seoul top 20's codes are all recent codes |
| Collection.ExtraMonths | fetch_district_data.py:249-250 | no more months than the window, and none of them a recent month; ExtraMonthsSpec fixes the rest |
| Collection.ExtraMonthsSpec | fetch_district_data.py:249-250 | the extra months are the 36-month window minus the recent months, still strictly ascending |

## Left out

- HTTP, `time.sleep`, XML parsing and the regular expressions on the reply
  text are left out. A reply is an abstract `Response` (429, HTTP error with
  its text, other exception, or success with an optional result code and a
  parsed document), and sleeps are returned as waits.
- The API pre-flight check, environment variables, `exit`, `print` logging and
  `os.makedirs` are left out: they are I/O around the model.
- File I/O is left out: `previous_rank.json` is read and written as a map
  passed in and returned, and the JSON dumps and HTML writes are not modelled.
- The HTML and JavaScript text of `gen_seoul_html` is left out. Only its
  biggest-riser/faller choice is modelled.
- `datetime.today()` and `datetime.now()` are left out; today is a parameter,
  and the `updated` timestamp is not modelled.
- The literal `REGIONS` table is left out; the model takes any code to
  (sido, sigungu) map.
- Floating point is left out. `price_per_pyeong` and the means are exact
  rationals rounded half to even, so binary float error is ignored.
- `area_pyeong` and `fb` are not modelled: they are display-only floats.
- Seoul.Mom: the model gives the exact percent change and does not model its
  rounding to one decimal.
- Seoul.MomSign: states the sign of the unrounded change. The arrow at
  fetch_all.py:552-553 tests the change after rounding to one decimal, so a
  change below 0.05 percent in size shows as flat there. Rounding of reals is
  not modelled.
- Numeric.ParseDecimal: exponents, `inf`, `nan`, underscores and non-ASCII
  digits count as parse failures, which `float()` would accept.
- Numeric.ParseInt: non-ASCII digits are rejected, which `int()` would accept.
- Calendar.MonthKey: years outside 1..9999 are not produced by `datetime`, and
  the key is only modelled for those years.
- The `previous_rank.json` state is a map from key to integer. Other JSON
  values are not modelled. A `null` would read as 'new'. A float or a boolean
  would subtract (booleans as 1 and 0), and a float change would then be left
  out of the movers by `isinstance(rc, int)` at fetch_all.py:562. A string, a
  list or an object would make the subtraction raise.
- Seoul.MonthlyAvg: a month with no records averages to 0. This cannot happen,
  since every listed month has a record.
- `codes_needed.add(generator)` at fetch_district_data.py:240 is not modelled;
  its result is discarded by line 242.
- The printed progress lines and all progress pauses (every 10 or 20 regions
  and every 5 or 10 history codes) are left out.

=== FILE: calendar.dfy ===
/** Civil-calendar arithmetic behind `get_months`: stepping back whole days
    from the first of the current month and naming each month "%Y%m". */
module Calendar {
  import opened Wrappers
  import Text
  import opened Numeric

  /** A proleptic Gregorian date, as Python's `date` holds it. */
  datatype Date = Date(year: int, month: int, day: int)

  predicate IsLeap(y: int) {
    y % 4 == 0 && (y % 100 != 0 || y % 400 == 0)
  }

  function DaysIn(y: int, m: int): (n: int)
    requires 1 <= m <= 12
    ensures 28 <= n <= 31
  {
    if m == 2 then (if IsLeap(y) then 29 else 28)
    else if m == 4 || m == 6 || m == 9 || m == 11 then 30
    else 31
  }

  /** Python's `date` range: years 1 to 9999. */
  predicate Valid(d: Date) {
    1 <= d.year <= 9999 && 1 <= d.month <= 12 && 1 <= d.day <= DaysIn(d.year, d.month)
  }

  /** Months counted from the start of the era; orders (year, month) pairs. */
  function MonthIndex(d: Date): int {
    d.year * 12 + d.month
  }

  // ---------------------------------------------------------------------
  // Day numbers, counted month by month: the reference for date subtraction.

  /** Days in the months of year y before month m (m == 13: the whole year). */
  function DaysBeforeMonth(y: int, m: int): nat
    requires 1 <= m <= 13
  {
    if m == 1 then 0 else DaysBeforeMonth(y, m - 1) + DaysIn(y, m - 1)
  }

  function YearLength(y: int): nat {
    DaysBeforeMonth(y, 13)
  }

  lemma YearLengthLeap(y: int)
    ensures YearLength(y) == if IsLeap(y) then 366 else 365
  {
    assert DaysBeforeMonth(y, 2) == 31;
    assert DaysBeforeMonth(y, 3) == 31 + DaysIn(y, 2);
    assert DaysBeforeMonth(y, 4) == DaysBeforeMonth(y, 3) + 31;
    assert DaysBeforeMonth(y, 5) == DaysBeforeMonth(y, 4) + 30;
    assert DaysBeforeMonth(y, 6) == DaysBeforeMonth(y, 5) + 31;
    assert DaysBeforeMonth(y, 7) == DaysBeforeMonth(y, 6) + 30;
    assert DaysBeforeMonth(y, 8) == DaysBeforeMonth(y, 7) + 31;
    assert DaysBeforeMonth(y, 9) == DaysBeforeMonth(y, 8) + 31;
    assert DaysBeforeMonth(y, 10) == DaysBeforeMonth(y, 9) + 30;
    assert DaysBeforeMonth(y, 11) == DaysBeforeMonth(y, 10) + 31;
    assert DaysBeforeMonth(y, 12) == DaysBeforeMonth(y, 11) + 30;
    assert DaysBeforeMonth(y, 13) == DaysBeforeMonth(y, 12) + 31;
  }

  /** Days in the years before year y. */
  function DaysBeforeYear(y: int): nat
    requires y >= 1
  {
    if y == 1 then 0 else DaysBeforeYear(y - 1) + YearLength(y - 1)
  }

  /** `date.toordinal()`: 0001-01-01 is day 1. */
  function Ordinal(d: Date): int
    requires Valid(d)
  {
    DaysBeforeYear(d.year) + DaysBeforeMonth(d.year, d.month) + d.day
  }

  /** The month before (y, m). */
  function PrevMonth(y: int, m: int): (r: (int, int))
    requires 1 <= m <= 12
    ensures 1 <= r.1 <= 12 && r.0 * 12 + r.1 == y * 12 + m - 1
  {
    if m == 1 then (y - 1, 12) else (y, m - 1)
  }

  /** `d - timedelta(days=k)`; None where Python raises OverflowError because
      the result would fall before 0001-01-01. */
  function SubDays(d: Date, k: nat): (r: Option<Date>)
    requires Valid(d)
    ensures r.Some? ==> Valid(r.value) && MonthIndex(r.value) <= MonthIndex(d)
    ensures r.Some? && k >= d.day ==> MonthIndex(r.value) < MonthIndex(d)
    decreases k
  {
    if k < d.day then Some(Date(d.year, d.month, d.day - k))
    else
      var (y, m) := PrevMonth(d.year, d.month);
      if y < 1 then None
      else SubDays(Date(y, m, DaysIn(y, m)), k - d.day)
  }

  /** The last day of the previous month is the day before the first. */
  lemma PrevMonthLast(y: int, m: int)
    requires 1 <= y <= 9999 && 1 <= m <= 12 && PrevMonth(y, m).0 >= 1
    ensures var (py, pm) := PrevMonth(y, m);
      Ordinal(Date(py, pm, DaysIn(py, pm))) + 1 == Ordinal(Date(y, m, 1))
  {
  }

  /** Subtracting k days lowers the day number by exactly k, and fails exactly
      when that would leave the calendar. */
  lemma {:induction false} SubDaysOrdinal(d: Date, k: nat)
    requires Valid(d)
    ensures SubDays(d, k).Some? <==> Ordinal(d) - k >= 1
    ensures SubDays(d, k).Some? ==> Ordinal(SubDays(d, k).value) == Ordinal(d) - k
    decreases k
  {
    if k >= d.day {
      var (y, m) := PrevMonth(d.year, d.month);
      if y >= 1 {
        PrevMonthLast(d.year, d.month);
        SubDaysOrdinal(Date(y, m, DaysIn(y, m)), k - d.day);
      }
    }
  }

  // ---------------------------------------------------------------------
  // Month keys.

  lemma Pow10Six()
    ensures Pow10(6) == 1000000
  {
    assert Pow10(2) == 100;
    assert Pow10(4) == 100 * Pow10(2);
  }

  /** `d.strftime('%Y%m')`: four-digit year, two-digit month. */
  function MonthKey(d: Date): (s: string)
    requires Valid(d)
    ensures |s| == 6 && AllDigits(s)
    ensures DigitsValue(s) == d.year * 100 + d.month
  {
    Pow10Six();
    DigitsFixed(d.year * 100 + d.month, 6)
  }

  /** Month keys sort as the months they name. */
  lemma MonthKeyOrder(a: Date, b: Date)
    requires Valid(a) && Valid(b)
    ensures Text.Less(MonthKey(a), MonthKey(b)) <==> MonthIndex(a) < MonthIndex(b)
    ensures MonthKey(a) == MonthKey(b) <==> MonthIndex(a) == MonthIndex(b)
  {
    var x := KeyOf(a);
    var y := KeyOf(b);
    MonthNumberOrder(a, b);
    KeysOrder(MonthKey(a), MonthKey(b), x, y, MonthIndex(a), MonthIndex(b));
  }

  /** The number a month key spells, and the key as its six digits. */
  lemma KeyOf(d: Date) returns (x: nat)
    requires Valid(d)
    ensures x == d.year * 100 + d.month && x < Pow10(6)
    ensures MonthKey(d) == DigitsFixed(x, 6)
  {
    Pow10Six();
    x := d.year * 100 + d.month;
  }

  /** Six-digit keys of two numbers compare as the quantities the numbers
      order. */
  lemma KeysOrder(sa: string, sb: string, x: nat, y: nat, ia: int, ib: int)
    requires x < Pow10(6) && y < Pow10(6)
    requires sa == DigitsFixed(x, 6) && sb == DigitsFixed(y, 6)
    requires (x < y <==> ia < ib) && (x == y <==> ia == ib)
    ensures Text.Less(sa, sb) <==> ia < ib
    ensures sa == sb <==> ia == ib
  {
    DigitsFixedOrder(x, y, 6);
    DigitsFixedInjective(x, y, 6);
  }

  lemma MonthNumberOrder(a: Date, b: Date)
    requires Valid(a) && Valid(b)
    ensures a.year * 100 + a.month < b.year * 100 + b.month <==> MonthIndex(a) < MonthIndex(b)
    ensures a.year * 100 + a.month == b.year * 100 + b.month <==> MonthIndex(a) == MonthIndex(b)
  {
  }

  // ---------------------------------------------------------------------
  // get_months.

  /** The key of the i-th step: the first of the month minus 30 * i days. */
  function StepKey(first: Date, i: nat): Option<string>
    requires Valid(first)
  {
    match SubDays(first, 30 * i)
    case None => None
    case Some(d) => Some(MonthKey(d))
  }

  /** The keys of steps 0 .. n-1 in step order; None once a step falls
      before year 1 (Python raises OverflowError there). */
  function StepKeys(first: Date, n: nat): (r: Option<seq<string>>)
    requires Valid(first)
    ensures r.Some? ==> |r.value| == n
    ensures r.Some? ==> forall i | 0 <= i < n :: StepKey(first, i) == Some(r.value[i])
  {
    if n == 0 then Some([])
    else
      match StepKeys(first, n - 1)
      case None => None
      case Some(acc) =>
        match StepKey(first, n - 1)
        case None => None
        case Some(k) => Some(acc + [k])
  }

  /** `get_months(n)` on the day `today`: the set of step keys, sorted. */
  function GetMonths(today: Date, n: nat): (r: Option<seq<string>>)
    requires Valid(today)
    ensures r.Some? ==> Text.StrictlySorted(r.value) && |r.value| <= n
  {
    match StepKeys(Date(today.year, today.month, 1), n)
    case None => None
    case Some(keys) => Some(Text.SortedDistinct(keys))
  }

  /** get_months fails exactly when its last step leaves the calendar. */
  lemma {:induction false} StepKeysDefined(first: Date, n: nat)
    requires Valid(first)
    ensures StepKeys(first, n).Some? <==> n == 0 || Ordinal(first) - 30 * (n - 1) >= 1
  {
    if n > 0 {
      StepKeysDefined(first, n - 1);
      SubDaysOrdinal(first, 30 * (n - 1));
    }
  }

  /** Step i lands in the current month or an earlier one, and step 0 in it. */
  lemma StepNotLater(first: Date, i: nat)
    requires Valid(first) && first.day == 1 && StepKey(first, i).Some?
    ensures !Text.Less(MonthKey(first), StepKey(first, i).value)
    ensures i == 0 ==> StepKey(first, i).value == MonthKey(first)
  {
    var d := SubDays(first, 30 * i).value;
    MonthKeyOrder(first, d);
  }

  /** The last key of `get_months(n)`, n >= 1, is the current month's. */
  lemma GetMonthsLast(today: Date, n: nat)
    requires Valid(today) && n >= 1
    ensures GetMonths(today, n).Some? ==>
      var r := GetMonths(today, n).value;
      |r| > 0 && r[|r| - 1] == MonthKey(today)
  {
    if GetMonths(today, n).Some? {
      var first := Date(today.year, today.month, 1);
      var keys := StepKeys(first, n).value;
      var r := GetMonths(today, n).value;
      forall i | 0 <= i < n
        ensures !Text.Less(MonthKey(first), keys[i])
      {
        StepNotLater(first, i);
      }
      StepNotLater(first, 0);
      assert keys[0] in Text.Elems(keys);
      forall y | y in r
        ensures !Text.Less(MonthKey(first), y)
      {
        assert y in Text.Elems(r);
      }
      Text.SortedLast(r, MonthKey(first));
      SameMonthKey(first, today);
    }
  }

  lemma SameMonthKey(a: Date, b: Date)
    requires Valid(a) && Valid(b) && a.year == b.year && a.month == b.month
    ensures MonthKey(a) == MonthKey(b)
  {
  }

  /** The result holds exactly the keys of the n steps. */
  lemma GetMonthsElems(today: Date, n: nat)
    requires Valid(today) && GetMonths(today, n).Some?
    ensures forall k :: (k in GetMonths(today, n).value
      <==> exists i | 0 <= i < n :: StepKey(Date(today.year, today.month, 1), i) == Some(k))
  {
    var first := Date(today.year, today.month, 1);
    var keys := StepKeys(first, n).value;
    var r := GetMonths(today, n).value;
    assert Text.Elems(r) == Text.Elems(keys);
    forall k
      ensures k in r <==> exists i | 0 <= i < n :: StepKey(first, i) == Some(k)
    {
      if k in r {
        assert k in Text.Elems(keys);
        var i :| 0 <= i < |keys| && keys[i] == k;
        assert StepKey(first, i) == Some(k);
      }
      if i :| 0 <= i < n && StepKey(first, i) == Some(k) {
        assert keys[i] in Text.Elems(keys);
      }
    }
  }

  /** From 2026-03-01, steps of 0, 30, 60 and 90 days land in March,
      January, December and December again. */
  lemma SkipsFebruary()
    ensures SubDays(Date(2026, 3, 1), 30) == Some(Date(2026, 1, 30))
    ensures SubDays(Date(2026, 3, 1), 60) == Some(Date(2025, 12, 31))
    ensures SubDays(Date(2026, 3, 1), 90) == Some(Date(2025, 12, 1))
  {
  }

  /** Step i from first does not land in m's month (or leaves the calendar). */
  ghost predicate StepMisses(first: Date, i: nat, m: Date)
    requires Valid(first)
  {
    match SubDays(first, 30 * i)
    case None => true
    case Some(d) => MonthIndex(d) != MonthIndex(m)
  }

  /** A month no step lands in is missing from `get_months(n)`. */
  lemma MonthMissed(today: Date, n: nat, m: Date)
    requires Valid(today) && Valid(m) && GetMonths(today, n).Some?
    requires forall i | 0 <= i < n :: StepMisses(Date(today.year, today.month, 1), i, m)
    ensures MonthKey(m) !in GetMonths(today, n).value
  {
    var first := Date(today.year, today.month, 1);
    GetMonthsElems(today, n);
    if MonthKey(m) in GetMonths(today, n).value {
      var i :| 0 <= i < n && StepKey(first, i) == Some(MonthKey(m));
      assert StepMisses(first, i, m);
      MonthKeyOrder(SubDays(first, 30 * i).value, m);
    }
  }

  /** Two steps landing in the same month make `get_months(n)` shorter
      than n. */
  lemma MonthRepeated(today: Date, n: nat, i: nat, j: nat)
    requires Valid(today) && GetMonths(today, n).Some? && i < j < n
    requires var first := Date(today.year, today.month, 1);
      && SubDays(first, 30 * i).Some? && SubDays(first, 30 * j).Some?
      && MonthIndex(SubDays(first, 30 * i).value) == MonthIndex(SubDays(first, 30 * j).value)
    ensures |GetMonths(today, n).value| < n
  {
    var first := Date(today.year, today.month, 1);
    var keys := StepKeys(first, n).value;
    var r := GetMonths(today, n).value;
    MonthKeyOrder(SubDays(first, 30 * i).value, SubDays(first, 30 * j).value);
    assert keys[i] == keys[j];
    Text.ElemsCard(keys);
    Text.StrictlySortedCard(r);
  }

  /** On 2026-03-15 the last three months are March, January and December:
      February is missing. */
  lemma GetMonthsSkips()
    ensures GetMonths(Date(2026, 3, 15), 3).Some?
      && MonthKey(Date(2026, 2, 1)) !in GetMonths(Date(2026, 3, 15), 3).value
  {
    var today, first := Date(2026, 3, 15), Date(2026, 3, 1);
    StepKeysDefined(first, 3);
    SkipsFebruary();
    forall i | 0 <= i < 3
      ensures StepMisses(first, i, Date(2026, 2, 1))
    {
      assert i == 0 || i == 1 || i == 2;
    }
    MonthMissed(today, 3, Date(2026, 2, 1));
  }

  /** On 2026-03-15 the last four months come out as fewer than four, as
      the steps of 60 and 90 days both land in December. */
  lemma GetMonthsRepeats()
    ensures GetMonths(Date(2026, 3, 15), 4).Some?
      && |GetMonths(Date(2026, 3, 15), 4).value| < 4
  {
    var today, first := Date(2026, 3, 15), Date(2026, 3, 1);
    StepKeysDefined(first, 4);
    SkipsFebruary();
    MonthRepeated(today, 4, 2, 3);
  }
}

=== FILE: collection.dfy ===
/** Collecting the records: one request per (region code, month) pair in
    nested loops, the region codes and extra months the history needs, and
    the Seoul subset. The request itself is a parameter: the retrying fetch
    of the Seoul script or the single-shot fetch of the district script. */
module Collection {
  import Text
  import opened Records
  import opened Seqs
  import Districts
  import Seoul

  /** `for m in months: out.extend(fetch(code, m))`. */
  function FetchMonths(code: string, months: seq<string>, fetch: (string, string) -> seq<Record>): seq<Record> {
    if |months| == 0 then []
    else FetchMonths(code, months[..|months| - 1], fetch) + fetch(code, months[|months| - 1])
  }

  /** `fetch_all_recent` and `fetch_history`: every month of every code, codes
      in the given order. */
  function FetchGrid(codes: seq<string>, months: seq<string>, fetch: (string, string) -> seq<Record>): seq<Record> {
    if |codes| == 0 then []
    else FetchGrid(codes[..|codes| - 1], months, fetch) + FetchMonths(codes[|codes| - 1], months, fetch)
  }

  lemma {:induction false} FetchMonthsMembers(code: string, months: seq<string>, fetch: (string, string) -> seq<Record>)
    ensures forall x :: x in FetchMonths(code, months, fetch) <==>
      exists j | 0 <= j < |months| :: x in fetch(code, months[j])
  {
    if |months| > 0 {
      var init := months[..|months| - 1];
      FetchMonthsMembers(code, init, fetch);
      assert forall j | 0 <= j < |init| :: init[j] == months[j];
    }
  }

  /** A record is collected exactly when one of the requests returned it. */
  lemma {:induction false} FetchGridMembers(codes: seq<string>, months: seq<string>, fetch: (string, string) -> seq<Record>)
    ensures forall x :: x in FetchGrid(codes, months, fetch) <==>
      exists i, j | 0 <= i < |codes| && 0 <= j < |months| :: x in fetch(codes[i], months[j])
  {
    if |codes| > 0 {
      var init := codes[..|codes| - 1];
      var last := codes[|codes| - 1];
      FetchGridMembers(init, months, fetch);
      FetchMonthsMembers(last, months, fetch);
      assert forall i | 0 <= i < |init| :: init[i] == codes[i];
      forall x | x in FetchMonths(last, months, fetch)
        ensures exists i, j | 0 <= i < |codes| && 0 <= j < |months| :: x in fetch(codes[i], months[j])
      {
        var j :| 0 <= j < |months| && x in fetch(last, months[j]);
        assert x in fetch(codes[|codes| - 1], months[j]);
      }
    }
  }

  /** The records collected for a split list of codes are those of each
      part, one after the other. */
  lemma {:induction false} FetchGridAppend(a: seq<string>, b: seq<string>, months: seq<string>, fetch: (string, string) -> seq<Record>)
    ensures FetchGrid(a + b, months, fetch) == FetchGrid(a, months, fetch) + FetchGrid(b, months, fetch)
  {
    if |b| == 0 {
      assert a + b == a;
    } else {
      var init := b[..|b| - 1];
      var last := b[|b| - 1];
      var ab := a + b;
      assert ab[..|ab| - 1] == a + init;
      assert ab[|ab| - 1] == last;
      FetchGridAppend(a, init, months, fetch);
      var tail := FetchMonths(last, months, fetch);
      assert FetchGrid(ab, months, fetch) == FetchGrid(a + init, months, fetch) + tail;
      assert FetchGrid(b, months, fetch) == FetchGrid(init, months, fetch) + tail;
    }
  }

  /** Which records the history collects does not depend on the order in
      which a set of codes is walked. */
  lemma FetchGridOrder(a: seq<string>, b: seq<string>, months: seq<string>, fetch: (string, string) -> seq<Record>)
    requires Text.Elems(a) == Text.Elems(b)
    ensures forall x :: x in FetchGrid(a, months, fetch) <==> x in FetchGrid(b, months, fetch)
  {
    FetchGridMembers(a, months, fetch);
    FetchGridMembers(b, months, fetch);
    forall x, i, j | 0 <= i < |a| && 0 <= j < |months| && x in fetch(a[i], months[j])
      ensures x in FetchGrid(b, months, fetch)
    {
      assert a[i] in Text.Elems(b);
      var k :| 0 <= k < |b| && b[k] == a[i];
      assert x in fetch(b[k], months[j]);
    }
    forall x, i, j | 0 <= i < |b| && 0 <= j < |months| && x in fetch(b[i], months[j])
      ensures x in FetchGrid(a, months, fetch)
    {
      assert b[i] in Text.Elems(a);
      var k :| 0 <= k < |a| && a[k] == b[i];
      assert x in fetch(a[k], months[j]);
    }
  }

  /** `alldata = recent + history`: the recent records come first, unchanged. */
  function AllData(recent: seq<Record>, codes: seq<string>, extra: seq<string>,
                   fetch: (string, string) -> seq<Record>): (r: seq<Record>)
    ensures |recent| <= |r| && r[..|recent|] == recent
  {
    recent + FetchGrid(codes, extra, fetch)
  }

  /** A record is in the combined data exactly when it is a recent record or
      one of the history requests returned it. */
  lemma AllDataMembers(recent: seq<Record>, codes: seq<string>, extra: seq<string>,
                       fetch: (string, string) -> seq<Record>)
    ensures forall x :: x in AllData(recent, codes, extra, fetch) <==>
      x in recent || exists i, j | 0 <= i < |codes| && 0 <= j < |extra| :: x in fetch(codes[i], extra[j])
  {
    FetchGridMembers(codes, extra, fetch);
  }

  // ---------------------------------------------------------------------
  // The Seoul subset and the history codes.

  function InSeoul(seoulCodes: set<string>): Record -> bool {
    (x: Record) => x.regionCode in seoulCodes
  }

  /** `[it for it in xs if it['region_code'] in SEOUL_CODES]`. */
  function SeoulOnly(xs: seq<Record>, seoulCodes: set<string>): (r: seq<Record>)
    ensures forall i | 0 <= i < |r| :: r[i].regionCode in seoulCodes
  {
    Filter(xs, InSeoul(seoulCodes))
  }

  /** The region codes over all district groups. */
  function GroupCodes(g: seq<(string, seq<Record>)>): set<string> {
    set i, j | 0 <= i < |g| && 0 <= j < |g[i].1| :: g[i].1[j].regionCode
  }

  /** `all_history_codes` of the Seoul script: the codes of every district
      group united with the codes of the Seoul top 20. */
  function HistoryCodes(recent: seq<Record>, seoulCodes: set<string>): set<string> {
    var t20 := Seoul.Top20(SeoulOnly(recent, seoulCodes));
    GroupCodes(Districts.GroupBy(recent, DistrictKey)) + Districts.RegionCodes(t20)
  }

  /** Every record lies in some group, so the district codes are all the
      recent codes, and the Seoul top 20 adds none. */
  lemma HistoryCodesSpec(recent: seq<Record>, seoulCodes: set<string>)
    ensures HistoryCodes(recent, seoulCodes) == Districts.RegionCodes(recent)
  {
    var g := Districts.GroupBy(recent, DistrictKey);
    GroupCodesAll(recent, g);
    SeoulTopCodes(recent, seoulCodes);
  }

  lemma GroupCodesAll(recent: seq<Record>, g: seq<(string, seq<Record>)>)
    requires g == Districts.GroupBy(recent, DistrictKey)
    ensures GroupCodes(g) == Districts.RegionCodes(recent)
  {
    Districts.GroupByGroups(recent, DistrictKey);
    GroupCodesSound(recent, g);
    GroupCodesComplete(recent, g);
  }

  /** Every code of a group is the code of one of the records. */
  lemma GroupCodesSound(recent: seq<Record>, g: seq<(string, seq<Record>)>)
    requires Districts.Grouping(recent, g, DistrictKey)
    ensures GroupCodes(g) <= Districts.RegionCodes(recent)
  {
    forall c | c in GroupCodes(g)
      ensures c in Districts.RegionCodes(recent)
    {
      var i, j :| 0 <= i < |g| && 0 <= j < |g[i].1| && g[i].1[j].regionCode == c;
      FilterMembers(recent, Districts.HasKey(DistrictKey, g[i].0));
      assert g[i].1[j] in g[i].1;
      var m :| 0 <= m < |recent| && recent[m] == g[i].1[j];
    }
  }

  /** Every record's code is the code of a record in its group. */
  lemma GroupCodesComplete(recent: seq<Record>, g: seq<(string, seq<Record>)>)
    requires Districts.Grouping(recent, g, DistrictKey)
    ensures Districts.RegionCodes(recent) <= GroupCodes(g)
  {
    forall c | c in Districts.RegionCodes(recent)
      ensures c in GroupCodes(g)
    {
      var m :| 0 <= m < |recent| && recent[m].regionCode == c;
      var i := Districts.GroupPos(g, DistrictKey(recent[m]));
      FilterMembers(recent, Districts.HasKey(DistrictKey, g[i].0));
      assert recent[m] in g[i].1;
      var j :| 0 <= j < |g[i].1| && g[i].1[j] == recent[m];
    }
  }

  lemma SeoulTopCodes(recent: seq<Record>, seoulCodes: set<string>)
    ensures Districts.RegionCodes(Seoul.Top20(SeoulOnly(recent, seoulCodes))) <= Districts.RegionCodes(recent)
  {
    var seoul := SeoulOnly(recent, seoulCodes);
    var t20 := Seoul.Top20(seoul);
    Seoul.Top20Spec(seoul);
    FilterMembers(recent, InSeoul(seoulCodes));
    forall c | c in Districts.RegionCodes(t20)
      ensures c in Districts.RegionCodes(recent)
    {
      var i :| 0 <= i < |t20| && t20[i].regionCode == c;
      assert t20[i] in seoul;
      var m :| 0 <= m < |recent| && recent[m] == t20[i];
    }
  }

  // ---------------------------------------------------------------------
  // History months.

  function NotIn(recentMonths: set<string>): string -> bool {
    (m: string) => m !in recentMonths
  }

  /** `[m for m in months_36 if m not in months_6_set]`. */
  function ExtraMonths(months36: seq<string>, recentMonths: set<string>): (r: seq<string>)
    ensures |r| <= |months36|
    ensures forall i | 0 <= i < |r| :: r[i] !in recentMonths
  {
    Filter(months36, NotIn(recentMonths))
  }

  /** The extra months are the long window minus the recent months, still
      ascending and distinct. */
  lemma {:induction false} ExtraMonthsSpec(months36: seq<string>, recentMonths: set<string>)
    requires Text.StrictlySorted(months36)
    ensures Text.StrictlySorted(ExtraMonths(months36, recentMonths))
    ensures Text.Elems(ExtraMonths(months36, recentMonths)) == Text.Elems(months36) - recentMonths
  {
    FilterMembers(months36, NotIn(recentMonths));
    if |months36| > 0 {
      var init := months36[..|months36| - 1];
      var last := months36[|months36| - 1];
      assert Text.StrictlySorted(init);
      ExtraMonthsSpec(init, recentMonths);
      var front := ExtraMonths(init, recentMonths);
      FilterMembers(init, NotIn(recentMonths));
      forall i | 0 <= i < |front|
        ensures Text.Less(front[i], last)
      {
        assert front[i] in init;
        var k :| 0 <= k < |init| && init[k] == front[i];
        assert months36[k] == front[i];
      }
    }
  }
}

=== FILE: districts.dfy ===
/** The district dashboard's ranking: records grouped by "sido|sigungu" in
    first-appearance order, the ten dearest complexes (by name) of each
    district, and the region codes whose history the charts need. */
module Districts {
  import opened Records
  import opened Seqs
  import Ranking

  /** The elements of one key. */
  function HasKey<T, K(==)>(key: T -> K, k: K): T -> bool {
    (x: T) => key(x) == k
  }

  /** The position of the group of key k, or |g|. */
  function GroupPos<K(==), T>(g: seq<(K, seq<T>)>, k: K): (p: nat)
    ensures p <= |g|
    ensures p < |g| ==> g[p].0 == k
    ensures forall i | 0 <= i < p :: g[i].0 != k
  {
    if |g| == 0 || g[0].0 == k then 0
    else
      var p := 1 + GroupPos(g[1..], k);
      assert forall i | 1 <= i < p :: g[i] == g[1..][i - 1];
      p
  }

  /** `by_district[key(x)].append(x)` on a dict of lists that keeps the
      order in which keys were first inserted. */
  function AddToGroup<T, K(==)>(g: seq<(K, seq<T>)>, x: T, key: T -> K): (r: seq<(K, seq<T>)>)
    ensures |r| == |g| || |r| == |g| + 1
  {
    var p := GroupPos(g, key(x));
    if p == |g| then g + [(key(x), [x])]
    else g[p := (g[p].0, g[p].1 + [x])]
  }

  /** `defaultdict(list)` filled by one pass over xs. */
  function GroupBy<T, K(==)>(xs: seq<T>, key: T -> K): (r: seq<(K, seq<T>)>)
    ensures |r| <= |xs|
  {
    if |xs| == 0 then []
    else AddToGroup(GroupBy(xs[..|xs| - 1], key), xs[|xs| - 1], key)
  }

  /** The grouping after a pass over xs: one group per key of xs, keys
      distinct, each group exactly the elements of its key in their order. */
  ghost predicate Grouping<T, K>(xs: seq<T>, g: seq<(K, seq<T>)>, key: T -> K) {
    && (forall i, j | 0 <= i < j < |g| :: g[i].0 != g[j].0)
    && (forall i | 0 <= i < |g| :: g[i].1 == Filter(xs, HasKey(key, g[i].0)))
    && (forall i | 0 <= i < |g| :: |g[i].1| > 0)
    && (forall m | 0 <= m < |xs| :: GroupPos(g, key(xs[m])) < |g|)
  }

  lemma FilterSnoc<T>(xs: seq<T>, x: T, p: T -> bool)
    ensures Filter(xs + [x], p) == Filter(xs, p) + (if p(x) then [x] else [])
  {
    assert (xs + [x])[..|xs|] == xs;
  }

  /** A key no group holds does not occur in xs. */
  lemma NoGroupNoKey<T, K>(xs: seq<T>, g: seq<(K, seq<T>)>, key: T -> K, k: K)
    requires Grouping(xs, g, key) && GroupPos(g, k) == |g|
    ensures Filter(xs, HasKey(key, k)) == []
  {
    forall m | 0 <= m < |xs|
      ensures !HasKey(key, k)(xs[m])
    {
      assert GroupPos(g, key(xs[m])) < |g|;
    }
    FilterAll(xs, HasKey(key, k));
  }

  /** One more element keeps the grouping a grouping. */
  lemma GroupingStep<T, K>(xs: seq<T>, g: seq<(K, seq<T>)>, x: T, key: T -> K, ys: seq<T>, r: seq<(K, seq<T>)>)
    requires Grouping(xs, g, key)
    requires ys == xs + [x] && r == AddToGroup(g, x, key)
    ensures Grouping(ys, r, key)
  {
    GroupingStepKeys(xs, g, x, key, r);
    GroupingStepContents(xs, g, x, key, ys, r);
    GroupingStepCover(xs, g, x, key, ys, r);
  }

  lemma GroupingStepKeys<T, K>(xs: seq<T>, g: seq<(K, seq<T>)>, x: T, key: T -> K, r: seq<(K, seq<T>)>)
    requires Grouping(xs, g, key) && r == AddToGroup(g, x, key)
    ensures forall i, j | 0 <= i < j < |r| :: r[i].0 != r[j].0
    ensures forall i | 0 <= i < |r| :: |r[i].1| > 0
  {
    var p := GroupPos(g, key(x));
    if p == |g| {
      assert r == g + [(key(x), [x])];
      forall i, j | 0 <= i < j < |r|
        ensures r[i].0 != r[j].0
      {
        if j < |g| {
          assert r[i] == g[i] && r[j] == g[j];
        } else {
          assert r[i] == g[i] && r[j].0 == key(x);
        }
      }
    } else {
      assert forall i | 0 <= i < |r| :: r[i].0 == g[i].0;
    }
  }

  lemma GroupingStepContents<T, K>(xs: seq<T>, g: seq<(K, seq<T>)>, x: T, key: T -> K, ys: seq<T>, r: seq<(K, seq<T>)>)
    requires Grouping(xs, g, key)
    requires ys == xs + [x] && r == AddToGroup(g, x, key)
    ensures forall i | 0 <= i < |r| :: r[i].1 == Filter(ys, HasKey(key, r[i].0))
  {
    forall i | 0 <= i < |r|
      ensures r[i].1 == Filter(ys, HasKey(key, r[i].0))
    {
      FilterSnoc(xs, x, HasKey(key, r[i].0));
      if i == |g| {
        NoGroupNoKey(xs, g, key, key(x));
      }
    }
  }

  lemma GroupingStepCover<T, K>(xs: seq<T>, g: seq<(K, seq<T>)>, x: T, key: T -> K, ys: seq<T>, r: seq<(K, seq<T>)>)
    requires Grouping(xs, g, key)
    requires ys == xs + [x] && r == AddToGroup(g, x, key)
    ensures forall m | 0 <= m < |ys| :: GroupPos(r, key(ys[m])) < |r|
  {
    var p := GroupPos(g, key(x));
    forall m | 0 <= m < |ys|
      ensures GroupPos(r, key(ys[m])) < |r|
    {
      if m < |xs| {
        var q := GroupPos(g, key(xs[m]));
        assert ys[m] == xs[m];
        assert r[q].0 == key(xs[m]);
      } else if p < |g| {
        assert r[p].0 == key(x);
      } else {
        assert r[|g|].0 == key(x);
      }
    }
  }

  lemma {:induction false} GroupByGroups<T, K>(xs: seq<T>, key: T -> K)
    ensures Grouping(xs, GroupBy(xs, key), key)
  {
    if |xs| > 0 {
      var init := xs[..|xs| - 1];
      var x := xs[|xs| - 1];
      GroupByGroups(init, key);
      assert xs == init + [x];
      GroupingStep(init, GroupBy(init, key), x, key, xs, GroupBy(xs, key));
    }
  }

  /** Positions of first occurrence, group by group, in increasing order. */
  ghost predicate FirstSeenOrder<T, K>(xs: seq<T>, g: seq<(K, seq<T>)>, key: T -> K) {
    && (forall i | 0 <= i < |g| :: Ranking.KeyPos(xs, g[i].0, key) < |xs|)
    && (forall i, j | 0 <= i < j < |g| :: Ranking.KeyPos(xs, g[i].0, key) < Ranking.KeyPos(xs, g[j].0, key))
  }

  /** A key no group holds has no first occurrence in xs. */
  lemma NoGroupNoPos<T, K>(xs: seq<T>, g: seq<(K, seq<T>)>, key: T -> K, k: K)
    requires Grouping(xs, g, key) && GroupPos(g, k) == |g|
    ensures Ranking.KeyPos(xs, k, key) == |xs|
  {
    forall m | 0 <= m < |xs|
      ensures key(xs[m]) != k
    {
      assert GroupPos(g, key(xs[m])) < |g|;
    }
  }

  /** Appending x keeps the groups in first-occurrence order: old keys keep
      their first positions, and a new key first occurs at x itself. */
  lemma GroupOrderStep<T, K>(xs: seq<T>, g: seq<(K, seq<T>)>, x: T, key: T -> K, ys: seq<T>, r: seq<(K, seq<T>)>)
    requires Grouping(xs, g, key) && FirstSeenOrder(xs, g, key)
    requires ys == xs + [x] && r == AddToGroup(g, x, key)
    ensures FirstSeenOrder(ys, r, key)
  {
    forall i | 0 <= i < |g|
      ensures Ranking.KeyPos(ys, g[i].0, key) == Ranking.KeyPos(xs, g[i].0, key)
    {
      Ranking.KeyPosAppend(xs, x, g[i].0, key);
    }
    if GroupPos(g, key(x)) == |g| {
      NoGroupNoPos(xs, g, key, key(x));
      Ranking.KeyPosAppend(xs, x, key(x), key);
      GroupOrderNew(xs, g, x, key, ys, r);
    } else {
      GroupOrderOld(xs, g, x, key, ys, r);
    }
  }

  lemma GroupOrderNew<T, K>(xs: seq<T>, g: seq<(K, seq<T>)>, x: T, key: T -> K, ys: seq<T>, r: seq<(K, seq<T>)>)
    requires FirstSeenOrder(xs, g, key)
    requires r == g + [(key(x), [x])] && |ys| == |xs| + 1
    requires forall i | 0 <= i < |g| :: Ranking.KeyPos(ys, g[i].0, key) == Ranking.KeyPos(xs, g[i].0, key)
    requires Ranking.KeyPos(ys, key(x), key) == |xs|
    ensures FirstSeenOrder(ys, r, key)
  {
    forall i | 0 <= i < |r|
      ensures Ranking.KeyPos(ys, r[i].0, key) < |ys|
    {
      if i < |g| {
        assert r[i] == g[i];
      }
    }
    forall i, j | 0 <= i < j < |r|
      ensures Ranking.KeyPos(ys, r[i].0, key) < Ranking.KeyPos(ys, r[j].0, key)
    {
      assert r[i] == g[i];
      if j < |g| {
        assert r[j] == g[j];
      }
    }
  }

  lemma GroupOrderOld<T, K>(xs: seq<T>, g: seq<(K, seq<T>)>, x: T, key: T -> K, ys: seq<T>, r: seq<(K, seq<T>)>)
    requires FirstSeenOrder(xs, g, key)
    requires GroupPos(g, key(x)) < |g| && r == AddToGroup(g, x, key) && |ys| == |xs| + 1
    requires forall i | 0 <= i < |g| :: Ranking.KeyPos(ys, g[i].0, key) == Ranking.KeyPos(xs, g[i].0, key)
    ensures FirstSeenOrder(ys, r, key)
  {
    assert |r| == |g| && forall i | 0 <= i < |r| :: r[i].0 == g[i].0;
  }

  /** The groups come in the order in which their keys first occur in xs,
      as a dict's keys keep their insertion order. */
  lemma {:induction false} GroupByOrder<T, K>(xs: seq<T>, key: T -> K)
    ensures FirstSeenOrder(xs, GroupBy(xs, key), key)
  {
    if |xs| > 0 {
      var init := xs[..|xs| - 1];
      var x := xs[|xs| - 1];
      GroupByOrder(init, key);
      GroupByGroups(init, key);
      assert xs == init + [x];
      GroupOrderStep(init, GroupBy(init, key), x, key, xs, GroupBy(xs, key));
    }
  }

  /** Grouping by district: every district of the records has one group, no
      district two, and each group is exactly that district's records in
      their original order. */
  lemma GroupBySpec<T, K>(xs: seq<T>, key: T -> K)
    ensures var g := GroupBy(xs, key);
      && (forall i, j | 0 <= i < j < |g| :: g[i].0 != g[j].0)
      && (forall i | 0 <= i < |g| :: g[i].1 == Filter(xs, HasKey(key, g[i].0)) && |g[i].1| > 0)
      && (forall m | 0 <= m < |xs| :: GroupPos(g, key(xs[m])) < |g|)
      && (forall i, j | 0 <= i < j < |g| ::
            Ranking.KeyPos(xs, g[i].0, key) < Ranking.KeyPos(xs, g[j].0, key))
  {
    GroupByGroups(xs, key);
    GroupByOrder(xs, key);
  }

  // ---------------------------------------------------------------------
  // The top 10 of every district.

  /** The ten dearest complexes of one district's records, by name. */
  function Top10(items: seq<Record>): (r: seq<Record>)
    ensures |r| <= 10
  {
    Ranking.TopN(items, Name, Ppp, 10)
  }

  /** `top10_map`: the top list of each group, kept when it is non-empty, in
      the order the groups first appear; top lists never exceed n entries. */
  function TopMapOf<T>(groups: seq<(string, seq<T>)>, top: seq<T> -> seq<T>, n: nat): (r: seq<(string, seq<T>)>)
    requires forall i | 0 <= i < |groups| :: |top(groups[i].1)| <= n
    ensures |r| <= |groups|
    ensures forall i | 0 <= i < |r| :: 0 < |r[i].1| <= n
  {
    if |groups| == 0 then []
    else
      var t := top(groups[|groups| - 1].1);
      assert forall i | 0 <= i < |groups| - 1 :: groups[..|groups| - 1][i] == groups[i];
      TopMapOf(groups[..|groups| - 1], top, n) + (if |t| > 0 then [(groups[|groups| - 1].0, t)] else [])
  }

  /** The district top 10s of a list of records. */
  function Top10Map(recent: seq<Record>): (r: seq<(string, seq<Record>)>)
    ensures forall i | 0 <= i < |r| :: 0 < |r[i].1| <= 10
  {
    var g := GroupBy(recent, DistrictKey);
    assert forall i | 0 <= i < |g| :: |Top10(g[i].1)| <= 10;
    TopMapOf(g, Top10, 10)
  }

  /** A non-empty group always yields a non-empty top 10. */
  lemma Top10NonEmpty(items: seq<Record>)
    requires |items| > 0
    ensures |Top10(items)| > 0
  {
    Ranking.BestSpec(items, Name, Ppp);
    Ranking.TopNSpec(items, Name, Ppp, 10);
    assert Ranking.KeyPos(Ranking.Best(items, Name, Ppp), Name(items[0]), Name) < |Ranking.Best(items, Name, Ppp)|;
  }

  /** No group is dropped when no top list is empty, and each kept entry is
      its group's top list. */
  lemma {:induction false} TopMapKeepsAll<T>(groups: seq<(string, seq<T>)>, top: seq<T> -> seq<T>, n: nat)
    requires forall i | 0 <= i < |groups| :: |top(groups[i].1)| <= n
    requires forall i | 0 <= i < |groups| :: |top(groups[i].1)| > 0
    ensures |TopMapOf(groups, top, n)| == |groups|
    ensures forall i | 0 <= i < |groups| ::
      TopMapOf(groups, top, n)[i] == (groups[i].0, top(groups[i].1))
  {
    if |groups| > 0 {
      var init := groups[..|groups| - 1];
      var last := groups[|groups| - 1];
      assert forall i | 0 <= i < |init| :: groups[i] == init[i];
      TopMapKeepsAll(init, top, n);
      var front := TopMapOf(init, top, n);
      var r := TopMapOf(groups, top, n);
      assert r == front + [(last.0, top(last.1))];
      forall i | 0 <= i < |groups|
        ensures r[i] == (groups[i].0, top(groups[i].1))
      {
        if i < |init| {
          assert r[i] == front[i];
        }
      }
    }
  }

  /** Every district of the records has an entry, keyed by its "sido|sigungu"
      with no key twice; the entry holds at most ten complexes, at least one,
      no name twice, dearest first, each the first sale of greatest price
      among its complex's sales in the district. */
  lemma Top10MapSpec(recent: seq<Record>)
    ensures var m := Top10Map(recent);
      && (forall i, j | 0 <= i < j < |m| :: m[i].0 != m[j].0)
      && (forall k | 0 <= k < |recent| :: exists i | 0 <= i < |m| :: m[i].0 == DistrictKey(recent[k]))
      && (forall i | 0 <= i < |m| ::
            var t := m[i].1;
            var group := Filter(recent, HasKey(DistrictKey, m[i].0));
            && 0 < |t| <= 10
            && Ranking.DistinctKeys(t, Name)
            && Ranking.Descending(t, Ppp)
            && (forall j | 0 <= j < |t| :: Ranking.FirstMax(group, t[j], Name, Ppp)))
  {
    var g := GroupBy(recent, DistrictKey);
    var m := Top10Map(recent);
    GroupByGroups(recent, DistrictKey);
    Top10MapShape(recent, g, m);
    Top10MapCover(recent, g, m);
    forall i | 0 <= i < |m|
      ensures var t := m[i].1;
        && Ranking.DistinctKeys(t, Name)
        && Ranking.Descending(t, Ppp)
        && (forall j | 0 <= j < |t| ::
              Ranking.FirstMax(Filter(recent, HasKey(DistrictKey, m[i].0)), t[j], Name, Ppp))
    {
      Top10Entry(g[i].1, m[i].1);
    }
  }

  /** Every group is non-empty, so every group keeps its entry. */
  lemma Top10MapShape(recent: seq<Record>, g: seq<(string, seq<Record>)>, m: seq<(string, seq<Record>)>)
    requires g == GroupBy(recent, DistrictKey) && m == Top10Map(recent)
    requires Grouping(recent, g, DistrictKey)
    ensures |m| == |g|
    ensures forall i | 0 <= i < |g| :: m[i] == (g[i].0, Top10(g[i].1))
  {
    forall i | 0 <= i < |g|
      ensures |Top10(g[i].1)| > 0
    {
      Top10NonEmpty(g[i].1);
    }
    assert forall i | 0 <= i < |g| :: |Top10(g[i].1)| <= 10;
    TopMapKeepsAll(g, Top10, 10);
  }

  lemma Top10MapCover(recent: seq<Record>, g: seq<(string, seq<Record>)>, m: seq<(string, seq<Record>)>)
    requires Grouping(recent, g, DistrictKey)
    requires |m| == |g| && forall i | 0 <= i < |g| :: m[i].0 == g[i].0
    ensures forall i, j | 0 <= i < j < |m| :: m[i].0 != m[j].0
    ensures forall k | 0 <= k < |recent| :: exists i | 0 <= i < |m| :: m[i].0 == DistrictKey(recent[k])
  {
    forall i, j | 0 <= i < j < |m|
      ensures m[i].0 != m[j].0
    {
      assert m[i].0 == g[i].0 && m[j].0 == g[j].0;
    }
    forall k | 0 <= k < |recent|
      ensures exists i | 0 <= i < |m| :: m[i].0 == DistrictKey(recent[k])
    {
      var i := GroupPos(g, DistrictKey(recent[k]));
      assert i < |g|;
      assert m[i].0 == g[i].0 == DistrictKey(recent[k]);
      assert exists i | 0 <= i < |m| :: m[i].0 == DistrictKey(recent[k]);
    }
    assert forall k | 0 <= k < |recent| :: exists i | 0 <= i < |m| :: m[i].0 == DistrictKey(recent[k]);
  }

  lemma Top10Entry(items: seq<Record>, t: seq<Record>)
    requires t == Top10(items)
    ensures Ranking.DistinctKeys(t, Name) && Ranking.Descending(t, Ppp)
    ensures forall j | 0 <= j < |t| :: Ranking.FirstMax(items, t[j], Name, Ppp)
  {
    Ranking.TopNSpec(items, Name, Ppp, 10);
  }

  // ---------------------------------------------------------------------
  // Region codes.

  /** The region codes of a list of records. */
  function RegionCodes(xs: seq<Record>): (r: set<string>)
    ensures forall i | 0 <= i < |xs| :: xs[i].regionCode in r
  {
    set i | 0 <= i < |xs| :: xs[i].regionCode
  }

  /** `codes_needed`: the region codes of the records in the top 10s. (The
      set filled just before it is discarded when it is reset.) */
  function CodesNeeded(m: seq<(string, seq<Record>)>): set<string> {
    set i, j | 0 <= i < |m| && 0 <= j < |m[i].1| :: m[i].1[j].regionCode
  }

  /** Every code whose history is fetched is the region code of some recent
      record, and some code is fetched whenever there is a recent record. */
  lemma CodesNeededSpec(recent: seq<Record>)
    ensures CodesNeeded(Top10Map(recent)) <= RegionCodes(recent)
    ensures |recent| > 0 ==> |CodesNeeded(Top10Map(recent))| > 0
  {
    var m := Top10Map(recent);
    Top10MapSpec(recent);
    forall i, j | 0 <= i < |m| && 0 <= j < |m[i].1|
      ensures m[i].1[j] in recent
    {
      FilterMembers(recent, HasKey(DistrictKey, m[i].0));
    }
    CodesWithin(recent, m);
    if |recent| > 0 {
      var i :| 0 <= i < |m| && m[i].0 == DistrictKey(recent[0]);
      assert m[i].1[0].regionCode in CodesNeeded(m);
    }
  }

  /** When no two recent records of one district carry different region
      codes, every recent code has its history fetched: the needed codes are
      exactly the recent records' codes. */
  lemma CodesNeededCover(recent: seq<Record>)
    requires forall k, l | 0 <= k < |recent| && 0 <= l < |recent|
      && DistrictKey(recent[k]) == DistrictKey(recent[l]) :: recent[k].regionCode == recent[l].regionCode
    ensures CodesNeeded(Top10Map(recent)) == RegionCodes(recent)
  {
    CodesNeededSpec(recent);
    var m := Top10Map(recent);
    forall c | c in RegionCodes(recent)
      ensures c in CodesNeeded(m)
    {
      var k :| 0 <= k < |recent| && recent[k].regionCode == c;
      var i, l := DistrictLeader(recent, k);
      assert m[i].1[0].regionCode in CodesNeeded(m);
    }
  }

  /** The district of recent record k has a top list whose first entry is a
      recent record l of the same district. */
  lemma DistrictLeader(recent: seq<Record>, k: nat) returns (i: nat, l: nat)
    requires k < |recent|
    ensures var m := Top10Map(recent);
      && i < |m| && 0 < |m[i].1| && l < |recent|
      && m[i].1[0] == recent[l] && DistrictKey(recent[l]) == DistrictKey(recent[k])
  {
    var m := Top10Map(recent);
    Top10MapSpec(recent);
    i :| 0 <= i < |m| && m[i].0 == DistrictKey(recent[k]);
    var e := m[i].1[0];
    FilterMembers(recent, HasKey(DistrictKey, m[i].0));
    assert e in recent && DistrictKey(e) == m[i].0;
    l :| 0 <= l < |recent| && recent[l] == e;
  }

  /** Entries drawn from the records carry only the records' codes. */
  lemma CodesWithin(recent: seq<Record>, m: seq<(string, seq<Record>)>)
    requires forall i, j | 0 <= i < |m| && 0 <= j < |m[i].1| :: m[i].1[j] in recent
    ensures CodesNeeded(m) <= RegionCodes(recent)
  {
    forall c | c in CodesNeeded(m)
      ensures c in RegionCodes(recent)
    {
      var i, j :| 0 <= i < |m| && 0 <= j < |m[i].1| && m[i].1[j].regionCode == c;
      var k :| 0 <= k < |recent| && recent[k] == m[i].1[j];
    }
  }
}

=== FILE: fetcher.dfy ===
/** The two request routines: `fetch` of the combined collector, which backs
    off and retries on HTTP 429, and the single-shot `fetch` of the district
    collector. Responses are given per attempt; sleeps are returned as a list
    of waits in milliseconds instead of being slept. */
module Fetcher {
  import opened Wrappers
  import Text
  import Records

  /** What one `requests.get` attempt produced. */
  datatype Response =
    | Status429                               // status code 429
    | HttpError(message: string)              // `raise_for_status` raised; `str(e)`
    | Failed                                  // any other exception
    | Ok(resultCode: Option<string>, doc: Records.Document)  // a 2xx reply; the digits of <resultCode>

  /** The result of one `fetch` call together with what it slept and how many
      requests it made. */
  datatype Fetched = Fetched(records: seq<Records.Record>, waits: seq<nat>, requests: nat)

  /** `DELAY_PER_REQUEST`, 0.5 s. */
  const DelayPerRequest: nat := 500

  function Pow2(k: nat): (p: nat)
    ensures p >= 1
  {
    if k == 0 then 1 else 2 * Pow2(k - 1)
  }

  /** `RETRY_BASE_DELAY * 2 ** attempt` seconds, in milliseconds. */
  function Backoff(attempt: nat): nat {
    10000 * Pow2(attempt)
  }

  /** A 429 either as a status code or inside an HTTPError's text. */
  predicate RateLimited(r: Response) {
    r.Status429? || (r.HttpError? && Text.Find(r.message, "429"))
  }

  /** A result code that is present and neither "00" nor "000". */
  predicate ApiError(r: Response)
    requires r.Ok?
  {
    r.resultCode.Some? && r.resultCode.value != "00" && r.resultCode.value != "000"
  }

  /** Attempts `attempt` .. `retries - 1` of the retry loop. */
  function Attempts(server: nat -> Response, code: string, regions: Records.Regions,
                    retries: nat, attempt: nat): (r: Fetched)
    requires attempt <= retries
    ensures r.requests <= retries - attempt
    decreases retries - attempt
  {
    if attempt == retries then Fetched([], [], 0)
    else
      var resp := server(attempt);
      if RateLimited(resp) then
        var rest := Attempts(server, code, regions, retries, attempt + 1);
        Fetched(rest.records, [Backoff(attempt)] + rest.waits, rest.requests + 1)
      else if resp.Ok? && !ApiError(resp) then
        Fetched(Records.Parse(resp.doc, code, regions), [DelayPerRequest], 1)
      else Fetched([], [], 1)
  }

  /** `fetch(code, ym, retries)` of the combined collector; `server(k)` is the
      reply to the k-th request. It never raises. */
  function Fetch(server: nat -> Response, code: string, regions: Records.Regions,
                 retries: nat): (r: Fetched)
    ensures r.requests <= retries
    ensures retries > 0 ==> r.requests > 0
  {
    Attempts(server, code, regions, retries, 0)
  }

  // ---------------------------------------------------------------------
  // An independent description of the retry loop.

  /** The first attempt from `attempt` on that is not rate limited, or
      `retries` when every one is. */
  function FirstServed(server: nat -> Response, retries: nat, attempt: nat): (k: nat)
    requires attempt <= retries
    ensures attempt <= k <= retries
    ensures forall i | attempt <= i < k :: RateLimited(server(i))
    ensures k < retries ==> !RateLimited(server(k))
    decreases retries - attempt
  {
    if attempt == retries || !RateLimited(server(attempt)) then attempt
    else FirstServed(server, retries, attempt + 1)
  }

  /** The waits of the rate-limited attempts `lo` .. `hi - 1`. */
  function Backoffs(lo: nat, hi: nat): (w: seq<nat>)
    requires lo <= hi
    ensures |w| == hi - lo
    ensures forall i | 0 <= i < |w| :: (w[i] == Backoff(lo + i))
    decreases hi - lo
  {
    if lo == hi then [] else [Backoff(lo)] + Backoffs(lo + 1, hi)
  }

  /** The retry loop waits 10 s, 20 s, 40 s, ... on each 429 until the first
      other reply; then it returns that reply's records (after the 0.5 s
      delay) when it is a success with an accepted result code, and nothing
      otherwise. With every reply a 429 it makes `retries` requests and
      returns nothing. */
  lemma {:induction false} AttemptsSpec(server: nat -> Response, code: string,
                                        regions: Records.Regions, retries: nat, attempt: nat)
    requires attempt <= retries
    ensures var k := FirstServed(server, retries, attempt);
      var r := Attempts(server, code, regions, retries, attempt);
      && (k == retries ==> r == Fetched([], Backoffs(attempt, retries), retries - attempt))
      && (k < retries ==>
            var resp := server(k);
            var served := resp.Ok? && !ApiError(resp);
            && r.requests == k - attempt + 1
            && r.waits == Backoffs(attempt, k) + (if served then [DelayPerRequest] else [])
            && r.records == (if served then Records.Parse(resp.doc, code, regions) else []))
    decreases retries - attempt
  {
    if attempt < retries && RateLimited(server(attempt)) {
      AttemptsSpec(server, code, regions, retries, attempt + 1);
    }
  }

  /** With five attempts all answered 429, `fetch` sleeps 10, 20, 40, 80 and
      160 seconds and returns no records. */
  lemma AllRateLimited(server: nat -> Response, code: string, regions: Records.Regions)
    requires forall k: nat :: RateLimited(server(k))
    ensures Fetch(server, code, regions, 5)
      == Fetched([], [10000, 20000, 40000, 80000, 160000], 5)
  {
    AttemptsSpec(server, code, regions, 5, 0);
    var k := FirstServed(server, 5, 0);
    assert RateLimited(server(k));
    var w := Backoffs(0, 5);
    assert Pow2(1) == 2 && Pow2(2) == 4 && Pow2(3) == 8 && Pow2(4) == 16;
    assert w == [w[0], w[1], w[2], w[3], w[4]];
  }

  /** An error reply other than a 429, or an exception, ends `fetch` at once. */
  lemma FetchStopsOnError(server: nat -> Response, code: string,
                          regions: Records.Regions, retries: nat)
    requires retries > 0
    requires var r := server(0);
      (r.HttpError? && !Text.Find(r.message, "429")) || r.Failed? || (r.Ok? && ApiError(r))
    ensures Fetch(server, code, regions, retries) == Fetched([], [], 1)
  {
  }

  /** `fetch(code, ym)` of the district collector: one request, no result-code
      check, and nothing on any exception, a 429 included. */
  function FetchOnce(resp: Response, code: string, regions: Records.Regions): (r: seq<Records.Record>)
    ensures !resp.Ok? ==> r == []
    ensures resp.Ok? ==> r == Records.Parse(resp.doc, code, regions)
  {
    match resp
    case Ok(_, doc) => Records.Parse(doc, code, regions)
    case _ => []
  }

  /** Where the reply carries an accepted result code, the single-shot fetch
      returns what one attempt of the retrying fetch returns. */
  lemma FetchOnceAgrees(resp: Response, code: string, regions: Records.Regions)
    requires !(resp.Ok? && ApiError(resp)) && !RateLimited(resp)
    ensures FetchOnce(resp, code, regions) == Fetch(_ => resp, code, regions, 1).records
  {
  }

  /** Where the reply carries a result code the retrying fetch rejects, the
      single-shot fetch still parses the document, while the retrying fetch
      returns nothing. */
  lemma FetchOnceIgnoresResultCode(resp: Response, code: string, regions: Records.Regions)
    requires resp.Ok? && ApiError(resp)
    ensures FetchOnce(resp, code, regions) == Records.Parse(resp.doc, code, regions)
    ensures Fetch(_ => resp, code, regions, 1).records == []
  {
  }
}

=== FILE: money.dfy ===
/** The won amounts shown on the dashboards. Prices are in units of 10,000
    won (만원); `fp` writes an amount as "<b>억 <r>만" once it reaches one
    억 (10,000 만원) and as "<p>만" below that. */
module Money {
  import opened Wrappers
  import Text
  import opened Numeric

  /** Python's `p // 10000` and `p % 10000`: the 억 part and the 만 rest. */
  function FpSplit(p: int): (r: (int, int))
    ensures r.0 * 10000 + r.1 == p
    ensures 0 <= r.1 < 10000
  {
    DivMod(p, 10000);
    (p / 10000, p % 10000)
  }

  /** The split is unique: any (b, r) with b * 10000 + r == p and
      0 <= r < 10000 is FpSplit(p). */
  lemma FpSplitUnique(p: int, b: int, r: int)
    requires b * 10000 + r == p && 0 <= r < 10000
    ensures FpSplit(p) == (b, r)
  {
    var (b', r') := FpSplit(p);
    var d := b - b';
    assert d * 10000 == r' - r;
    MulStrict(d, 1, 10000);
    MulStrict(-1, d, 10000);
  }

  /** `fp(p)`: "b억 r만" with `r` comma-grouped when b > 0, and the whole
      amount comma-grouped followed by "만" otherwise. */
  function Fp(p: int): (s: string)
    ensures |s| > 0 && s[|s| - 1] == '만'
    ensures '억' in s <==> p >= 10000
  {
    var b := FpSplit(p).0;
    if b > 0 then
      assert p >= 10000 by { MulMono(1, b, 10000); }
      EokText(b, FpSplit(p).1)
    else
      assert p < 10000 by { MulMono(b, 0, 10000); }
      ManText(p)
  }

  /** "b억 r만", the rendering from one 억 up. */
  function EokText(b: nat, r: nat): (s: string)
    ensures |s| > 0 && s[|s| - 1] == '만' && '억' in s
  {
    var w := DigitsOf(b);
    var s := w + "억 " + Grouped(r) + "만";
    assert s[|w|] == '억';
    s
  }

  /** "p만", the rendering below one 억. */
  function ManText(p: int): (s: string)
    ensures |s| > 0 && s[|s| - 1] == '만' && '억' !in s
  {
    var g := GroupedInt(p);
    NoEokInGrouped(p);
    var s := g + "만";
    assert forall i | 0 <= i < |g| :: s[i] == g[i];
    s
  }

  lemma NoEokInGrouped(p: int)
    ensures '억' !in GroupedInt(p)
    ensures forall i | 0 <= i < |GroupedInt(p)| ::
      IsDigit(GroupedInt(p)[i]) || GroupedInt(p)[i] in ",-"
  {
    var a := if p < 0 then -p else p;
    var g := Grouped(a);
    assert forall i | 0 <= i < |g| :: g[i] in g;
    if p < 0 {
      assert forall i | 1 <= i < |GroupedInt(p)| :: GroupedInt(p)[i] == g[i - 1];
    }
  }

  /** Reads an `fp` rendering back: the inverse of Fp. */
  function ReadFp(s: string): (r: Option<int>)
    ensures r.Some? ==> |s| > 0 && s[|s| - 1] == '만'
  {
    if |s| == 0 || s[|s| - 1] != '만' then None
    else
      var body := s[..|s| - 1];
      ReadBody(body, Text.IndexOf(body, '억'))
  }

  /** The text before the final 만, whose first 억 is at k: a grouped count,
      or "N억 " and a grouped count. */
  function ReadBody(body: string, k: nat): Option<int> {
    if k >= |body| then ParseInt(Text.Remove(body, ','))
    else if k + 1 < |body| && body[k + 1] == ' ' then
      ReadEokParts(body[..k], body[k + 2..])
    else None
  }

  /** The 억 count before "억 " and the grouped 만 rest after it. */
  function ReadEokParts(head: string, tail: string): Option<int> {
    EokSum(ParseInt(head), ParseInt(Text.Remove(tail, ',')))
  }

  function EokSum(b: Option<int>, r: Option<int>): Option<int> {
    if b.Some? && r.Some? then Some(b.value * 10000 + r.value) else None
  }

  /** Every amount survives being written by `fp` and read back. */
  lemma ReadFpFp(p: int)
    ensures ReadFp(Fp(p)) == Some(p)
  {
    if FpSplit(p).0 > 0 {
      ReadLarge(p, FpSplit(p).0, FpSplit(p).1);
    } else {
      ReadSmallFp(p);
    }
  }

  lemma ReadLarge(p: int, b: nat, r: nat)
    requires b * 10000 + r == p && 0 < b && r < 10000
    ensures ReadFp(Fp(p)) == Some(p)
  {
    FpLarge(p, b, r);
    ReadLargeParts(b, r, p);
    ReadLargeSame(p, b, r);
  }

  lemma ReadSmallFp(p: int)
    requires FpSplit(p).0 <= 0
    ensures ReadFp(Fp(p)) == Some(p)
  {
    FpSmall(p, FpSplit(p).0);
    ReadSmall(p);
    ReadSame(Fp(p), ManText(p), p);
  }

  lemma FpLarge(p: int, b: nat, r: nat)
    requires b * 10000 + r == p && 0 < b && r < 10000
    ensures Fp(p) == EokText(b, r)
  {
    FpSplitUnique(p, b, r);
  }

  lemma FpSmall(p: int, b: int)
    requires FpSplit(p).0 == b <= 0
    ensures Fp(p) == ManText(p)
  {
  }

  lemma ReadLargeSame(p: int, b: nat, r: nat)
    requires Fp(p) == EokText(b, r) && ReadFp(EokText(b, r)) == Some(p)
    ensures ReadFp(Fp(p)) == Some(p)
  {
  }

  lemma ReadSame(s: string, t: string, q: int)
    requires s == t && ReadFp(t) == Some(q)
    ensures ReadFp(s) == Some(q)
  {
  }

  lemma ReadLargeParts(b: nat, r: nat, q: int)
    requires b > 0 && r < 10000 && q == b * 10000 + r
    ensures ReadFp(EokText(b, r)) == Some(q)
  {
    var w := DigitsOf(b);
    var g := Grouped(r);
    var s := w + "억 " + g + "만";
    var body := w + "억 " + g;
    LargePieces(w, g);
    ParseDigits(w);
    var t := Text.Remove(g, ',');
    ParseDigits(t);
    ReadLargeAt(s, body, w, g, b, r, q);
  }

  /** Where the pieces of "w억 g만" sit, when w is made of digits. */
  lemma LargePieces(w: string, g: string)
    requires AllDigits(w)
    ensures var s := w + "억 " + g + "만"; var body := w + "억 " + g;
      && s[..|s| - 1] == body && s[|s| - 1] == '만'
      && Text.IndexOf(body, '억') == |w|
      && body[|w| + 1] == ' ' && body[..|w|] == w && body[|w| + 2..] == g
  {
    var body := w + "억 " + g;
    assert body == w + ("억 " + g);
    assert forall i | 0 <= i < |w| :: w[i] != '억';
    Text.IndexOfAfter(w, "억 " + g, '억');
  }

  lemma ReadLargeAt(s: string, body: string, w: string, g: string, b: int, r: int, q: int)
    requires |s| == |body| + 1 && s[..|s| - 1] == body && s[|s| - 1] == '만'
    requires |body| == |w| + 2 + |g| && Text.IndexOf(body, '억') == |w|
    requires body[|w| + 1] == ' ' && body[..|w|] == w && body[|w| + 2..] == g
    requires ParseInt(w) == Some(b) && ParseInt(Text.Remove(g, ',')) == Some(r)
    requires q == b * 10000 + r
    ensures ReadFp(s) == Some(q)
  {
    ReadAtEok(s, body, |w|);
    EokParts(w, g, b, r, q);
  }

  lemma EokParts(w: string, g: string, b: int, r: int, q: int)
    requires ParseInt(w) == Some(b) && ParseInt(Text.Remove(g, ',')) == Some(r)
    requires q == b * 10000 + r
    ensures ReadEokParts(w, g) == Some(q)
  {
    EokPartsUnfold(w, g);
    EokSumSome(b, r, q);
  }

  lemma EokPartsUnfold(w: string, g: string)
    ensures ReadEokParts(w, g) == EokSum(ParseInt(w), ParseInt(Text.Remove(g, ',')))
  {
  }

  lemma EokSumSome(b: int, r: int, q: int)
    requires q == b * 10000 + r
    ensures EokSum(Some(b), Some(r)) == Some(q)
  {
  }

  lemma ReadAtEok(s: string, body: string, k: nat)
    requires |s| == |body| + 1 && s[..|s| - 1] == body && s[|s| - 1] == '만'
    requires k + 1 < |body| && Text.IndexOf(body, '억') == k && body[k + 1] == ' '
    ensures ReadFp(s) == ReadEokParts(body[..k], body[k + 2..])
  {
    ReadFpBody(s, body);
    BodyAtEok(body, k);
  }

  lemma ReadFpBody(s: string, body: string)
    requires |s| == |body| + 1 && s[..|s| - 1] == body && s[|s| - 1] == '만'
    ensures ReadFp(s) == ReadBody(body, Text.IndexOf(body, '억'))
  {
  }

  lemma BodyAtEok(body: string, k: nat)
    requires k + 1 < |body| && body[k + 1] == ' '
    ensures ReadBody(body, k) == ReadEokParts(body[..k], body[k + 2..])
  {
  }

  lemma ReadSmall(p: int)
    ensures ReadFp(ManText(p)) == Some(p)
  {
    var g := GroupedInt(p);
    var s := g + "만";
    assert s[..|s| - 1] == g;
    NoEokInGrouped(p);
    assert forall i | 0 <= i < |g| :: g[i] != '억';
    ReadFpBody(s, g);
    assert Text.IndexOf(g, '억') == |g|;
    ParseIntGrouped(p);
  }
}

=== FILE: numeric.dfy ===
/** Decimal text and integer arithmetic: Python's `int()` and `float()` on the
    strings the API returns, `str(n)` and the `{:,}` thousands format, and
    Python's `round()` (half to even) taken on exact rationals. */
module Numeric {
  import opened Wrappers
  import Text

  predicate IsDigit(c: char) {
    '0' <= c <= '9'
  }

  function DigitValue(c: char): nat
    requires IsDigit(c)
  {
    (c as int) - ('0' as int)
  }

  function DigitChar(d: nat): (c: char)
    requires d < 10
    ensures IsDigit(c) && DigitValue(c) == d
  {
    (('0' as int) + d) as char
  }

  predicate AllDigits(s: string) {
    forall i | 0 <= i < |s| :: IsDigit(s[i])
  }

  function Pow10(n: nat): (p: nat)
    ensures p >= 1
  {
    if n == 0 then 1 else 10 * Pow10(n - 1)
  }

  /** The value of a decimal digit string, most significant digit first
      (the empty string reads as 0). */
  function DigitsValue(s: string): nat
    requires AllDigits(s)
  {
    if |s| == 0 then 0 else DigitsValue(s[..|s| - 1]) * 10 + DigitValue(s[|s| - 1])
  }

  lemma AllDigitsAppend(a: string, b: string)
    requires AllDigits(a) && AllDigits(b)
    ensures AllDigits(a + b)
  {
    forall i | 0 <= i < |a + b| ensures IsDigit((a + b)[i]) {
      if i >= |a| { assert (a + b)[i] == b[i - |a|]; }
    }
  }

  lemma ShiftArith(x: int, p: int, y: int, d: int)
    ensures (x * p + y) * 10 + d == x * (10 * p) + (y * 10 + d)
  {
  }

  lemma {:induction false} DigitsValueAppend(a: string, b: string)
    requires AllDigits(a) && AllDigits(b)
    ensures AllDigits(a + b)
    ensures DigitsValue(a + b) == DigitsValue(a) * Pow10(|b|) + DigitsValue(b)
    decreases |b|
  {
    AllDigitsAppend(a, b);
    if |b| == 0 {
      assert a + b == a;
    } else {
      var b' := b[..|b| - 1];
      var last := b[|b| - 1];
      assert (a + b)[..|a + b| - 1] == a + b';
      assert (a + b)[|a + b| - 1] == last;
      DigitsValueAppend(a, b');
      assert DigitsValue(a + b) == DigitsValue(a + b') * 10 + DigitValue(last);
      assert DigitsValue(b) == DigitsValue(b') * 10 + DigitValue(last);
      ShiftArith(DigitsValue(a), Pow10(|b'|), DigitsValue(b'), DigitValue(last));
    }
  }

  /** Python's `str(n)` for a non-negative integer: no leading zeros, and it
      reads back as `n`. */
  function DigitsOf(n: nat): (s: string)
    ensures |s| > 0 && AllDigits(s)
    ensures DigitsValue(s) == n
    ensures |s| > 1 ==> s[0] != '0'
  {
    if n < 10 then [DigitChar(n)]
    else
      var init := DigitsOf(n / 10);
      var s := init + [DigitChar(n % 10)];
      assert s[..|s| - 1] == init;
      s
  }

  /** `n` written with exactly `w` digits, zero-padded on the left
      (strftime's `%Y` and `%m`, the three-digit groups of `{:,}`). */
  function DigitsFixed(n: nat, w: nat): (s: string)
    requires n < Pow10(w)
    ensures |s| == w && AllDigits(s)
    ensures DigitsValue(s) == n
  {
    if w == 0 then []
    else
      LastDigit(n, Pow10(w - 1));
      var init := DigitsFixed(n / 10, w - 1);
      var s := init + [DigitChar(n % 10)];
      assert s[..|s| - 1] == init;
      s
  }

  lemma LastDigit(n: nat, p: nat)
    requires p >= 1 && n < 10 * p
    ensures n / 10 < p && n == (n / 10) * 10 + n % 10
  {
    DivMod(n, 10);
    MulStrict(n / 10, p, 10);
  }

  lemma MulStrict(x: int, y: int, n: int)
    requires n > 0 && x * n < y * n
    ensures x < y
  {
  }

  lemma MulMono(x: int, y: int, n: int)
    requires n > 0 && x <= y
    ensures x * n <= y * n
  {
  }

  lemma DivMod(n: int, p: int)
    requires p > 0
    ensures n == (n / p) * p + n % p && 0 <= n % p < p
  {
  }

  lemma DivModSplit(a: nat, b: nat, p: nat)
    requires p >= 1
    ensures a / p < b / p ==> a < b
    ensures a / p == b / p ==> (a < b <==> a % p < b % p)
  {
    DivMod(a, p);
    DivMod(b, p);
    if a / p < b / p {
      MulMono(a / p + 1, b / p, p);
    }
  }

  /** Equal-width zero-padded decimals compare as strings exactly as the
      numbers compare. */
  lemma {:induction false} DigitsFixedOrder(a: nat, b: nat, w: nat)
    requires a < Pow10(w) && b < Pow10(w)
    ensures Text.Less(DigitsFixed(a, w), DigitsFixed(b, w)) <==> a < b
  {
    if w > 0 {
      var x, y := DigitsFixed(a / 10, w - 1), DigitsFixed(b / 10, w - 1);
      var c, d := DigitChar(a % 10), DigitChar(b % 10);
      DigitsFixedSnoc(a, w);
      DigitsFixedSnoc(b, w);
      DigitsFixedOrder(a / 10, b / 10, w - 1);
      DigitsFixedInjective(a / 10, b / 10, w - 1);
      Text.LessSnoc(x, y, c, d);
      OrderByLastDigit(a, b);
    }
  }

  lemma DigitsFixedSnoc(n: nat, w: nat)
    requires 0 < w && n < Pow10(w)
    ensures n / 10 < Pow10(w - 1)
    ensures DigitsFixed(n, w) == DigitsFixed(n / 10, w - 1) + [DigitChar(n % 10)]
  {
    LastDigit(n, Pow10(w - 1));
  }

  /** Numbers compare by everything but the last digit first, then by it. */
  lemma OrderByLastDigit(a: nat, b: nat)
    ensures a < b <==>
      (a / 10 < b / 10 || (a / 10 == b / 10 && DigitChar(a % 10) < DigitChar(b % 10)))
  {
    DivModSplit(a, b, 10);
    DivModSplit(b, a, 10);
  }

  lemma DigitsFixedInjective(a: nat, b: nat, w: nat)
    requires a < Pow10(w) && b < Pow10(w)
    ensures DigitsFixed(a, w) == DigitsFixed(b, w) <==> a == b
  {
    if DigitsFixed(a, w) == DigitsFixed(b, w) {
      assert DigitsValue(DigitsFixed(a, w)) == DigitsValue(DigitsFixed(b, w));
    }
  }

  /** Python's `f"{n:,}"` for a non-negative integer: groups of three digits
      separated by commas. */
  function Grouped(n: nat): (s: string)
    ensures |s| > 0 && IsDigit(s[0])
    ensures var t := Text.Remove(s, ','); AllDigits(t) && |t| > 0 && DigitsValue(t) == n
    ensures forall c | c in s :: IsDigit(c) || c == ','
  {
    if n < 1000 then
      var s := DigitsOf(n);
      Text.RemoveAbsent(s, ',');
      s
    else
      var high := Grouped(n / 1000);
      var low := DigitsFixed(n % 1000, 3);
      GroupedJoin(n, high, low);
      high + [','] + low
  }

  /** Joining the grouping of the thousands with the last three digits. */
  lemma GroupedJoin(n: nat, high: string, low: string)
    requires n >= 1000 && |high| > 0 && IsDigit(high[0])
    requires var t := Text.Remove(high, ','); AllDigits(t) && |t| > 0 && DigitsValue(t) == n / 1000
    requires forall c | c in high :: IsDigit(c) || c == ','
    requires |low| == 3 && AllDigits(low) && DigitsValue(low) == n % 1000
    ensures var s := high + [','] + low;
      && |s| > 0 && IsDigit(s[0])
      && (var t := Text.Remove(s, ','); AllDigits(t) && |t| > 0 && DigitsValue(t) == n)
      && (forall c | c in s :: IsDigit(c) || c == ',')
  {
    var s := high + [','] + low;
    assert s[0] == high[0];
    DivMod(n, 1000);
    RemoveAtJoin(high, low);
    DigitsValueAppend(Text.Remove(high, ','), low);
    assert Pow10(3) == 1000;
    forall c | c in s
      ensures IsDigit(c) || c == ','
    {
      if c in low {
        var i :| 0 <= i < |low| && low[i] == c;
      }
    }
  }

  lemma RemoveAtJoin(high: string, low: string)
    requires AllDigits(low)
    ensures Text.Remove(high + [','] + low, ',') == Text.Remove(high, ',') + low
  {
    Text.RemoveAppend(high + [','], low, ',');
    Text.RemoveAppend(high, [','], ',');
    assert forall i | 0 <= i < |low| :: low[i] != ',';
    Text.RemoveAbsent(low, ',');
    assert Text.Remove([','], ',') == [];
  }

  /** Python's `f"{n:,}"` for any integer. */
  function GroupedInt(n: int): string {
    if n < 0 then "-" + Grouped(-n) else Grouped(n)
  }

  // ---------------------------------------------------------------------
  // Python int() and float() on decimal text.

  predicate DigitsOrUnderscores(s: string) {
    forall i | 0 <= i < |s| :: IsDigit(s[i]) || s[i] == '_'
  }

  /** Decimal digits, with single underscores allowed between digits. */
  predicate IsDigitRun(s: string) {
    && |s| > 0 && IsDigit(s[0]) && IsDigit(s[|s| - 1])
    && DigitsOrUnderscores(s)
    && (forall i | 0 <= i < |s| - 1 :: NotDoubled(s, i))
  }

  /** The underscore at `i`, if any, is not followed by another one. */
  predicate NotDoubled(s: string, i: int)
    requires 0 <= i < |s| - 1
  {
    s[i] == '_' ==> s[i + 1] != '_'
  }

  /** The value of the digits of `s`, underscores skipped. */
  function RunValue(s: string): nat
    requires DigitsOrUnderscores(s)
  {
    if |s| == 0 then 0
    else
      var init := s[..|s| - 1];
      assert DigitsOrUnderscores(init) by {
        forall i | 0 <= i < |init| ensures IsDigit(init[i]) || init[i] == '_' {
          assert init[i] == s[i];
        }
      }
      if s[|s| - 1] == '_' then RunValue(init)
      else RunValue(init) * 10 + DigitValue(s[|s| - 1])
  }

  /** Python's `int(s)` in base 10: surrounding whitespace, an optional sign,
      then a digit run; anything else raises, which is None here. */
  function ParseInt(s: string): (r: Option<int>)
    ensures r.Some? ==> var t := Text.Strip(s); |t| > 0 && IsDigit(t[|t| - 1])
  {
    SignedRun(Text.Strip(s))
  }

  /** An optional sign, then a digit run; the text ends in a digit. */
  function SignedRun(t: string): (r: Option<int>)
    ensures r.Some? ==> |t| > 0 && IsDigit(t[|t| - 1])
  {
    var signed := |t| > 0 && (t[0] == '+' || t[0] == '-');
    var body := if signed then t[1..] else t;
    if IsDigitRun(body) then
      var v: int := RunValue(body);
      Some(if signed && t[0] == '-' then -v else v)
    else None
  }

  lemma SignedRunNegative(body: string, v: int)
    requires IsDigitRun(body) && RunValue(body) == v
    ensures SignedRun("-" + body) == Some(-v)
  {
    assert ("-" + body)[1..] == body;
  }

  /** Python's `str(n)`. */
  function IntText(n: int): string {
    if n < 0 then "-" + DigitsOf(-n) else DigitsOf(n)
  }

  lemma NoSpaceInDigits(s: string)
    requires forall i | 0 <= i < |s| :: IsDigit(s[i]) || s[i] == '-' || s[i] == '.'
    ensures Text.Strip(s) == s
  {
  }

  lemma {:induction false} RunValueOfDigits(s: string)
    requires AllDigits(s)
    ensures DigitsOrUnderscores(s) && RunValue(s) == DigitsValue(s)
  {
    if |s| > 0 {
      RunValueOfDigits(s[..|s| - 1]);
    }
  }

  /** `int()` on plain digits. */
  lemma ParseDigits(t: string)
    requires |t| > 0 && AllDigits(t)
    ensures ParseInt(t) == Some(DigitsValue(t) as int)
  {
    NoSpaceInDigits(t);
    RunValueOfDigits(t);
    assert IsDigitRun(t);
  }

  /** `int()` on a minus sign followed by plain digits. */
  lemma ParseNegativeDigits(t: string)
    requires |t| > 0 && AllDigits(t)
    ensures ParseInt("-" + t) == Some(-(DigitsValue(t) as int))
  {
    var s := "-" + t;
    NegativeDigitsUnspaced(t);
    NegativeDigitsSigned(t);
    assert ParseInt(s) == SignedRun(Text.Strip(s));
  }

  lemma NegativeDigitsSigned(t: string)
    requires |t| > 0 && AllDigits(t)
    ensures SignedRun("-" + t) == Some(-(DigitsValue(t) as int))
  {
    RunValueOfDigits(t);
    SignedRunNegative(t, DigitsValue(t));
  }

  lemma NegativeDigitsUnspaced(t: string)
    requires AllDigits(t)
    ensures Text.Strip("-" + t) == "-" + t
  {
    var s := "-" + t;
    assert forall i | 1 <= i < |s| :: s[i] == t[i - 1];
    NoSpaceInDigits(s);
  }

  /** `int()` reads back what `str()` writes. */
  lemma ParseIntText(n: int)
    ensures ParseInt(IntText(n)) == Some(n)
  {
    if n < 0 {
      ParseNegativeDigits(DigitsOf(-n));
    } else {
      ParseDigits(DigitsOf(n));
    }
  }

  /** `int()` reads back the comma-grouped amount once the commas are removed
      (the API's `dealAmount` is written this way). */
  lemma ParseIntGrouped(n: int)
    ensures ParseInt(Text.Remove(GroupedInt(n), ',')) == Some(n)
  {
    var g := Grouped(if n < 0 then -n else n);
    var t := Text.Remove(g, ',');
    if n < 0 {
      Text.RemoveAppend("-", g, ',');
      assert Text.Remove("-", ',') == "-";
      ParseNegativeDigits(t);
    } else {
      ParseDigits(t);
    }
  }

  /** Python's `float(s)` restricted to plain decimal notation: surrounding
      whitespace, an optional sign, digits, an optional '.' and fraction
      digits, with at least one digit in all. */
  function ParseDecimal(s: string): (r: Option<real>)
    ensures r.Some? ==> |Text.Strip(s)| > 0
    ensures r.Some? && r.value < 0.0 ==> Text.Strip(s)[0] == '-'
  {
    var t := Text.Strip(s);
    var signed := |t| > 0 && (t[0] == '+' || t[0] == '-');
    var u := if signed then t[1..] else t;
    match MantissaValue(u)
    case None => None
    case Some(m) => Some(if signed && t[0] == '-' then -m else m)
  }

  /** `digits [. digits]` or `. digits` with at least one digit, read exactly. */
  function MantissaValue(u: string): (r: Option<real>)
    ensures r.Some? ==> |u| > 0 && r.value >= 0.0
  {
    var k := Text.IndexOf(u, '.');
    var whole := u[..k];
    var frac := if k < |u| then u[k + 1..] else [];
    if |whole| + |frac| > 0 && AllDigits(whole) && AllDigits(frac) then
      Some(DigitsValue(whole) as real + Fraction(DigitsValue(frac), |frac|))
    else None
  }

  /** The fraction `0.d1d2..dk` whose k digits read as `n`. */
  function Fraction(n: nat, k: nat): (r: real)
    ensures r >= 0.0
  {
    n as real / Pow10(k) as real
  }

  /** `float()` reads back a plain decimal rendering `whole.fraction` exactly
      (the API's `excluUseAr`, e.g. "84.97"). */
  lemma {:induction false} ParseDecimalText(whole: nat, f: nat, k: nat)
    requires f < Pow10(k)
    ensures ParseDecimal(DigitsOf(whole) + "." + DigitsFixed(f, k))
      == Some(whole as real + Fraction(f, k))
  {
    var w := DigitsOf(whole);
    var fr := DigitsFixed(f, k);
    var s := w + "." + fr;
    DecimalUnspaced(w, fr);
    assert s[0] == w[0];
    UnsignedDecimal(s);
    DotJoin(w, fr);
    MantissaAt(w, fr, s, whole, f, k);
  }

  /** Text without surrounding space or a sign reads as its mantissa. */
  lemma UnsignedDecimal(s: string)
    requires Text.Strip(s) == s && |s| > 0 && s[0] != '+' && s[0] != '-'
    ensures ParseDecimal(s) == MantissaValue(s)
  {
  }

  lemma DecimalUnspaced(w: string, fr: string)
    requires AllDigits(w) && AllDigits(fr)
    ensures Text.Strip(w + "." + fr) == w + "." + fr
  {
    var s := w + "." + fr;
    forall i | 0 <= i < |s| ensures IsDigit(s[i]) || s[i] == '-' || s[i] == '.' {
      if i < |w| { assert s[i] == w[i]; }
      else if i > |w| { assert s[i] == fr[i - |w| - 1]; }
    }
    NoSpaceInDigits(s);
  }

  /** The pieces of `w.fr`, when `w` has no dot. */
  lemma DotJoin(w: string, fr: string)
    requires AllDigits(w)
    ensures var s := w + "." + fr;
      Text.IndexOf(s, '.') == |w| && s[..|w|] == w && s[|w| + 1..] == fr
  {
    var s := w + "." + fr;
    assert s == w + ("." + fr);
    assert forall i | 0 <= i < |w| :: w[i] != '.';
    Text.IndexOfAfter(w, "." + fr, '.');
  }

  /** The mantissa `w.fr` reads as the value of w plus the fraction fr. */
  lemma MantissaAt(w: string, fr: string, s: string, a: nat, b: nat, k: nat)
    requires |w| > 0 && AllDigits(w) && AllDigits(fr)
    requires |s| == |w| + 1 + |fr| && Text.IndexOf(s, '.') == |w|
    requires s[..|w|] == w && s[|w| + 1..] == fr
    requires DigitsValue(w) == a && DigitsValue(fr) == b && |fr| == k
    ensures MantissaValue(s) == Some(a as real + Fraction(b, k))
  {
  }

  // ---------------------------------------------------------------------
  // Python's round() on exact values: to the nearest integer, ties to even.

  /** `round(a / b)` for integers, b > 0, computed exactly. */
  function RoundDiv(a: int, b: int): (r: int)
    requires b > 0
    ensures -b <= 2 * (a - r * b) <= b
    ensures 2 * (a - r * b) == b || 2 * (a - r * b) == -b ==> r % 2 == 0
  {
    var q := a / b;
    var m := a % b;
    assert a - q * b == m;
    assert a - (q + 1) * b == m - b;
    if 2 * m > b then q + 1
    else if 2 * m < b then q
    else if q % 2 == 0 then q
    else q + 1
  }

  /** The two conditions above pin the rounded value down: any integer meeting
      them is RoundDiv's result. */
  lemma RoundDivUnique(a: int, b: int, r': int)
    requires b > 0
    requires -b <= 2 * (a - r' * b) <= b
    requires 2 * (a - r' * b) == b || 2 * (a - r' * b) == -b ==> r' % 2 == 0
    ensures r' == RoundDiv(a, b)
  {
    NearestUnique(a, b, RoundDiv(a, b), r');
  }

  /** Two nearest-with-ties-to-even quotients of a by b coincide. */
  lemma NearestUnique(a: int, b: int, r: int, r': int)
    requires b > 0
    requires -b <= 2 * (a - r * b) <= b
    requires 2 * (a - r * b) == b || 2 * (a - r * b) == -b ==> r % 2 == 0
    requires -b <= 2 * (a - r' * b) <= b
    requires 2 * (a - r' * b) == b || 2 * (a - r' * b) == -b ==> r' % 2 == 0
    ensures r == r'
  {
    var d := r' - r;
    MulSub(r', r, b);
    MulStrict(d, 2, b);
    MulStrict(-2, d, b);
    assert d == 1 ==> d * b == b;
    assert d == -1 ==> d * b == -b;
  }

  lemma MulSub(x: int, y: int, n: int)
    ensures (x - y) * n == x * n - y * n
  {
  }

  /** `round(x)` for an exact real x. */
  function RoundReal(x: real): (r: int)
    ensures -0.5 <= x - r as real <= 0.5
    ensures (x - r as real == 0.5 || x - r as real == -0.5) ==> r % 2 == 0
  {
    var f := x.Floor;
    var d := x - f as real;
    if d > 0.5 then f + 1
    else if d < 0.5 then f
    else if f % 2 == 0 then f
    else f + 1
  }

  lemma RoundRealMonotone(x: real, y: real)
    requires x <= y
    ensures RoundReal(x) <= RoundReal(y)
  {
    var rx, ry := RoundReal(x), RoundReal(y);
    assert rx <= ry + 1;
    assert rx == ry + 1 ==> x - rx as real == -0.5 && y - ry as real == 0.5;
  }

  // ---------------------------------------------------------------------
  // Sums and means of integer lists.

  function Sum(s: seq<int>): int {
    if |s| == 0 then 0 else Sum(s[..|s| - 1]) + s[|s| - 1]
  }

  ghost predicate Bounded(s: seq<int>, lo: int, hi: int) {
    forall i | 0 <= i < |s| :: lo <= s[i] <= hi
  }

  lemma {:induction false} SumBounds(s: seq<int>, lo: int, hi: int)
    requires Bounded(s, lo, hi)
    ensures lo * |s| <= Sum(s) <= hi * |s|
  {
    if |s| > 0 {
      SumBounds(s[..|s| - 1], lo, hi);
    }
  }

  /** m is the mean of s rounded to the nearest integer, ties to the even
      one: m times the length is within half the length of the sum. */
  ghost predicate IsRoundedMean(s: seq<int>, m: int) {
    && |s| > 0
    && -|s| <= 2 * (Sum(s) - m * |s|) <= |s|
    && (2 * (Sum(s) - m * |s|) == |s| || 2 * (Sum(s) - m * |s|) == -|s| ==> m % 2 == 0)
  }

  /** Python's `round(sum(v) / len(v))` (float error ignored). */
  function RoundedMean(s: seq<int>): (r: int)
    requires |s| > 0
    ensures IsRoundedMean(s, r)
  {
    RoundDiv(Sum(s), |s|)
  }

  /** The rounded mean is the only value meeting its characterisation. */
  lemma RoundedMeanUnique(s: seq<int>, m: int)
    requires IsRoundedMean(s, m)
    ensures m == RoundedMean(s)
  {
    RoundDivUnique(Sum(s), |s|, m);
  }

  /** A rounded mean lies between the smallest and the largest value. */
  lemma RoundedMeanBounds(s: seq<int>, lo: int, hi: int)
    requires |s| > 0
    requires Bounded(s, lo, hi)
    ensures lo <= RoundedMean(s) <= hi
  {
    SumBounds(s, lo, hi);
    NearestBounds(Sum(s), |s|, RoundDiv(Sum(s), |s|), lo, hi);
  }

  /** A nearest quotient of a by n lies between lo and hi when a does
      between lo * n and hi * n. */
  lemma NearestBounds(a: int, n: int, r: int, lo: int, hi: int)
    requires n > 0 && lo * n <= a <= hi * n
    requires -n <= 2 * (a - r * n) <= n
    ensures lo <= r <= hi
  {
    if r < lo {
      // then (r + 1) * n <= lo * n <= a, so 2 * (a - r * n) >= 2 * n
      MulMono(r + 1, lo, n);
      MulAddOne(r, n);
    }
    if hi < r {
      MulMono(hi + 1, r, n);
      MulAddOne(hi, n);
    }
  }

  lemma MulAddOne(x: int, n: int)
    ensures (x + 1) * n == x * n + n
  {
  }
}

=== FILE: ranking.dfy ===
/** The ranking step shared by the district top 10 and the Seoul top 20:
    keep, per key, the first record of greatest weight (a dict filled with a
    strict `>`), sort those by weight, heaviest first, with Python's stable
    `sorted(..., reverse=True)`, and cut the list at n. */
module Ranking {

  // ---------------------------------------------------------------------
  // Stable sort by decreasing weight.

  /** Non-increasing by weight. */
  ghost predicate Descending<T>(s: seq<T>, w: T -> int) {
    forall i, j | 0 <= i < j < |s| :: w(s[i]) >= w(s[j])
  }

  /** Puts x after every element at least as heavy: one step of a stable
      sort by decreasing weight. */
  function InsertDesc<T>(x: T, s: seq<T>, w: T -> int): (r: seq<T>)
    ensures |r| == |s| + 1
    ensures multiset(r) == multiset(s) + multiset{x}
  {
    if |s| == 0 then [x]
    else if w(s[0]) >= w(x) then
      assert s == [s[0]] + s[1..];
      [s[0]] + InsertDesc(x, s[1..], w)
    else [x] + s
  }

  lemma {:induction false} InsertDescSorted<T>(x: T, s: seq<T>, w: T -> int)
    requires Descending(s, w)
    ensures Descending(InsertDesc(x, s, w), w)
  {
    if |s| > 0 && w(s[0]) >= w(x) {
      var rest := InsertDesc(x, s[1..], w);
      InsertDescSorted(x, s[1..], w);
      forall i | 0 <= i < |rest|
        ensures w(s[0]) >= w(rest[i])
      {
        assert rest[i] in multiset(rest);
        if rest[i] != x {
          assert rest[i] in multiset(s[1..]);
          var j :| 0 <= j < |s[1..]| && s[1..][j] == rest[i];
          assert s[j + 1] == rest[i];
        }
      }
    }
  }

  /** `sorted(s, key=w, reverse=True)`. */
  function SortDesc<T>(s: seq<T>, w: T -> int): (r: seq<T>)
    ensures multiset(r) == multiset(s)
    ensures |r| == |s|
  {
    if |s| == 0 then []
    else
      var init := s[..|s| - 1];
      assert s == init + [s[|s| - 1]];
      InsertDesc(s[|s| - 1], SortDesc(init, w), w)
  }

  lemma {:induction false} SortDescSorted<T>(s: seq<T>, w: T -> int)
    ensures Descending(SortDesc(s, w), w)
  {
    if |s| > 0 {
      SortDescSorted(s[..|s| - 1], w);
      InsertDescSorted(s[|s| - 1], SortDesc(s[..|s| - 1], w), w);
    }
  }

  /** The elements of weight v, in order. */
  function WithWeight<T>(s: seq<T>, w: T -> int, v: int): (r: seq<T>)
    ensures |r| <= |s|
  {
    if |s| == 0 then []
    else (if w(s[0]) == v then [s[0]] else []) + WithWeight(s[1..], w, v)
  }

  lemma {:induction false} WithWeightAppend<T>(a: seq<T>, b: seq<T>, w: T -> int, v: int)
    ensures WithWeight(a + b, w, v) == WithWeight(a, w, v) + WithWeight(b, w, v)
  {
    if |a| == 0 {
      assert a + b == b;
    } else {
      var h := if w(a[0]) == v then [a[0]] else [];
      assert a + b == [a[0]] + (a[1..] + b);
      assert a == [a[0]] + a[1..];
      WithWeightCons(a[0], a[1..] + b, w, v);
      WithWeightCons(a[0], a[1..], w, v);
      WithWeightAppend(a[1..], b, w, v);
      AppendChain(WithWeight(a + b, w, v), h, WithWeight(a[1..] + b, w, v),
                  WithWeight(a[1..], w, v), WithWeight(b, w, v), WithWeight(a, w, v));
    }
  }

  lemma {:induction false} InsertDescWithWeight<T>(x: T, s: seq<T>, w: T -> int, v: int)
    requires Descending(s, w)
    ensures WithWeight(InsertDesc(x, s, w), w, v)
      == WithWeight(s, w, v) + (if w(x) == v then [x] else [])
  {
    var t := if w(x) == v then [x] else [];
    if |s| > 0 && w(s[0]) >= w(x) {
      DescendingTail(s, w);
      InsertDescWithWeight(x, s[1..], w, v);
      var rest := InsertDesc(x, s[1..], w);
      InsertDescBehind(x, s, w);
      WithWeightCons(s[0], rest, w, v);
      WithWeightCons(s[0], s[1..], w, v);
      assert [s[0]] + s[1..] == s;
      var h := if w(s[0]) == v then [s[0]] else [];
      AppendChain(WithWeight(InsertDesc(x, s, w), w, v), h, WithWeight(rest, w, v),
                  WithWeight(s[1..], w, v), t, WithWeight(s, w, v));
    } else if |s| > 0 {
      // x is heavier than everything in s, so no element of s weighs w(x)
      if w(x) == v {
        NoneOfWeight(s, w, v);
      }
      WithWeightCons(x, s, w, v);
    }
  }

  lemma InsertDescBehind<T>(x: T, s: seq<T>, w: T -> int)
    requires |s| > 0 && w(s[0]) >= w(x)
    ensures InsertDesc(x, s, w) == [s[0]] + InsertDesc(x, s[1..], w)
  {
  }

  /** l == h + r, r == a + t and whole == h + a give l == whole + t. */
  lemma AppendChain<T>(l: seq<T>, h: seq<T>, r: seq<T>, a: seq<T>, t: seq<T>, whole: seq<T>)
    requires l == h + r && r == a + t && whole == h + a
    ensures l == whole + t
  {
    assert (h + a) + t == h + (a + t);
  }

  lemma WithWeightCons<T>(x: T, s: seq<T>, w: T -> int, v: int)
    ensures WithWeight([x] + s, w, v) == (if w(x) == v then [x] else []) + WithWeight(s, w, v)
  {
    assert ([x] + s)[1..] == s;
  }

  lemma DescendingTail<T>(s: seq<T>, w: T -> int)
    requires Descending(s, w) && |s| > 0
    ensures Descending(s[1..], w)
  {
    forall i, j | 0 <= i < j < |s| - 1 ensures w(s[1..][i]) >= w(s[1..][j]) {
      assert s[1..][i] == s[i + 1] && s[1..][j] == s[j + 1];
    }
  }

  lemma {:induction false} NoneOfWeight<T>(s: seq<T>, w: T -> int, v: int)
    requires Descending(s, w)
    requires |s| > 0 ==> w(s[0]) < v
    ensures WithWeight(s, w, v) == []
  {
    if |s| > 0 {
      DescendingTail(s, w);
      if |s| > 1 {
        assert w(s[1]) <= w(s[0]);
      }
      NoneOfWeight(s[1..], w, v);
    }
  }

  /** The sort is stable: the elements of any one weight keep their order. */
  lemma {:induction false} SortDescStable<T>(s: seq<T>, w: T -> int, v: int)
    ensures WithWeight(SortDesc(s, w), w, v) == WithWeight(s, w, v)
  {
    if |s| > 0 {
      var init := s[..|s| - 1];
      var x := s[|s| - 1];
      var sorted := SortDesc(init, w);
      SortDescSnoc(s, w);
      SortDescStable(init, w, v);
      SortDescSorted(init, w);
      InsertDescWithWeight(x, sorted, w, v);
      WithWeightSnoc(s, w, v);
    }
  }

  /** The elements of weight v keep their positions' order: elements i < j
      of weight v sit at positions a < b among them. */
  lemma {:induction false} WithWeightOrder<T>(s: seq<T>, w: T -> int, v: int, i: nat, j: nat) returns (a: nat, b: nat)
    requires i < j < |s| && w(s[i]) == v && w(s[j]) == v
    ensures a < b < |WithWeight(s, w, v)|
    ensures WithWeight(s, w, v)[a] == s[i] && WithWeight(s, w, v)[b] == s[j]
    decreases i
  {
    var h := if w(s[0]) == v then [s[0]] else [];
    var rest := WithWeight(s[1..], w, v);
    assert WithWeight(s, w, v) == h + rest;
    if i == 0 {
      var k := WithWeightAt(s[1..], w, v, j - 1);
      a, b := 0, k + 1;
    } else {
      var a', b' := WithWeightOrder(s[1..], w, v, i - 1, j - 1);
      a, b := a' + |h|, b' + |h|;
    }
  }

  /** An element of weight v appears among the elements of weight v. */
  lemma {:induction false} WithWeightAt<T>(s: seq<T>, w: T -> int, v: int, j: nat) returns (k: nat)
    requires j < |s| && w(s[j]) == v
    ensures k < |WithWeight(s, w, v)| && WithWeight(s, w, v)[k] == s[j]
    decreases j
  {
    var h := if w(s[0]) == v then [s[0]] else [];
    assert WithWeight(s, w, v) == h + WithWeight(s[1..], w, v);
    if j == 0 {
      k := 0;
    } else {
      var k' := WithWeightAt(s[1..], w, v, j - 1);
      k := k' + |h|;
    }
  }

  /** A rank that increases along s increases along its elements of any one
      weight. */
  lemma {:induction false} WithWeightIncreasing<T>(s: seq<T>, w: T -> int, v: int, f: T -> int)
    requires forall a, b | 0 <= a < b < |s| :: f(s[a]) < f(s[b])
    ensures forall a, b | 0 <= a < b < |WithWeight(s, w, v)| ::
      f(WithWeight(s, w, v)[a]) < f(WithWeight(s, w, v)[b])
  {
    if |s| > 0 {
      var t := s[1..];
      forall a, b | 0 <= a < b < |t|
        ensures f(t[a]) < f(t[b])
      {
        assert t[a] == s[a + 1] && t[b] == s[b + 1];
      }
      WithWeightIncreasing(t, w, v, f);
      WithWeightMembers(t, w, v);
      var h := if w(s[0]) == v then [s[0]] else [];
      var rest := WithWeight(t, w, v);
      var ws := WithWeight(s, w, v);
      assert ws == h + rest;
      forall b | 0 <= b < |rest|
        ensures f(s[0]) < f(rest[b])
      {
        HeadBelow(s, rest[b], f);
      }
      forall a, b | 0 <= a < b < |ws|
        ensures f(ws[a]) < f(ws[b])
      {
        if a >= |h| {
          assert ws[a] == rest[a - |h|] && ws[b] == rest[b - |h|];
        } else {
          assert ws[a] == s[0] && ws[b] == rest[b - 1];
        }
      }
    }
  }

  /** The elements of weight v are elements of s. */
  lemma {:induction false} WithWeightMembers<T>(s: seq<T>, w: T -> int, v: int)
    ensures forall a | 0 <= a < |WithWeight(s, w, v)| :: WithWeight(s, w, v)[a] in s
  {
    if |s| > 0 {
      var t := s[1..];
      WithWeightMembers(t, w, v);
      var h := if w(s[0]) == v then [s[0]] else [];
      var ws := WithWeight(s, w, v);
      assert ws == h + WithWeight(t, w, v);
      forall a | |h| <= a < |ws|
        ensures ws[a] in s
      {
        assert ws[a] == WithWeight(t, w, v)[a - |h|];
        assert ws[a] in t;
      }
    }
  }

  /** The head of a sequence along which f increases lies below every
      later element. */
  lemma HeadBelow<T>(s: seq<T>, y: T, f: T -> int)
    requires |s| > 0 && y in s[1..]
    requires forall a, b | 0 <= a < b < |s| :: f(s[a]) < f(s[b])
    ensures f(s[0]) < f(y)
  {
    var k :| 0 <= k < |s| - 1 && s[1..][k] == y;
    assert s[k + 1] == y;
  }

  /** Stability, stated on positions: when a rank increases along s, two
      elements of equal weight keep that rank's order after sorting. */
  lemma SortDescTies<T>(s: seq<T>, w: T -> int, f: T -> int, i: nat, j: nat)
    requires forall a, b | 0 <= a < b < |s| :: f(s[a]) < f(s[b])
    requires i < j < |SortDesc(s, w)| && w(SortDesc(s, w)[i]) == w(SortDesc(s, w)[j])
    ensures f(SortDesc(s, w)[i]) < f(SortDesc(s, w)[j])
  {
    var r := SortDesc(s, w);
    var v := w(r[i]);
    SortDescStable(s, w, v);
    WithWeightIncreasing(s, w, v, f);
    var a, b := WithWeightOrder(r, w, v, i, j);
  }

  /** Appending leaves the first position of a present key unchanged. */
  lemma SortDescSnoc<T>(s: seq<T>, w: T -> int)
    requires |s| > 0
    ensures SortDesc(s, w) == InsertDesc(s[|s| - 1], SortDesc(s[..|s| - 1], w), w)
  {
  }

  lemma WithWeightSnoc<T>(s: seq<T>, w: T -> int, v: int)
    requires |s| > 0
    ensures WithWeight(s, w, v) == WithWeight(s[..|s| - 1], w, v)
      + (if w(s[|s| - 1]) == v then [s[|s| - 1]] else [])
  {
    var x := s[|s| - 1];
    assert s == s[..|s| - 1] + [x];
    WithWeightAppend(s[..|s| - 1], [x], w, v);
    WithWeightCons(x, [], w, v);
    assert [x] + [] == [x];
  }

  /** `s[:n]`. */
  function Take<T>(s: seq<T>, n: nat): (r: seq<T>)
    ensures |r| <= n && |r| <= |s|
    ensures |s| <= n ==> r == s
    ensures |s| > n ==> |r| == n
    ensures forall i | 0 <= i < |r| :: r[i] == s[i]
  {
    if |s| <= n then s else s[..n]
  }

  // ---------------------------------------------------------------------
  // The dictionary of best entries.

  /** The first position whose element satisfies `key(s[i]) == k`, or |s|. */
  function KeyPos<T, K(==)>(s: seq<T>, k: K, key: T -> K): (p: nat)
    ensures p <= |s|
    ensures p < |s| ==> key(s[p]) == k
    ensures forall i | 0 <= i < p :: key(s[i]) != k
  {
    if |s| == 0 || key(s[0]) == k then 0
    else
      var p := 1 + KeyPos(s[1..], k, key);
      assert forall i | 1 <= i < p :: s[i] == s[1..][i - 1];
      p
  }

  /** The first position of e in s, or |s|. */
  function FirstIndex<T(==)>(s: seq<T>, e: T): (p: nat)
    ensures p <= |s|
    ensures p < |s| ==> s[p] == e
    ensures forall i | 0 <= i < p :: s[i] != e
  {
    if |s| == 0 || s[0] == e then 0
    else
      var p := 1 + FirstIndex(s[1..], e);
      assert forall i | 1 <= i < p :: s[i] == s[1..][i - 1];
      p
  }

  /** No two entries share a key. */
  ghost predicate DistinctKeys<T, K>(s: seq<T>, key: T -> K) {
    forall i, j | 0 <= i < j < |s| :: key(s[i]) != key(s[j])
  }

  /** One iteration of the dict loop: a new key is appended; a known key's
      entry is replaced, in place, only by a strictly heavier element. */
  function Upsert<T, K(==)>(acc: seq<T>, x: T, key: T -> K, w: T -> int): (r: seq<T>)
    requires DistinctKeys(acc, key)
    ensures DistinctKeys(r, key)
    ensures |r| == |acc| || |r| == |acc| + 1
  {
    var p := KeyPos(acc, key(x), key);
    if p == |acc| then acc + [x]
    else if w(x) > w(acc[p]) then acc[p := x]
    else acc
  }

  /** `best.values()` after the loop over xs. */
  function Best<T, K(==)>(xs: seq<T>, key: T -> K, w: T -> int): (r: seq<T>)
    ensures DistinctKeys(r, key)
    ensures |r| <= |xs|
  {
    if |xs| == 0 then []
    else Upsert(Best(xs[..|xs| - 1], key, w), xs[|xs| - 1], key, w)
  }

  /** e occurs in xs, nothing in xs with e's key is heavier, and everything
      with e's key before e's first occurrence is strictly lighter: the entry
      a dict filled with a strict `>` keeps. */
  ghost predicate FirstMax<T, K>(xs: seq<T>, e: T, key: T -> K, w: T -> int) {
    && e in xs
    && (forall m | 0 <= m < |xs| && key(xs[m]) == key(e) :: w(xs[m]) <= w(e))
    && (forall m | 0 <= m < FirstIndex(xs, e) && key(xs[m]) == key(e) :: w(xs[m]) < w(e))
  }

  /** What holds of the dict after the loop has seen xs. */
  ghost predicate BestInv<T, K>(xs: seq<T>, acc: seq<T>, key: T -> K, w: T -> int) {
    && DistinctKeys(acc, key)
    && (forall m | 0 <= m < |xs| :: KeyPos(acc, key(xs[m]), key) < |acc|)
    && (forall i | 0 <= i < |acc| :: FirstMax(xs, acc[i], key, w))
    && (forall i, j | 0 <= i < j < |acc| ::
          KeyPos(xs, key(acc[i]), key) < KeyPos(xs, key(acc[j]), key))
  }

  lemma FirstIndexAppend<T>(s: seq<T>, x: T, e: T)
    requires e in s
    ensures FirstIndex(s + [x], e) == FirstIndex(s, e)
  {
    var p := FirstIndex(s, e);
    assert (s + [x])[p] == e;
    assert forall i | 0 <= i < p :: (s + [x])[i] == s[i];
  }

  lemma KeyPosAppend<T, K>(s: seq<T>, x: T, k: K, key: T -> K)
    ensures KeyPos(s, k, key) < |s| ==> KeyPos(s + [x], k, key) == KeyPos(s, k, key)
    ensures KeyPos(s, k, key) == |s| && key(x) == k ==> KeyPos(s + [x], k, key) == |s|
  {
    var p := KeyPos(s, k, key);
    assert forall i | 0 <= i < p :: (s + [x])[i] == s[i];
    if p < |s| {
      assert (s + [x])[p] == s[p];
    } else {
      assert (s + [x])[|s|] == x;
    }
  }

  /** An entry stays the first maximum when a lighter or differently keyed
      element arrives. */
  lemma FirstMaxKeep<T, K>(xs: seq<T>, x: T, e: T, key: T -> K, w: T -> int)
    requires FirstMax(xs, e, key, w)
    requires key(x) == key(e) ==> w(x) <= w(e)
    ensures FirstMax(xs + [x], e, key, w)
  {
    FirstIndexAppend(xs, x, e);
    assert forall m | 0 <= m < |xs| :: (xs + [x])[m] == xs[m];
    assert (xs + [x])[|xs|] == x;
  }

  /** The arriving element is the first maximum of its key when everything
      earlier with that key is strictly lighter. */
  lemma FirstMaxArrive<T, K>(xs: seq<T>, x: T, key: T -> K, w: T -> int)
    requires forall m | 0 <= m < |xs| && key(xs[m]) == key(x) :: w(xs[m]) < w(x)
    ensures FirstMax(xs + [x], x, key, w)
  {
    forall m | 0 <= m < |xs|
      ensures xs[m] != x
    {
      if key(xs[m]) == key(x) {
        assert w(xs[m]) < w(x);
      }
    }
    assert forall m | 0 <= m < |xs| :: (xs + [x])[m] == xs[m];
    assert (xs + [x])[|xs|] == x;
    assert FirstIndex(xs + [x], x) == |xs|;
  }

  lemma FirstMaxEntries<T, K>(xs: seq<T>, acc: seq<T>, x: T, key: T -> K, w: T -> int)
    requires BestInv(xs, acc, key, w)
    ensures var r := Upsert(acc, x, key, w);
      forall i | 0 <= i < |r| :: FirstMax(xs + [x], r[i], key, w)
  {
    var r := Upsert(acc, x, key, w);
    var p := KeyPos(acc, key(x), key);
    forall i | 0 <= i < |r|
      ensures FirstMax(xs + [x], r[i], key, w)
    {
      if i < |acc| && (i != p || w(x) <= w(acc[p])) {
        assert r[i] == acc[i];
        FirstMaxKeep(xs, x, acc[i], key, w);
      } else if i < |acc| {
        assert r[i] == x && i == p;
        forall m | 0 <= m < |xs| && key(xs[m]) == key(x)
          ensures w(xs[m]) < w(x)
        {
          assert w(xs[m]) <= w(acc[p]);
        }
        FirstMaxArrive(xs, x, key, w);
      } else {
        assert r[i] == x && p == |acc|;
        forall m | 0 <= m < |xs|
          ensures key(xs[m]) != key(x)
        {
          assert KeyPos(acc, key(xs[m]), key) < |acc|;
        }
        FirstMaxArrive(xs, x, key, w);
      }
    }
  }

  lemma UpsertShape<T, K>(acc: seq<T>, x: T, key: T -> K, w: T -> int)
    requires DistinctKeys(acc, key)
    ensures var r := Upsert(acc, x, key, w); var p := KeyPos(acc, key(x), key);
      && (p == |acc| ==> r == acc + [x])
      && (p < |acc| ==> |r| == |acc| && key(acc[p]) == key(x))
      && (p < |acc| ==> forall i | 0 <= i < |acc| :: key(r[i]) == key(acc[i]))
      && (forall i | 0 <= i < |acc| :: key(r[i]) == key(acc[i]))
  {
  }

  /** Once every element of xs has an entry, a key without an entry does
      not occur in xs. */
  lemma Uncovered<T, K>(xs: seq<T>, acc: seq<T>, k: K, key: T -> K)
    requires forall m | 0 <= m < |xs| :: KeyPos(acc, key(xs[m]), key) < |acc|
    ensures KeyPos(acc, k, key) == |acc| ==> KeyPos(xs, k, key) == |xs|
  {
    var q := KeyPos(xs, k, key);
    if q < |xs| {
      assert KeyPos(acc, key(xs[q]), key) < |acc|;
    }
  }

  lemma KeyPosIn<T, K>(xs: seq<T>, e: T, key: T -> K)
    requires e in xs
    ensures KeyPos(xs, key(e), key) < |xs|
  {
    var m :| 0 <= m < |xs| && xs[m] == e;
    assert key(xs[m]) == key(e);
  }

  lemma CoverStep<T, K>(xs: seq<T>, acc: seq<T>, x: T, key: T -> K, w: T -> int)
    requires BestInv(xs, acc, key, w)
    ensures var r := Upsert(acc, x, key, w);
      forall m | 0 <= m < |xs| + 1 :: KeyPos(r, key((xs + [x])[m]), key) < |r|
  {
    var r := Upsert(acc, x, key, w);
    var p := KeyPos(acc, key(x), key);
    UpsertShape(acc, x, key, w);
    forall m | 0 <= m < |xs| + 1
      ensures KeyPos(r, key((xs + [x])[m]), key) < |r|
    {
      if m < |xs| {
        var q := KeyPos(acc, key(xs[m]), key);
        assert (xs + [x])[m] == xs[m];
        assert key(r[q]) == key(xs[m]);
      } else if p < |acc| {
        assert key(r[p]) == key(x);
      } else {
        assert r[|acc|] == x;
      }
    }
  }

  lemma OrderStep<T, K>(xs: seq<T>, acc: seq<T>, x: T, key: T -> K, w: T -> int)
    requires BestInv(xs, acc, key, w)
    ensures var r := Upsert(acc, x, key, w);
      forall i, j | 0 <= i < j < |r| ::
        KeyPos(xs + [x], key(r[i]), key) < KeyPos(xs + [x], key(r[j]), key)
  {
    var r := Upsert(acc, x, key, w);
    var p := KeyPos(acc, key(x), key);
    UpsertShape(acc, x, key, w);
    forall i | 0 <= i < |acc|
      ensures KeyPos(xs + [x], key(r[i]), key) == KeyPos(xs, key(acc[i]), key) < |xs|
    {
      KeyPosIn(xs, acc[i], key);
      KeyPosAppend(xs, x, key(acc[i]), key);
    }
    if p == |acc| {
      Uncovered(xs, acc, key(x), key);
      KeyPosAppend(xs, x, key(x), key);
      assert r[|acc|] == x;
    }
  }

  lemma BestInvStep<T, K>(xs: seq<T>, acc: seq<T>, x: T, key: T -> K, w: T -> int)
    requires BestInv(xs, acc, key, w)
    ensures BestInv(xs + [x], Upsert(acc, x, key, w), key, w)
  {
    CoverStep(xs, acc, x, key, w);
    FirstMaxEntries(xs, acc, x, key, w);
    OrderStep(xs, acc, x, key, w);
  }

  lemma {:induction false} BestInvariant<T, K>(xs: seq<T>, key: T -> K, w: T -> int)
    ensures BestInv(xs, Best(xs, key, w), key, w)
  {
    if |xs| > 0 {
      var init := xs[..|xs| - 1];
      BestInvariant(init, key, w);
      BestInvStep(init, Best(init, key, w), xs[|xs| - 1], key, w);
      assert init + [xs[|xs| - 1]] == xs;
    }
  }

  /** The dict loop keeps, per key, the first element of greatest weight;
      every key of xs gets exactly one entry; entries come in the order in
      which their keys first appear in xs. */
  lemma BestSpec<T, K>(xs: seq<T>, key: T -> K, w: T -> int)
    ensures var r := Best(xs, key, w);
      && (forall i | 0 <= i < |r| :: FirstMax(xs, r[i], key, w))
      && (forall m | 0 <= m < |xs| :: KeyPos(r, key(xs[m]), key) < |r|)
      && (forall i, j | 0 <= i < j < |r| ::
            KeyPos(xs, key(r[i]), key) < KeyPos(xs, key(r[j]), key))
  {
    var r := Best(xs, key, w);
    BestInvariant(xs, key, w);
    assert BestInv(xs, r, key, w);
  }

  // ---------------------------------------------------------------------
  // The top n.

  /** `sorted(best.values(), key=w, reverse=True)[:n]`. */
  function TopN<T, K(==)>(xs: seq<T>, key: T -> K, w: T -> int, n: nat): (r: seq<T>)
    ensures |r| <= n
  {
    Take(SortDesc(Best(xs, key, w), w), n)
  }

  lemma MemberOfSorted<T>(s: seq<T>, w: T -> int, i: nat)
    requires i < |SortDesc(s, w)|
    ensures SortDesc(s, w)[i] in s
  {
    var r := SortDesc(s, w);
    assert r[i] in multiset(r);
  }

  /** Sorting keeps every key. */
  lemma SortDescHasKey<T, K>(s: seq<T>, w: T -> int, key: T -> K, k: K)
    requires KeyPos(s, k, key) < |s|
    ensures KeyPos(SortDesc(s, w), k, key) < |SortDesc(s, w)|
  {
    var e := s[KeyPos(s, k, key)];
    assert e in multiset(SortDesc(s, w));
    KeyPosIn(SortDesc(s, w), e, key);
  }

  lemma {:induction false} InsertDescKeys<T, K>(x: T, s: seq<T>, w: T -> int, key: T -> K)
    requires DistinctKeys(s, key)
    requires forall i | 0 <= i < |s| :: key(s[i]) != key(x)
    ensures DistinctKeys(InsertDesc(x, s, w), key)
  {
    if |s| > 0 && w(s[0]) >= w(x) {
      var rest := InsertDesc(x, s[1..], w);
      InsertDescKeys(x, s[1..], w, key);
      InsertDescBehind(x, s, w);
      forall i | 0 <= i < |rest|
        ensures key(rest[i]) != key(s[0])
      {
        assert rest[i] in multiset(rest);
        if rest[i] != x {
          assert rest[i] in multiset(s[1..]);
          var j :| 0 <= j < |s[1..]| && s[1..][j] == rest[i];
          assert s[j + 1] == rest[i];
        }
      }
    } else if |s| > 0 {
      assert InsertDesc(x, s, w) == [x] + s;
    }
  }

  lemma {:induction false} SortDescKeys<T, K>(s: seq<T>, w: T -> int, key: T -> K)
    requires DistinctKeys(s, key)
    ensures DistinctKeys(SortDesc(s, w), key)
  {
    if |s| > 0 {
      var init := s[..|s| - 1];
      var x := s[|s| - 1];
      var sorted := SortDesc(init, w);
      SortDescKeys(init, w, key);
      forall i | 0 <= i < |sorted|
        ensures key(sorted[i]) != key(x)
      {
        MemberOfSorted(init, w, i);
        var j :| 0 <= j < |init| && init[j] == sorted[i];
        assert s[j] == sorted[i];
      }
      InsertDescKeys(x, sorted, w, key);
      SortDescSnoc(s, w);
    }
  }

  /** The top n has one entry per key, heaviest first, each the first element
      of greatest weight for its key; it holds min(n, number of keys)
      entries; and an element whose key was cut weighs no more than any
      entry kept. */
  lemma TopNSpec<T, K>(xs: seq<T>, key: T -> K, w: T -> int, n: nat)
    ensures var r := TopN(xs, key, w, n);
      && DistinctKeys(r, key)
      && Descending(r, w)
      && (forall i | 0 <= i < |r| :: FirstMax(xs, r[i], key, w))
      && |r| == (if |Best(xs, key, w)| <= n then |Best(xs, key, w)| else n)
      && (forall m, i | 0 <= m < |xs| && KeyPos(r, key(xs[m]), key) == |r| && 0 <= i < |r| ::
            w(xs[m]) <= w(r[i]))
  {
    var b := Best(xs, key, w);
    var s := SortDesc(b, w);
    BestSpec(xs, key, w);
    SortDescKeys(b, w, key);
    SortDescSorted(b, w);
    TopPrefix(xs, b, s, Take(s, n), key, w);
  }

  lemma TopPrefix<T, K>(xs: seq<T>, b: seq<T>, s: seq<T>, r: seq<T>, key: T -> K, w: T -> int)
    requires forall i | 0 <= i < |b| :: FirstMax(xs, b[i], key, w)
    requires forall m | 0 <= m < |xs| :: KeyPos(b, key(xs[m]), key) < |b|
    requires multiset(s) == multiset(b) && Descending(s, w) && DistinctKeys(s, key)
    requires |r| <= |s| && forall i | 0 <= i < |r| :: r[i] == s[i]
    ensures DistinctKeys(r, key) && Descending(r, w)
    ensures forall i | 0 <= i < |r| :: FirstMax(xs, r[i], key, w)
    ensures forall m, i | 0 <= m < |xs| && KeyPos(r, key(xs[m]), key) == |r| && 0 <= i < |r| ::
      w(xs[m]) <= w(r[i])
  {
    TopEntries(xs, b, s, r, key, w);
    TopCut(xs, b, s, r, key, w);
  }

  lemma TopEntries<T, K>(xs: seq<T>, b: seq<T>, s: seq<T>, r: seq<T>, key: T -> K, w: T -> int)
    requires forall i | 0 <= i < |b| :: FirstMax(xs, b[i], key, w)
    requires multiset(s) == multiset(b)
    requires |r| <= |s| && forall i | 0 <= i < |r| :: r[i] == s[i]
    ensures forall i | 0 <= i < |r| :: FirstMax(xs, r[i], key, w)
  {
    forall i | 0 <= i < |r|
      ensures FirstMax(xs, r[i], key, w)
    {
      assert s[i] in multiset(b);
      var j :| 0 <= j < |b| && b[j] == s[i];
    }
  }

  lemma TopCut<T, K>(xs: seq<T>, b: seq<T>, s: seq<T>, r: seq<T>, key: T -> K, w: T -> int)
    requires forall i | 0 <= i < |b| :: FirstMax(xs, b[i], key, w)
    requires forall m | 0 <= m < |xs| :: KeyPos(b, key(xs[m]), key) < |b|
    requires multiset(s) == multiset(b) && Descending(s, w)
    requires |r| <= |s| && forall i | 0 <= i < |r| :: r[i] == s[i]
    ensures forall m, i | 0 <= m < |xs| && KeyPos(r, key(xs[m]), key) == |r| && 0 <= i < |r| ::
      w(xs[m]) <= w(r[i])
  {
    forall m, i | 0 <= m < |xs| && KeyPos(r, key(xs[m]), key) == |r| && 0 <= i < |r|
      ensures w(xs[m]) <= w(r[i])
    {
      var e := b[KeyPos(b, key(xs[m]), key)];
      assert w(xs[m]) <= w(e);
      assert e in multiset(s);
      var j :| 0 <= j < |s| && s[j] == e;
      assert j >= |r|;
    }
  }
}

=== FILE: records.dfy ===
/** Turning the items of one trade-report response into transaction records:
    `gt`, `parse` and the keys the dashboards group records by. */
module Records {
  import opened Wrappers
  import Text
  import opened Numeric

  /** One `<item>` element: each child tag present maps to its text, None
      for an element without text. */
  type Item = map<string, Option<string>>

  /** The region table: district code to (sido, sigungu). */
  type Regions = map<string, (string, string)>

  /** The parsed response: XML that does not parse, or its items in order. */
  datatype Document = Malformed | Items(items: seq<Item>)

  /** One apartment sale. Prices are in 만원, the area in square metres. */
  datatype Record = Record(
    aptName: string, sido: string, sigungu: string, dong: string,
    areaM2: real, price: int, pricePerPyeong: int,
    dealYear: string, dealMonth: string, dealDay: string,
    floor: string, buildYear: string, regionCode: string)

  /** Smallest exclusive area kept, in square metres. */
  const MinArea: real := 59.0

  /** `gt(el, tag, d)`: the stripped text of the child when it is present with
      non-empty text, otherwise the default. */
  function Gt(it: Item, tag: string, d: string): (r: string)
    ensures tag !in it || it[tag].None? || it[tag].value == [] ==> r == d
    ensures tag in it && it[tag].Some? && it[tag].value != [] ==>
      |r| <= |it[tag].value|
  {
    if tag in it && it[tag].Some? && it[tag].value != [] then Text.Strip(it[tag].value)
    else d
  }

  /** A present text comes back as the child's text with the whitespace at
      both ends cut off: a slice of it with only whitespace around it that
      neither starts nor ends with whitespace (empty when it was all
      whitespace). */
  lemma GtTrimmed(it: Item, tag: string, d: string)
    requires tag in it && it[tag].Some? && it[tag].value != []
    ensures var r, t := Gt(it, tag, d), it[tag].value;
      exists a, b | 0 <= a <= b <= |t| ::
        r == t[a..b] && Text.SpaceBetween(t, 0, a) && Text.SpaceBetween(t, b, |t|)
    ensures var r := Gt(it, tag, d);
      |r| > 0 ==> !Text.IsSpace(r[0]) && !Text.IsSpace(r[|r| - 1])
  {
    Text.StripShape(it[tag].value);
  }

  /** `round((price / area) * 3.3)`, exact arithmetic rounded half to even. */
  function PricePerPyeong(price: int, area: real): int
    requires area > 0.0
  {
    RoundReal((price as real / area) * 3.3)
  }

  /** A non-negative price gives a non-negative price per pyeong. */
  lemma PricePerPyeongNonNegative(price: int, area: real)
    requires area > 0.0 && price >= 0
    ensures PricePerPyeong(price, area) >= 0
  {
    RoundRealMonotone(0.0, (price as real / area) * 3.3);
    assert RoundReal(0.0) == 0;
  }

  /** On one area, a higher price never ranks lower per pyeong. */
  lemma PricePerPyeongMonotone(p: int, q: int, area: real)
    requires area > 0.0 && p <= q
    ensures PricePerPyeong(p, area) <= PricePerPyeong(q, area)
  {
    DivideMonotone(p as real, q as real, area);
    RoundRealMonotone((p as real / area) * 3.3, (q as real / area) * 3.3);
  }

  lemma DivideMonotone(x: real, y: real, a: real)
    requires a > 0.0 && x <= y
    ensures (x / a) * 3.3 <= (y / a) * 3.3
  {
  }

  /** `float(gt(it, 'excluUseAr', '0'))`; None where `float` raises. */
  function ItemArea(it: Item): Option<real> {
    ParseDecimal(Gt(it, "excluUseAr", "0"))
  }

  /** `int(gt(it, 'dealAmount', '0').replace(',', '').strip())`. */
  function ItemPrice(it: Item): Option<int> {
    ParseInt(Text.Strip(Text.Remove(Gt(it, "dealAmount", "0"), ',')))
  }

  /** `REGIONS.get(code, ('', ''))`. */
  function RegionOf(regions: Regions, code: string): (r: (string, string))
    ensures code in regions ==> r == regions[code]
    ensures code !in regions ==> r == ("", "")
  {
    if code in regions then regions[code] else ("", "")
  }

  /** The record for an item whose area already parsed as `area`: nothing
      when the area is below the minimum or the price does not parse. */
  function Kept(it: Item, area: real, code: string, regions: Regions): (r: Option<Record>)
    ensures r.Some? <==> area >= MinArea && ItemPrice(it).Some?
    ensures r.Some? ==> (r.value.areaM2 == area && r.value.price == ItemPrice(it).value
      && r.value.regionCode == code && (r.value.sido, r.value.sigungu) == RegionOf(regions, code))
  {
    if area < MinArea then None
    else
      match ItemPrice(it)
      case None => None
      case Some(price) =>
        var (sido, sigungu) := RegionOf(regions, code);
        Some(Record(
          Gt(it, "aptNm", ""), sido, sigungu, Gt(it, "umdNm", ""),
          area, price, PricePerPyeong(price, area),
          Gt(it, "dealYear", ""), Gt(it, "dealMonth", ""), Gt(it, "dealDay", ""),
          Gt(it, "floor", ""), Gt(it, "buildYear", ""), code))
  }

  /** What the loop of `parse` does with one item. */
  datatype Step<R> = Halt | Skip | Keep(value: R)

  /** The outcome for one item: `float` of the area raising ends the loop. */
  function Outcome(it: Item, code: string, regions: Regions): (r: Step<Record>)
    ensures r.Halt? <==> ItemArea(it).None?
    ensures r.Keep? <==> ItemArea(it).Some? && Kept(it, ItemArea(it).value, code, regions).Some?
    ensures r.Keep? ==> Sound(r.value, code, regions)
    ensures r.Keep? ==> r.value == Kept(it, ItemArea(it).value, code, regions).value
  {
    match ItemArea(it)
    case None => Halt
    case Some(area) =>
      match Kept(it, area, code, regions)
      case None => Skip
      case Some(x) => Keep(x)
  }

  /** Every record `parse` keeps satisfies this. */
  ghost predicate Sound(x: Record, code: string, regions: Regions) {
    x.areaM2 >= MinArea && x.regionCode == code
      && (x.sido, x.sigungu) == RegionOf(regions, code)
  }

  /** A loop over `xs` that collects the kept values in order and ends at the
      first halting element, keeping what it has. */
  function Scan<T, R>(xs: seq<T>, f: T -> Step<R>): (r: seq<R>)
    ensures |r| <= |xs|
  {
    if |xs| == 0 then []
    else
      match f(xs[0])
      case Halt => []
      case Skip => Scan(xs[1..], f)
      case Keep(x) => [x] + Scan(xs[1..], f)
  }

  /** The number of elements before the first halting one. */
  function HaltAt<T, R>(xs: seq<T>, f: T -> Step<R>): (k: nat)
    ensures k <= |xs|
    ensures k < |xs| ==> f(xs[k]).Halt?
    ensures forall i | 0 <= i < k :: !f(xs[i]).Halt?
  {
    if |xs| == 0 || f(xs[0]).Halt? then 0
    else
      var k := 1 + HaltAt(xs[1..], f);
      assert forall i | 1 <= i < k :: xs[i] == xs[1..][i - 1];
      k
  }

  /** The loop over a concatenation runs over the first part, then, unless it
      halted there, over the second. */
  lemma {:induction false} ScanAppend<T, R>(a: seq<T>, b: seq<T>, f: T -> Step<R>)
    ensures HaltAt(a, f) == |a| ==> Scan(a + b, f) == Scan(a, f) + Scan(b, f)
    ensures HaltAt(a, f) < |a| ==> Scan(a + b, f) == Scan(a, f)
  {
    if |a| > 0 {
      assert (a + b)[1..] == a[1..] + b;
      assert (a + b)[0] == a[0];
      ScanAppend(a[1..], b, f);
      if !f(a[0]).Halt? {
        assert HaltAt(a, f) == 1 + HaltAt(a[1..], f);
      }
    } else {
      assert a + b == b;
    }
  }

  /** The loop keeps exactly the kept values of the elements before the
      first halting one. */
  lemma {:induction false} ScanMembers<T, R>(xs: seq<T>, f: T -> Step<R>)
    ensures forall x :: (x in Scan(xs, f) <==>
      exists i | 0 <= i < HaltAt(xs, f) :: f(xs[i]) == Keep(x))
  {
    if |xs| > 0 && !f(xs[0]).Halt? {
      ScanMembers(xs[1..], f);
      forall x
        ensures x in Scan(xs, f) <==> exists i | 0 <= i < HaltAt(xs, f) :: f(xs[i]) == Keep(x)
      {
        if x in Scan(xs, f) && f(xs[0]) != Keep(x) {
          var j :| 0 <= j < HaltAt(xs[1..], f) && f(xs[1..][j]) == Keep(x);
          assert xs[1..][j] == xs[j + 1];
        }
        if i :| 0 <= i < HaltAt(xs, f) && f(xs[i]) == Keep(x) {
          if i > 0 {
            assert xs[1..][i - 1] == xs[i];
          }
        }
      }
    }
  }

  /** The loop of `parse`, one outcome per item. */
  function ParseItems(its: seq<Item>, code: string, regions: Regions): (r: seq<Record>)
    ensures |r| <= |its|
  {
    Scan(its, it => Outcome(it, code, regions))
  }

  /** Every record `parse` returns has an area of at least 59 m², the input
      region code, and the region table's names for it (or two empty names). */
  lemma ParseItemsSound(its: seq<Item>, code: string, regions: Regions)
    ensures forall x | x in ParseItems(its, code, regions) :: Sound(x, code, regions)
  {
    var f := it => Outcome(it, code, regions);
    ScanMembers(its, f);
  }

  /** Every record `parse` returns takes its area and price from one of the
      items. */
  lemma ParseItemsFrom(its: seq<Item>, code: string, regions: Regions)
    ensures forall x | x in ParseItems(its, code, regions) ::
      exists i | 0 <= i < |its| :: ItemArea(its[i]) == Some(x.areaM2) && ItemPrice(its[i]) == Some(x.price)
  {
    var f := it => Outcome(it, code, regions);
    ScanMembers(its, f);
    forall x | x in ParseItems(its, code, regions)
      ensures exists i | 0 <= i < |its| :: ItemArea(its[i]) == Some(x.areaM2) && ItemPrice(its[i]) == Some(x.price)
    {
      var i :| 0 <= i < HaltAt(its, f) && f(its[i]) == Keep(x);
      KeptFrom(its[i], code, regions, x);
    }
  }

  /** A kept record carries the item's parsed area and price. */
  lemma KeptFrom(it: Item, code: string, regions: Regions, x: Record)
    requires Outcome(it, code, regions) == Keep(x)
    ensures ItemArea(it) == Some(x.areaM2) && ItemPrice(it) == Some(x.price)
  {
  }

  /** `parse(xml_text, code)`. */
  function Parse(doc: Document, code: string, regions: Regions): (r: seq<Record>)
    ensures doc.Malformed? ==> r == []
    ensures doc.Items? ==> |r| <= |doc.items|
  {
    match doc
    case Malformed => []
    case Items(its) => ParseItems(its, code, regions)
  }

  // ---------------------------------------------------------------------
  // Keys the dashboards group by.

  /** The complex name a district's top 10 is keyed by. */
  function Name(x: Record): string {
    x.aptName
  }

  /** The price per pyeong every ranking sorts by. */
  function Ppp(x: Record): int {
    x.pricePerPyeong
  }

  /** The district a record was sold in. */
  function Sigungu(x: Record): string {
    x.sigungu
  }

  /** `f"{deal_year}.{deal_month.zfill(2)}"`: the chart label of a record. */
  function Label(x: Record): string {
    x.dealYear + "." + Text.ZFill(x.dealMonth, 2)
  }

  /** `f"{deal_year}{deal_month.zfill(2)}"`: the record's `YYYYMM` key. */
  function YearMonth(x: Record): string {
    x.dealYear + Text.ZFill(x.dealMonth, 2)
  }

  /** `f"{sido}|{sigungu}"`: the district a record belongs to. */
  function DistrictKey(x: Record): string {
    x.sido + "|" + x.sigungu
  }

  /** `(apt_name, sido, sigungu)`: one apartment complex in Seoul's top 20. */
  function AptKey(x: Record): (string, string, string) {
    (x.aptName, x.sido, x.sigungu)
  }

  /** `f"{apt_name}|{sido}|{sigungu}"`: the key of the saved rank state. */
  function CompositeKey(x: Record): string {
    x.aptName + "|" + x.sido + "|" + x.sigungu
  }

  /** `SEOUL_CODES`: the codes whose sido is 서울시. */
  function SeoulCodes(regions: Regions): (r: set<string>)
    ensures forall c :: c in r <==> c in regions && regions[c].0 == "서울시"
  {
    set c | c in regions && regions[c].0 == "서울시"
  }
}

=== FILE: seoul.dfy ===
/** The Seoul dashboard: the twenty dearest complexes, the monthly average of
    their sales, one monthly series per complex, how many of them each
    district holds, the rank changes against the saved ranking, and the
    headline insights. */
module Seoul {
  import opened Wrappers
  import Text
  import opened Numeric
  import opened Records
  import opened Seqs
  import Ranking
  import Series
  import Districts

  // ---------------------------------------------------------------------
  // The top 20.

  /** `seoul_top20`: the twenty dearest complexes, a complex being the
      (name, sido, sigungu) triple. */
  function Top20(data: seq<Record>): (r: seq<Record>)
    ensures |r| <= 20
  {
    Ranking.TopN(data, AptKey, Ppp, 20)
  }

  /** At most twenty entries (fewer only when there are fewer complexes), no
      complex twice, dearest first, each the first sale of greatest price of
      its complex, and no complex left out is dearer than one kept. */
  lemma Top20Spec(data: seq<Record>)
    ensures var r := Top20(data);
      && Ranking.DistinctKeys(r, AptKey)
      && Ranking.Descending(r, Ppp)
      && (forall i | 0 <= i < |r| :: Ranking.FirstMax(data, r[i], AptKey, Ppp))
      && |r| == (if |Ranking.Best(data, AptKey, Ppp)| <= 20 then |Ranking.Best(data, AptKey, Ppp)| else 20)
      && (forall m, i | 0 <= m < |data| && Ranking.KeyPos(r, AptKey(data[m]), AptKey) == |r| && 0 <= i < |r| ::
            data[m].pricePerPyeong <= r[i].pricePerPyeong)
  {
    Ranking.TopNSpec(data, AptKey, Ppp, 20);
  }

  /** The complexes of the top 20. */
  function Keys(t20: seq<Record>): set<(string, string, string)> {
    set i | 0 <= i < |t20| :: AptKey(t20[i])
  }

  // ---------------------------------------------------------------------
  // Monthly averages.

  function InKeys(keys: set<(string, string, string)>): Record -> bool {
    (x: Record) => AptKey(x) in keys
  }

  function LabelIs(m: string): Record -> bool {
    (x: Record) => Label(x) == m
  }

  /** The rounded mean price of the sales labelled m (0 for a label without
      sales, which the callers never ask for). */
  function MeanAt(items: seq<Record>, m: string): int {
    match Series.Slot(items, LabelIs(m))
    case Some(v) => v
    case None => 0
  }

  /** `seoul_monthly_avg`: for each month, in ascending order, the rounded
      mean price of the sales of the given complexes in that month. */
  function MonthlyAvg(data: seq<Record>, keys: set<(string, string, string)>): (r: seq<(string, int)>)
    ensures |r| <= |data|
  {
    var picked := Filter(data, InKeys(keys));
    var ls := Series.Labels(picked);
    seq(|ls|, j requires 0 <= j < |ls| => (ls[j], MeanAt(picked, ls[j])))
  }

  function Month(p: (string, int)): string {
    p.0
  }

  function Average(p: (string, int)): int {
    p.1
  }

  /** The months of the average chart are ascending and distinct, and they
      are exactly the months in which one of the complexes sold. */
  lemma MonthlyAvgMonths(data: seq<Record>, keys: set<(string, string, string)>)
    ensures var ms := Map(MonthlyAvg(data, keys), Month);
      && Text.StrictlySorted(ms)
      && Text.Elems(ms) == ImageWhere(data, InKeys(keys), Label)
  {
    var picked := Filter(data, InKeys(keys));
    assert Map(MonthlyAvg(data, keys), Month) == Series.Labels(picked);
    Series.LabelsMembers(picked);
    Series.LabelSetFilter(data, InKeys(keys));
  }

  /** Each monthly average lies within any bounds that hold for the prices
      of that month's sales of the complexes. */
  lemma MonthlyAvgBounds(data: seq<Record>, keys: set<(string, string, string)>, j: nat, lo: int, hi: int)
    requires j < |MonthlyAvg(data, keys)|
    requires forall i | 0 <= i < |data| && AptKey(data[i]) in keys && Label(data[i]) == MonthlyAvg(data, keys)[j].0 ::
      lo <= data[i].pricePerPyeong <= hi
    ensures lo <= MonthlyAvg(data, keys)[j].1 <= hi
  {
    var picked := Filter(data, InKeys(keys));
    var ls := Series.Labels(picked);
    MonthlyAvgAt(data, keys, picked, ls, j);
    var m := ls[j];
    assert forall i | 0 <= i < |data| && InKeys(keys)(data[i]) && Label(data[i]) == m ::
      lo <= data[i].pricePerPyeong <= hi;
    PickedBounds(data, InKeys(keys), picked, m, lo, hi);
    Series.LabelsMembers(picked);
    assert m in Text.Elems(ls);
    MeanAtBounds(picked, m, lo, hi);
  }

  /** Each monthly average is the rounded mean of the prices of that month's
      sales of the complexes. */
  lemma MonthlyAvgValue(data: seq<Record>, keys: set<(string, string, string)>, j: nat)
    requires j < |MonthlyAvg(data, keys)|
    ensures var r := MonthlyAvg(data, keys);
      IsRoundedMean(Series.Prices(Filter(Filter(data, InKeys(keys)), LabelIs(r[j].0))), r[j].1)
  {
    var picked := Filter(data, InKeys(keys));
    var ls := Series.Labels(picked);
    MonthlyAvgAt(data, keys, picked, ls, j);
    Series.LabelsMembers(picked);
    assert ls[j] in Text.Elems(ls);
    MeanAtValue(picked, ls[j]);
  }

  lemma MonthlyAvgAt(data: seq<Record>, keys: set<(string, string, string)>, picked: seq<Record>, ls: seq<string>, j: nat)
    requires picked == Filter(data, InKeys(keys)) && ls == Series.Labels(picked)
    requires j < |MonthlyAvg(data, keys)|
    ensures j < |ls| && MonthlyAvg(data, keys)[j] == (ls[j], MeanAt(picked, ls[j]))
  {
  }

  lemma PickedBounds(data: seq<Record>, p: Record -> bool, picked: seq<Record>, m: string, lo: int, hi: int)
    requires picked == Filter(data, p)
    requires forall i | 0 <= i < |data| && p(data[i]) && Label(data[i]) == m ::
      lo <= data[i].pricePerPyeong <= hi
    ensures forall i | 0 <= i < |picked| && Label(picked[i]) == m :: lo <= picked[i].pricePerPyeong <= hi
  {
    FilterMembers(data, p);
    forall i | 0 <= i < |picked| && Label(picked[i]) == m
      ensures lo <= picked[i].pricePerPyeong <= hi
    {
      assert picked[i] in picked;
      var q :| 0 <= q < |data| && data[q] == picked[i];
    }
  }

  lemma MeanAtBounds(items: seq<Record>, m: string, lo: int, hi: int)
    requires m in Series.LabelSet(items)
    requires forall i | 0 <= i < |items| && Label(items[i]) == m :: lo <= items[i].pricePerPyeong <= hi
    ensures lo <= MeanAt(items, m) <= hi
  {
    var k :| 0 <= k < |items| && Label(items[k]) == m;
    assert LabelIs(m)(items[k]);
    Series.SlotBounds(items, LabelIs(m), lo, hi);
  }

  /** For a label that occurs, MeanAt is the rounded mean of its prices. */
  lemma MeanAtValue(items: seq<Record>, m: string)
    requires m in Series.LabelSet(items)
    ensures IsRoundedMean(Series.Prices(Filter(items, LabelIs(m))), MeanAt(items, m))
  {
    var k :| 0 <= k < |items| && Label(items[k]) == m;
    assert LabelIs(m)(items[k]);
  }

  // ---------------------------------------------------------------------
  // One series per complex.

  function AptMonth(k: (string, string, string), m: string): Record -> bool {
    (x: Record) => AptKey(x) == k && Label(x) == m
  }

  /** `seoul_per_apt_monthly`: the months in which any top-20 complex sold,
      and for each complex its name and, per month, the rounded mean price
      of its sales or None. */
  function PerAptMonthly(data: seq<Record>, t20: seq<Record>): (r: (seq<string>, seq<(string, seq<Option<int>>)>))
    ensures |r.1| == |t20|
    ensures forall i | 0 <= i < |t20| :: r.1[i].0 == t20[i].aptName && |r.1[i].1| == |r.0|
    ensures forall i, j | 0 <= i < |t20| && 0 <= j < |r.0| ::
      (r.1[i].1[j].None? <==> forall q | 0 <= q < |data| ::
        !(AptKey(data[q]) == AptKey(t20[i]) && Label(data[q]) == r.0[j]))
    ensures forall i, j | 0 <= i < |t20| && 0 <= j < |r.0| && r.1[i].1[j].Some? ::
      IsRoundedMean(Series.Prices(Filter(data, AptMonth(AptKey(t20[i]), r.0[j]))), r.1[i].1[j].value)
  {
    var months := Series.Labels(Filter(data, InKeys(Keys(t20))));
    (months, seq(|t20|, i requires 0 <= i < |t20| =>
      (t20[i].aptName, AptRow(data, AptKey(t20[i]), months))))
  }

  /** The row of complex k: per month, the rounded mean of its sales. */
  function AptRow(data: seq<Record>, k: (string, string, string), months: seq<string>): (r: seq<Option<int>>)
    ensures |r| == |months|
    ensures forall j | 0 <= j < |months| ::
      (r[j].None? <==> forall q | 0 <= q < |data| :: !(AptKey(data[q]) == k && Label(data[q]) == months[j]))
    ensures forall j | 0 <= j < |months| && r[j].Some? ::
      IsRoundedMean(Series.Prices(Filter(data, AptMonth(k, months[j]))), r[j].value)
  {
    seq(|months|, j requires 0 <= j < |months| => Series.Slot(data, AptMonth(k, months[j])))
  }

  /** The per-complex chart and the average chart share their months. */
  lemma PerAptMonthsAgree(data: seq<Record>, t20: seq<Record>)
    ensures PerAptMonthly(data, t20).0 == Map(MonthlyAvg(data, Keys(t20)), Month)
  {
  }

  // ---------------------------------------------------------------------
  // Districts of the top 20.

  function Count(p: (string, nat)): int {
    p.1
  }

  function Fst(p: (string, nat)): string {
    p.0
  }

  /** Where a district first appears in the top 20. */
  function FirstSeen(t20: seq<Record>): ((string, nat)) -> int {
    (p: (string, nat)) => Ranking.KeyPos(t20, p.0, Sigungu)
  }

  /** Of two districts with equal counts, the one that appears first in the
      top 20 comes first. */
  ghost predicate TiesInFirstSeenOrder(t20: seq<Record>, rd: seq<(string, nat)>) {
    forall i, j | 0 <= i < j < |rd| && rd[i].1 == rd[j].1 ::
      Ranking.KeyPos(t20, rd[i].0, Sigungu) < Ranking.KeyPos(t20, rd[j].0, Sigungu)
  }

  /** Each group's key with its number of elements. */
  function Sizes<T>(g: seq<(string, seq<T>)>): (r: seq<(string, nat)>)
    ensures |r| == |g|
    ensures forall i | 0 <= i < |g| :: Fst(r[i]) == g[i].0 && Count(r[i]) == |g[i].1|
  {
    seq(|g|, i requires 0 <= i < |g| => (g[i].0, |g[i].1|))
  }

  /** The number of entries per district, districts in first-appearance
      order. */
  function Tally(t20: seq<Record>): (r: seq<(string, nat)>)
    ensures |r| <= |t20|
  {
    Sizes(Districts.GroupBy(t20, Sigungu))
  }

  /** `seoul_region_dist`: districts by number of entries, most first, ties
      in first-appearance order. */
  function RegionDist(t20: seq<Record>): (r: seq<(string, nat)>)
    ensures |r| <= |t20|
  {
    Ranking.SortDesc(Tally(t20), Count)
  }

  /** Every district of the top 20 appears once, with the number of entries
      it holds, and the list is ordered by that number, most first; of two
      districts with equal numbers, the one that appears first in the top 20
      comes first. */
  lemma RegionDistSpec(t20: seq<Record>)
    ensures var rd := RegionDist(t20);
      && Ranking.DistinctKeys(rd, Fst)
      && Ranking.Descending(rd, Count)
      && (forall i | 0 <= i < |rd| ::
            rd[i].1 == Seqs.Count(t20, Districts.HasKey(Sigungu, rd[i].0)) && rd[i].1 > 0)
      && (forall m | 0 <= m < |t20| :: Ranking.KeyPos(rd, t20[m].sigungu, Fst) < |rd|)
      && TiesInFirstSeenOrder(t20, rd)
  {
    var tally := Tally(t20);
    var rd := RegionDist(t20);
    TallySpec(t20, tally);
    forall i, j | 0 <= i < j < |rd| && rd[i].1 == rd[j].1
      ensures Ranking.KeyPos(t20, rd[i].0, Sigungu) < Ranking.KeyPos(t20, rd[j].0, Sigungu)
    {
      Ranking.SortDescTies(tally, Count, FirstSeen(t20), i, j);
    }
    Ranking.SortDescKeys(tally, Count, Fst);
    Ranking.SortDescSorted(tally, Count);
    forall i | 0 <= i < |rd|
      ensures rd[i].1 == Seqs.Count(t20, Districts.HasKey(Sigungu, rd[i].0)) && rd[i].1 > 0
    {
      Ranking.MemberOfSorted(tally, Count, i);
    }
    forall m | 0 <= m < |t20|
      ensures Ranking.KeyPos(rd, t20[m].sigungu, Fst) < |rd|
    {
      Ranking.SortDescHasKey(tally, Count, Fst, t20[m].sigungu);
    }
  }

  /** Before sorting: one entry per district, first appearance first, each
      with its number of entries. */
  lemma TallySpec(t20: seq<Record>, tally: seq<(string, nat)>)
    requires tally == Tally(t20)
    ensures Ranking.DistinctKeys(tally, Fst)
    ensures forall i | 0 <= i < |tally| ::
      tally[i].1 == Seqs.Count(t20, Districts.HasKey(Sigungu, tally[i].0)) && tally[i].1 > 0
    ensures forall m | 0 <= m < |t20| :: Ranking.KeyPos(tally, t20[m].sigungu, Fst) < |tally|
    ensures forall a, b | 0 <= a < b < |tally| ::
      Ranking.KeyPos(t20, tally[a].0, Sigungu) < Ranking.KeyPos(t20, tally[b].0, Sigungu)
  {
    var g := Districts.GroupBy(t20, Sigungu);
    assert tally == Sizes(g);
    CountsOf(t20, Sigungu, g, tally);
    SizesOrder(t20, Sigungu, g, tally);
    forall m | 0 <= m < |t20|
      ensures Ranking.KeyPos(tally, t20[m].sigungu, Fst) < |tally|
    {
      assert Sigungu(t20[m]) == t20[m].sigungu;
    }
  }

  /** The sizes of a grouping: distinct keys, each with the number of
      elements of that key, every key of xs present. */
  lemma CountsOf<T>(xs: seq<T>, key: T -> string, g: seq<(string, seq<T>)>, tally: seq<(string, nat)>)
    requires g == Districts.GroupBy(xs, key) && tally == Sizes(g)
    ensures Ranking.DistinctKeys(tally, Fst)
    ensures forall i | 0 <= i < |tally| ::
      tally[i].1 == Seqs.Count(xs, Districts.HasKey(key, tally[i].0)) && tally[i].1 > 0
    ensures forall m | 0 <= m < |xs| :: Ranking.KeyPos(tally, key(xs[m]), Fst) < |tally|
  {
    Districts.GroupBySpec(xs, key);
    forall i, j | 0 <= i < j < |tally|
      ensures Fst(tally[i]) != Fst(tally[j])
    {
      assert Fst(tally[i]) == g[i].0 && Fst(tally[j]) == g[j].0;
    }
    forall i | 0 <= i < |tally|
      ensures tally[i].1 == Seqs.Count(xs, Districts.HasKey(key, tally[i].0)) && tally[i].1 > 0
    {
      assert Fst(tally[i]) == g[i].0 && Count(tally[i]) == |g[i].1|;
      CountFilter(xs, Districts.HasKey(key, g[i].0));
    }
    forall m | 0 <= m < |xs|
      ensures Ranking.KeyPos(tally, key(xs[m]), Fst) < |tally|
    {
      var p := Districts.GroupPos(g, key(xs[m]));
      assert p < |g| && Fst(tally[p]) == g[p].0;
      Ranking.KeyPosIn(tally, tally[p], Fst);
    }
  }

  /** The sizes keep the groups' first-appearance order. */
  lemma SizesOrder<T>(xs: seq<T>, key: T -> string, g: seq<(string, seq<T>)>, tally: seq<(string, nat)>)
    requires g == Districts.GroupBy(xs, key) && tally == Sizes(g)
    ensures forall a, b | 0 <= a < b < |tally| ::
      Ranking.KeyPos(xs, tally[a].0, key) < Ranking.KeyPos(xs, tally[b].0, key)
  {
    Districts.GroupByOrder(xs, key);
    forall a, b | 0 <= a < b < |tally|
      ensures Ranking.KeyPos(xs, tally[a].0, key) < Ranking.KeyPos(xs, tally[b].0, key)
    {
      assert Fst(tally[a]) == g[a].0 && Fst(tally[b]) == g[b].0;
    }
  }

  // ---------------------------------------------------------------------
  // Rank changes.

  /** One entry of the rank-change list: 'new', or the number of places
      gained (negative when it dropped). */
  datatype Change = New | Moved(delta: int)

  /** `{key(x): rank}` written back as the next run's previous ranking; a
      later entry with the same key overwrites an earlier one. */
  function Ranks<T>(xs: seq<T>, key: T -> string): (r: map<string, int>)
    ensures forall i | 0 <= i < |xs| :: key(xs[i]) in r
    ensures forall k | k in r :: 1 <= r[k] <= |xs|
  {
    if |xs| == 0 then map[]
    else Ranks(xs[..|xs| - 1], key)[key(xs[|xs| - 1]) := |xs|]
  }

  /** Every key of m sits at its rank in xs, and not after it. */
  ghost predicate RankedLast<T>(xs: seq<T>, key: T -> string, m: map<string, int>) {
    forall k | k in m ::
      && 1 <= m[k] <= |xs|
      && key(xs[m[k] - 1]) == k
      && forall j | m[k] <= j < |xs| :: key(xs[j]) != k
  }

  lemma RankedLastStep<T>(xs: seq<T>, key: T -> string, m: map<string, int>)
    requires |xs| > 0 && RankedLast(xs[..|xs| - 1], key, m)
    ensures RankedLast(xs, key, m[key(xs[|xs| - 1]) := |xs|])
  {
    var init := xs[..|xs| - 1];
    var r := m[key(xs[|xs| - 1]) := |xs|];
    forall k | k in r
      ensures 1 <= r[k] <= |xs| && key(xs[r[k] - 1]) == k
      ensures forall j | r[k] <= j < |xs| :: key(xs[j]) != k
    {
      if k != key(xs[|xs| - 1]) {
        assert r[k] == m[k];
        assert xs[m[k] - 1] == init[m[k] - 1];
        assert forall j | m[k] <= j < |init| :: xs[j] == init[j];
      }
    }
  }

  lemma RanksSnoc<T>(xs: seq<T>, key: T -> string)
    requires |xs| > 0
    ensures Ranks(xs, key) == Ranks(xs[..|xs| - 1], key)[key(xs[|xs| - 1]) := |xs|]
  {
  }

  lemma {:induction false} RanksLast<T>(xs: seq<T>, key: T -> string)
    ensures RankedLast(xs, key, Ranks(xs, key))
  {
    if |xs| > 0 {
      var init := xs[..|xs| - 1];
      RanksLast(init, key);
      RankedLastStep(xs, key, Ranks(init, key));
      RanksSnoc(xs, key);
    }
  }

  /** The saved ranking holds exactly the keys of the list, each with the
      1-based rank of its last entry. */
  lemma RanksSpec<T>(xs: seq<T>, key: T -> string)
    ensures forall k :: k in Ranks(xs, key) <==> exists i | 0 <= i < |xs| :: key(xs[i]) == k
    ensures forall k | k in Ranks(xs, key) ::
      && key(xs[Ranks(xs, key)[k] - 1]) == k
      && forall j | Ranks(xs, key)[k] <= j < |xs| :: key(xs[j]) != k
  {
    var r := Ranks(xs, key);
    RanksLast(xs, key);
    RankedKeys(xs, key, r);
  }

  /** A ranking that places every key of xs at an entry of that key holds
      exactly the keys of xs. */
  lemma RankedKeys<T>(xs: seq<T>, key: T -> string, m: map<string, int>)
    requires RankedLast(xs, key, m)
    requires forall i | 0 <= i < |xs| :: key(xs[i]) in m
    ensures forall k :: k in m <==> exists i | 0 <= i < |xs| :: key(xs[i]) == k
  {
    forall k | k in m
      ensures exists i | 0 <= i < |xs| :: key(xs[i]) == k
    {
      assert key(xs[m[k] - 1]) == k;
    }
  }

  /** With distinct keys, every entry is saved at its own rank. */
  lemma RanksDistinct<T>(xs: seq<T>, key: T -> string, i: nat)
    requires Ranking.DistinctKeys(xs, key) && i < |xs|
    ensures Ranks(xs, key)[key(xs[i])] == i + 1
  {
    var m := Ranks(xs, key);
    var k := key(xs[i]);
    RanksLast(xs, key);
    assert k in m;
    var r := m[k];
    assert key(xs[r - 1]) == k && forall j | r <= j < |xs| :: key(xs[j]) != k;
    assert i <= r - 1;
    assert r - 1 <= i by {
      forall j | i < j < |xs|
        ensures key(xs[j]) != k
      {
        assert key(xs[i]) != key(xs[j]);
      }
    }
  }

  /** `seoul_rank_changes` over key: against the previous ranking, each entry
      is new or moved by its old rank minus its new one; the new ranking is
      returned to be saved. */
  function RankChanges<T>(prev: map<string, int>, xs: seq<T>, key: T -> string): (r: (seq<Change>, map<string, int>))
    ensures |r.0| == |xs|
    ensures forall i | 0 <= i < |xs| :: (r.0[i] == New <==> key(xs[i]) !in prev)
    ensures forall i | 0 <= i < |xs| && key(xs[i]) in prev ::
      r.0[i] == Moved(prev[key(xs[i])] - (i + 1))
    ensures forall i | 0 <= i < |xs| :: key(xs[i]) in r.1
    ensures RankedLast(xs, key, r.1)
  {
    RanksLast(xs, key);
    (Changes(prev, xs, key), Ranks(xs, key))
  }

  /** The change of each entry against the previous ranking. */
  function Changes<T>(prev: map<string, int>, xs: seq<T>, key: T -> string): (r: seq<Change>)
    ensures |r| == |xs|
    ensures forall i | 0 <= i < |xs| :: (r[i] == New <==> key(xs[i]) !in prev)
    ensures forall i | 0 <= i < |xs| && key(xs[i]) in prev ::
      r[i] == Moved(prev[key(xs[i])] - (i + 1))
  {
    seq(|xs|, i requires 0 <= i < |xs| =>
      if key(xs[i]) in prev then Moved(prev[key(xs[i])] - (i + 1)) else New)
  }

  /** The Seoul top 20's rank changes, keyed by "name|sido|sigungu". */
  function SeoulRankChanges(prev: map<string, int>, t20: seq<Record>): (seq<Change>, map<string, int>) {
    RankChanges(prev, t20, CompositeKey)
  }

  /** Moving by delta from the old rank lands on the new rank; ranking the
      same list twice reports no moves. */
  lemma RankChangesSpec<T>(prev: map<string, int>, xs: seq<T>, key: T -> string)
    requires Ranking.DistinctKeys(xs, key)
    ensures var (ch, cur) := RankChanges(prev, xs, key);
      forall i | 0 <= i < |xs| && ch[i].Moved? ::
        prev[key(xs[i])] - ch[i].delta == cur[key(xs[i])]
    ensures var (ch, cur) := RankChanges(Ranks(xs, key), xs, key);
      forall i | 0 <= i < |xs| :: ch[i] == Moved(0)
  {
    forall i | 0 <= i < |xs|
      ensures Ranks(xs, key)[key(xs[i])] == i + 1
    {
      RanksDistinct(xs, key, i);
    }
  }

  // ---------------------------------------------------------------------
  // Biggest movers.

  predicate Mover(c: Change) {
    c.Moved? && c.delta != 0
  }

  /** The first entry whose move is the largest (s == 1) or the smallest
      (s == -1) among the entries that moved: Python's `max`/`min` with a
      key, which return the first extreme element. */
  function Extreme(ch: seq<Change>, s: int): (r: Option<nat>)
    ensures r.None? <==> forall i | 0 <= i < |ch| :: !Mover(ch[i])
    ensures r.Some? ==> r.value < |ch| && Mover(ch[r.value])
    ensures r.Some? ==> forall j | 0 <= j < |ch| && Mover(ch[j]) ::
      s * ch[j].delta <= s * ch[r.value].delta
    ensures r.Some? ==> forall j | 0 <= j < r.value && Mover(ch[j]) ::
      s * ch[j].delta < s * ch[r.value].delta
  {
    if |ch| == 0 then None
    else
      var init := ch[..|ch| - 1];
      var r := Extreme(init, s);
      var x := ch[|ch| - 1];
      assert forall j | 0 <= j < |init| :: init[j] == ch[j];
      if Mover(x) && (r.None? || s * x.delta > s * ch[r.value].delta) then Some(|ch| - 1)
      else r
  }

  /** The biggest riser shown, if the largest move is a rise. */
  function Riser(ch: seq<Change>): (r: Option<nat>)
    ensures r.Some? ==> r.value < |ch| && ch[r.value].Moved? && ch[r.value].delta > 0
  {
    match Extreme(ch, 1)
    case Some(i) => if ch[i].delta > 0 then Some(i) else None
    case None => None
  }

  /** The biggest faller shown, if the smallest move is a drop. */
  function Faller(ch: seq<Change>): (r: Option<nat>)
    ensures r.Some? ==> r.value < |ch| && ch[r.value].Moved? && ch[r.value].delta < 0
  {
    match Extreme(ch, -1)
    case Some(i) => if ch[i].delta < 0 then Some(i) else None
    case None => None
  }

  /** A riser is shown exactly when some entry rose, and it is the first
      entry with the largest rise; likewise for fallers. */
  lemma MoversSpec(ch: seq<Change>)
    ensures Riser(ch).Some? <==> exists i | 0 <= i < |ch| :: ch[i].Moved? && ch[i].delta > 0
    ensures Faller(ch).Some? <==> exists i | 0 <= i < |ch| :: ch[i].Moved? && ch[i].delta < 0
    ensures Riser(ch).Some? ==> var i := Riser(ch).value;
      && i < |ch| && ch[i].Moved? && ch[i].delta > 0
      && (forall j | 0 <= j < |ch| && ch[j].Moved? :: ch[j].delta <= ch[i].delta)
      && (forall j | 0 <= j < i && ch[j].Moved? :: ch[j].delta < ch[i].delta)
    ensures Faller(ch).Some? ==> var i := Faller(ch).value;
      && i < |ch| && ch[i].Moved? && ch[i].delta < 0
      && (forall j | 0 <= j < |ch| && ch[j].Moved? :: ch[j].delta >= ch[i].delta)
      && (forall j | 0 <= j < i && ch[j].Moved? :: ch[j].delta > ch[i].delta)
  {
    var up := Extreme(ch, 1);
    var down := Extreme(ch, -1);
    if exists i | 0 <= i < |ch| :: ch[i].Moved? && ch[i].delta > 0 {
      var i :| 0 <= i < |ch| && ch[i].Moved? && ch[i].delta > 0;
      assert Mover(ch[i]);
    }
    if exists i | 0 <= i < |ch| :: ch[i].Moved? && ch[i].delta < 0 {
      var i :| 0 <= i < |ch| && ch[i].Moved? && ch[i].delta < 0;
      assert Mover(ch[i]);
    }
  }

  // ---------------------------------------------------------------------
  // Insights.

  datatype Direction = Up | Down | Flat

  function Diff(v: seq<int>, i: int): int
    requires 1 <= i < |v|
  {
    v[i] - v[i - 1]
  }

  /** A change that extends a run in direction dir. */
  predicate Continues(dir: Direction, d: int) {
    (dir == Up && d > 0) || (dir == Down && d < 0)
  }

  /** The run of changes in direction dir ending at change i, walking back. */
  function RunBack(v: seq<int>, dir: Direction, i: nat): (r: nat)
    requires i < |v|
    ensures r <= i
    ensures forall j | i - r < j <= i :: Continues(dir, Diff(v, j))
    ensures r < i ==> !Continues(dir, Diff(v, i - r))
  {
    if i == 0 then 0
    else if Continues(dir, Diff(v, i)) then 1 + RunBack(v, dir, i - 1)
    else 0
  }

  /** The streak of the monthly averages: fewer than two months give
      (0, Flat); otherwise the last change sets the direction (a zero change
      counts as Down) and the streak counts it and the changes before it
      that go strictly the same way. */
  function Streak(v: seq<int>): (r: (nat, Direction))
    ensures |v| < 2 ==> r == (0, Flat)
    ensures |v| >= 2 ==>
      && r.1 == (if Diff(v, |v| - 1) > 0 then Up else Down)
      && 1 <= r.0 <= |v| - 1
      && (forall j | |v| - r.0 <= j < |v| - 1 :: Continues(r.1, Diff(v, j)))
      && (r.0 < |v| - 1 ==> !Continues(r.1, Diff(v, |v| - 1 - r.0)))
  {
    if |v| < 2 then (0, Flat)
    else
      var dir := if Diff(v, |v| - 1) > 0 then Up else Down;
      (1 + RunBack(v, dir, |v| - 2), dir)
  }

  /** The walk of `seoul_insights`, month by month back from the last. */
  method StreakWalk(v: seq<int>) returns (streak: nat, direction: Direction)
    ensures (streak, direction) == Streak(v)
  {
    streak := 0;
    direction := Flat;
    if |v| >= 2 {
      var i := |v| - 1;
      while i > 0
        invariant 0 <= i <= |v| - 1
        invariant streak == 0 <==> i == |v| - 1
        invariant streak > 0 ==> direction == Streak(v).1
        invariant streak > 0 ==> 1 + RunBack(v, direction, |v| - 2) == streak + RunBack(v, direction, i)
        decreases i
      {
        var diff := v[i] - v[i - 1];
        if streak == 0 {
          direction := if diff > 0 then Up else Down;
          streak := 1;
        } else if (direction == Up && diff > 0) || (direction == Down && diff < 0) {
          streak := streak + 1;
        } else {
          break;
        }
        i := i - 1;
      }
    }
  }

  /** The month-over-month change of the last two averages, in percent of
      the earlier one; 0 when there are fewer than two months or the earlier
      average is not positive. */
  function Mom(v: seq<int>): (r: real)
    ensures |v| < 2 || v[|v| - 2] <= 0 ==> r == 0.0
    ensures |v| >= 2 && v[|v| - 2] > 0 ==>
      r * v[|v| - 2] as real == (v[|v| - 1] - v[|v| - 2]) as real * 100.0
  {
    if |v| >= 2 && v[|v| - 2] > 0 then
      var c, p := v[|v| - 1], v[|v| - 2];
      ((c - p) as real / p as real) * 100.0
    else 0.0
  }

  /** The sign of the change follows the two averages. */
  lemma MomSign(v: seq<int>)
    requires |v| >= 2 && v[|v| - 2] > 0
    ensures Mom(v) > 0.0 <==> v[|v| - 1] > v[|v| - 2]
    ensures Mom(v) < 0.0 <==> v[|v| - 1] < v[|v| - 2]
  {
    var p := v[|v| - 2] as real;
    var d := (v[|v| - 1] - v[|v| - 2]) as real;
    assert Mom(v) * p == d * 100.0;
    if Mom(v) > 0.0 {
      assert Mom(v) * p > 0.0;
    }
    if Mom(v) < 0.0 {
      assert Mom(v) * p < 0.0;
    }
    if Mom(v) == 0.0 {
      assert d * 100.0 == 0.0;
    }
  }

  datatype Insight = Insight(
    avg: int, mom: real, topApt: string, topAptPrice: int,
    topRegion: string, topRegionCount: nat, streak: nat, direction: Direction)

  /** `seoul_insights` for a non-empty top 20 and the monthly averages in
      ascending month order. */
  function Insights(t20: seq<Record>, monthly: seq<int>): (r: Insight)
    requires |t20| > 0
    ensures r.topApt == t20[0].aptName && r.topAptPrice == t20[0].pricePerPyeong
    ensures r.mom == Mom(monthly)
    ensures (r.streak, r.direction) == Streak(monthly)
  {
    RegionDistSpec(t20);
    assert Ranking.KeyPos(RegionDist(t20), t20[0].sigungu, Fst) < |RegionDist(t20)|;
    var rd := RegionDist(t20);
    var (streak, direction) := Streak(monthly);
    Insight(Series.TopAverage(t20), Mom(monthly), t20[0].aptName, t20[0].pricePerPyeong,
            rd[0].0, rd[0].1, streak, direction)
  }

  /** The average lies between the cheapest and the dearest entry. */
  lemma InsightsAvg(t20: seq<Record>, monthly: seq<int>)
    requires |t20| > 0
    ensures t20[Series.MinPrice(t20)].pricePerPyeong <= Insights(t20, monthly).avg <= t20[Series.MaxPrice(t20)].pricePerPyeong
  {
    InsightsFields(t20, monthly);
    Series.TopAverageBounds(t20);
  }

  /** The top district holds as many entries as any district, and exactly
      as many as it is credited with; of the districts that hold that many,
      it is the one that appears first in the top 20. */
  lemma InsightsRegion(t20: seq<Record>, monthly: seq<int>)
    requires |t20| > 0
    ensures var r := Insights(t20, monthly);
      && r.topRegionCount == Seqs.Count(t20, Districts.HasKey(Sigungu, r.topRegion))
      && (forall m | 0 <= m < |t20| ::
            Seqs.Count(t20, Districts.HasKey(Sigungu, t20[m].sigungu)) <= r.topRegionCount)
      && (forall m | 0 <= m < |t20| && Seqs.Count(t20, Districts.HasKey(Sigungu, t20[m].sigungu)) == r.topRegionCount ::
            Ranking.KeyPos(t20, r.topRegion, Sigungu) <= m)
  {
    InsightsFields(t20, monthly);
    RegionDistTop(t20);
  }

  /** The first entry of the district distribution: its true count, no
      smaller than any district's, and the earliest of the districts that
      hold that many. */
  lemma RegionDistTop(t20: seq<Record>)
    requires |t20| > 0
    ensures var rd := RegionDist(t20);
      && |rd| > 0
      && rd[0].1 == Seqs.Count(t20, Districts.HasKey(Sigungu, rd[0].0))
      && (forall m | 0 <= m < |t20| ::
            Seqs.Count(t20, Districts.HasKey(Sigungu, t20[m].sigungu)) <= rd[0].1)
      && (forall m | 0 <= m < |t20| && Seqs.Count(t20, Districts.HasKey(Sigungu, t20[m].sigungu)) == rd[0].1 ::
            Ranking.KeyPos(t20, rd[0].0, Sigungu) <= m)
  {
    var rd := RegionDist(t20);
    RegionDistSpec(t20);
    assert Ranking.KeyPos(rd, t20[0].sigungu, Fst) < |rd|;
    TopRegion(t20, rd);
    TopRegionFirst(t20, rd);
  }

  lemma InsightsFields(t20: seq<Record>, monthly: seq<int>)
    requires |t20| > 0
    ensures |RegionDist(t20)| > 0
    ensures var r := Insights(t20, monthly);
      && r.avg == Series.TopAverage(t20)
      && r.topRegion == RegionDist(t20)[0].0 && r.topRegionCount == RegionDist(t20)[0].1
  {
    RegionDistSpec(t20);
    assert Ranking.KeyPos(RegionDist(t20), t20[0].sigungu, Fst) < |RegionDist(t20)|;
  }

  /** The first district of a distribution ordered most first holds as
      many entries as any. */
  lemma TopRegion(t20: seq<Record>, rd: seq<(string, nat)>)
    requires |rd| > 0 && Ranking.Descending(rd, Count)
    requires forall i | 0 <= i < |rd| :: rd[i].1 == Seqs.Count(t20, Districts.HasKey(Sigungu, rd[i].0))
    requires forall m | 0 <= m < |t20| :: Ranking.KeyPos(rd, t20[m].sigungu, Fst) < |rd|
    ensures forall m | 0 <= m < |t20| ::
      Seqs.Count(t20, Districts.HasKey(Sigungu, t20[m].sigungu)) <= rd[0].1
  {
    forall m | 0 <= m < |t20|
      ensures Seqs.Count(t20, Districts.HasKey(Sigungu, t20[m].sigungu)) <= rd[0].1
    {
      var j := Ranking.KeyPos(rd, t20[m].sigungu, Fst);
      if j > 0 {
        assert Count(rd[0]) >= Count(rd[j]);
      }
    }
  }

  /** Ties for the top are broken by first appearance: every entry whose
      district holds as many entries as the first district lies at or after
      that district's first entry. */
  lemma TopRegionFirst(t20: seq<Record>, rd: seq<(string, nat)>)
    requires |rd| > 0
    requires forall i | 0 <= i < |rd| :: rd[i].1 == Seqs.Count(t20, Districts.HasKey(Sigungu, rd[i].0))
    requires forall m | 0 <= m < |t20| :: Ranking.KeyPos(rd, t20[m].sigungu, Fst) < |rd|
    requires TiesInFirstSeenOrder(t20, rd)
    ensures forall m | 0 <= m < |t20| && Seqs.Count(t20, Districts.HasKey(Sigungu, t20[m].sigungu)) == rd[0].1 ::
      Ranking.KeyPos(t20, rd[0].0, Sigungu) <= m
  {
    var top := rd[0];
    forall m | 0 <= m < |t20| && Seqs.Count(t20, Districts.HasKey(Sigungu, t20[m].sigungu)) == top.1
      ensures Ranking.KeyPos(t20, top.0, Sigungu) <= m
    {
      var j := Ranking.KeyPos(rd, t20[m].sigungu, Fst);
      assert Fst(rd[j]) == Sigungu(t20[m]);
      if j > 0 {
        assert rd[0].1 == rd[j].1;
      }
    }
  }
}

=== FILE: seqs.dfy ===
/** List comprehensions over records: `[x for x in xs if p(x)]`, counting
    and projecting a field. */
module Seqs {

  /** `[x for x in xs if p(x)]`. */
  function Filter<T>(xs: seq<T>, p: T -> bool): (r: seq<T>)
    ensures |r| <= |xs|
    ensures forall i | 0 <= i < |r| :: p(r[i])
  {
    if |xs| == 0 then []
    else Filter(xs[..|xs| - 1], p) + (if p(xs[|xs| - 1]) then [xs[|xs| - 1]] else [])
  }

  /** The filter keeps exactly the elements that pass the test. */
  lemma {:induction false} FilterMembers<T>(xs: seq<T>, p: T -> bool)
    ensures forall x :: x in Filter(xs, p) <==> x in xs && p(x)
  {
    if |xs| > 0 {
      var init := xs[..|xs| - 1];
      FilterMembers(init, p);
      assert xs == init + [xs[|xs| - 1]];
    }
  }

  /** Filtering a concatenation filters each part. */
  lemma {:induction false} FilterAppend<T>(a: seq<T>, b: seq<T>, p: T -> bool)
    ensures Filter(a + b, p) == Filter(a, p) + Filter(b, p)
  {
    if |b| > 0 {
      var init := b[..|b| - 1];
      assert (a + b)[..|a + b| - 1] == a + init;
      FilterAppend(a, init, p);
    } else {
      assert a + b == a;
    }
  }

  /** Nothing is dropped when every element passes; nothing is kept when
      none does. */
  lemma {:induction false} FilterAll<T>(xs: seq<T>, p: T -> bool)
    ensures (forall i | 0 <= i < |xs| :: p(xs[i])) ==> Filter(xs, p) == xs
    ensures (forall i | 0 <= i < |xs| :: !p(xs[i])) ==> Filter(xs, p) == []
  {
    if |xs| > 0 {
      var init := xs[..|xs| - 1];
      FilterAll(init, p);
      assert xs == init + [xs[|xs| - 1]];
    }
  }

  /** `{f(x) for x in xs}`. */
  function Image<T, U>(xs: seq<T>, f: T -> U): set<U> {
    set i | 0 <= i < |xs| :: f(xs[i])
  }

  /** `{f(x) for x in xs if p(x)}`. */
  function ImageWhere<T, U>(xs: seq<T>, p: T -> bool, f: T -> U): set<U> {
    set i | 0 <= i < |xs| && p(xs[i]) :: f(xs[i])
  }

  /** The images of the elements a filter keeps are the images of the
      elements that pass the test. */
  lemma FilterImage<T, U>(xs: seq<T>, p: T -> bool, f: T -> U)
    ensures Image(Filter(xs, p), f) == ImageWhere(xs, p, f)
  {
    var r := Filter(xs, p);
    var kept := Image(r, f);
    var passing := ImageWhere(xs, p, f);
    FilterMembers(xs, p);
    forall u | u in kept
      ensures u in passing
    {
      var i :| 0 <= i < |r| && f(r[i]) == u;
      assert r[i] in xs;
      var k :| 0 <= k < |xs| && xs[k] == r[i];
      assert p(xs[k]);
    }
    forall u | u in passing
      ensures u in kept
    {
      var k :| 0 <= k < |xs| && p(xs[k]) && f(xs[k]) == u;
      assert xs[k] in r;
      var i :| 0 <= i < |r| && r[i] == xs[k];
    }
  }

  /** `sum(1 for x in xs if p(x))`. */
  function Count<T>(xs: seq<T>, p: T -> bool): (n: nat)
    ensures n <= |xs|
    ensures n == |xs| <==> forall i | 0 <= i < |xs| :: p(xs[i])
    ensures n == 0 <==> forall i | 0 <= i < |xs| :: !p(xs[i])
  {
    if |xs| == 0 then 0
    else
      var init := xs[..|xs| - 1];
      var n := Count(init, p) + (if p(xs[|xs| - 1]) then 1 else 0);
      assert forall i | 0 <= i < |init| :: init[i] == xs[i];
      n
  }

  /** Counting is the length of the filter. */
  lemma {:induction false} CountFilter<T>(xs: seq<T>, p: T -> bool)
    ensures Count(xs, p) == |Filter(xs, p)|
  {
    if |xs| > 0 {
      CountFilter(xs[..|xs| - 1], p);
    }
  }

  /** `[f(x) for x in xs]`. */
  function Map<T, U>(xs: seq<T>, f: T -> U): (r: seq<U>)
    ensures |r| == |xs|
    ensures forall i | 0 <= i < |xs| :: r[i] == f(xs[i])
  {
    seq(|xs|, i requires 0 <= i < |xs| => f(xs[i]))
  }
}

=== FILE: series.dfy ===
/** The chart data of the district dashboard: the month labels, one row of
    monthly mean prices per ranked complex with gaps for months without a
    sale, the six-month deal count and the average of a top list. */
module Series {
  import opened Wrappers
  import Text
  import opened Numeric
  import opened Records
  import opened Seqs

  /** The price per pyeong of each record, in order. */
  function Prices(xs: seq<Record>): (r: seq<int>)
    ensures |r| == |xs|
    ensures forall i | 0 <= i < |xs| :: r[i] == xs[i].pricePerPyeong
  {
    Map(xs, (x: Record) => x.pricePerPyeong)
  }

  /** One cell of a chart row: the rounded mean price of the records sel
      picks, or None (JSON null) when it picks none. */
  function Slot(items: seq<Record>, sel: Record -> bool): (r: Option<int>)
    ensures r.None? <==> forall i | 0 <= i < |items| :: !sel(items[i])
    ensures r.Some? ==> IsRoundedMean(Prices(Filter(items, sel)), r.value)
  {
    var v := Filter(items, sel);
    CountFilter(items, sel);
    if |v| == 0 then None else Some(RoundedMean(Prices(v)))
  }

  /** A filled cell lies within any bounds that hold for every record it
      averages, so between their smallest and largest price. */
  lemma SlotBounds(items: seq<Record>, sel: Record -> bool, lo: int, hi: int)
    requires forall i | 0 <= i < |items| && sel(items[i]) ::
      lo <= items[i].pricePerPyeong <= hi
    requires Slot(items, sel).Some?
    ensures lo <= Slot(items, sel).value <= hi
  {
    var v := Filter(items, sel);
    FilterMembers(items, sel);
    forall k | 0 <= k < |v|
      ensures lo <= Prices(v)[k] <= hi
    {
      assert v[k] in items;
    }
    RoundedMeanBounds(Prices(v), lo, hi);
  }

  /** `sorted({label(x) for x in xs})`: the distinct "YYYY.MM" labels in
      ascending order. */
  function Labels(xs: seq<Record>): (r: seq<string>)
    ensures Text.StrictlySorted(r)
    ensures |r| <= |xs|
  {
    Text.SortedDistinct(Map(xs, Label))
  }

  /** The labels of a list of records, as a set. */
  function LabelSet(xs: seq<Record>): set<string> {
    Image(xs, Label)
  }

  /** The labels are exactly the labels of the records. */
  lemma LabelsMembers(xs: seq<Record>)
    ensures Text.Elems(Labels(xs)) == LabelSet(xs)
  {
    var ls := Map(xs, Label);
    assert Text.Elems(Labels(xs)) == Text.Elems(ls);
    forall l | l in Text.Elems(ls)
      ensures l in LabelSet(xs)
    {
      var i :| 0 <= i < |ls| && ls[i] == l;
    }
  }

  /** The labels of the records a filter keeps. */
  lemma LabelSetFilter(xs: seq<Record>, p: Record -> bool)
    ensures LabelSet(Filter(xs, p)) == ImageWhere(xs, p, Label)
  {
    FilterImage(xs, p, Label);
  }

  /** The records of complex `name` dealt in the month labelled m. */
  function NameMonth(name: string, m: string): Record -> bool {
    (x: Record) => x.aptName == name && Label(x) == m
  }

  /** One series of the district dashboard: for each label, the rounded mean
      price of the complex's sales that month, None for a month without one. */
  function DistrictRow(items: seq<Record>, name: string, labels: seq<string>): (r: seq<Option<int>>)
    ensures |r| == |labels|
    ensures forall j | 0 <= j < |labels| ::
      (r[j].None? <==> forall i | 0 <= i < |items| ::
        !(items[i].aptName == name && Label(items[i]) == labels[j]))
    ensures forall j | 0 <= j < |labels| && r[j].Some? ::
      IsRoundedMean(Prices(Filter(items, NameMonth(name, labels[j]))), r[j].value)
  {
    seq(|labels|, j requires 0 <= j < |labels| => Slot(items, NameMonth(name, labels[j])))
  }

  /** A filled cell of a row lies between the smallest and the largest
      price the complex fetched that month. */
  lemma DistrictRowBounds(items: seq<Record>, name: string, labels: seq<string>, j: nat, lo: int, hi: int)
    requires j < |labels| && DistrictRow(items, name, labels)[j].Some?
    requires forall i | 0 <= i < |items| && items[i].aptName == name && Label(items[i]) == labels[j] ::
      lo <= items[i].pricePerPyeong <= hi
    ensures lo <= DistrictRow(items, name, labels)[j].value <= hi
  {
    SlotBounds(items, NameMonth(name, labels[j]), lo, hi);
  }

  /** `series`: one row per ranked complex, by name, each as long as labels. */
  function DistrictSeries(items: seq<Record>, top: seq<Record>, labels: seq<string>): (r: seq<seq<Option<int>>>)
    ensures |r| == |top|
    ensures forall k | 0 <= k < |top| :: r[k] == DistrictRow(items, top[k].aptName, labels)
    ensures forall k | 0 <= k < |top| :: |r[k]| == |labels|
  {
    seq(|top|, k requires 0 <= k < |top| => DistrictRow(items, top[k].aptName, labels))
  }

  /** The district's sales whose "YYYYMM" is one of the recent months. */
  function DealCount(items: seq<Record>, recentMonths: set<string>): (n: nat)
    ensures n <= |items|
    ensures n == 0 <==> forall i | 0 <= i < |items| :: YearMonth(items[i]) !in recentMonths
  {
    Count(items, (x: Record) => YearMonth(x) in recentMonths)
  }

  /** Deal counts add up over a split of the district's sales. */
  lemma DealCountAppend(a: seq<Record>, b: seq<Record>, recentMonths: set<string>)
    ensures DealCount(a + b, recentMonths) == DealCount(a, recentMonths) + DealCount(b, recentMonths)
  {
    var p := (x: Record) => YearMonth(x) in recentMonths;
    CountFilter(a + b, p);
    CountFilter(a, p);
    CountFilter(b, p);
    FilterAppend(a, b, p);
  }

  /** The smallest price of a non-empty list, and where it occurs. */
  function MinPrice(xs: seq<Record>): (k: nat)
    requires |xs| > 0
    ensures k < |xs|
    ensures forall i | 0 <= i < |xs| :: xs[k].pricePerPyeong <= xs[i].pricePerPyeong
  {
    if |xs| == 1 then 0
    else
      var k := MinPrice(xs[1..]) + 1;
      assert forall i | 1 <= i < |xs| :: xs[i] == xs[1..][i - 1];
      if xs[0].pricePerPyeong <= xs[k].pricePerPyeong then 0 else k
  }

  /** The largest price of a non-empty list, and where it occurs. */
  function MaxPrice(xs: seq<Record>): (k: nat)
    requires |xs| > 0
    ensures k < |xs|
    ensures forall i | 0 <= i < |xs| :: xs[i].pricePerPyeong <= xs[k].pricePerPyeong
  {
    if |xs| == 1 then 0
    else
      var k := MaxPrice(xs[1..]) + 1;
      assert forall i | 1 <= i < |xs| :: xs[i] == xs[1..][i - 1];
      if xs[0].pricePerPyeong >= xs[k].pricePerPyeong then 0 else k
  }

  /** `round(sum(ppp) / len(top))`: the average of a top list. */
  function TopAverage(top: seq<Record>): int
    requires |top| > 0
  {
    RoundedMean(Prices(top))
  }

  /** The average of a top list lies between its cheapest and its dearest
      entry. */
  lemma TopAverageBounds(top: seq<Record>)
    requires |top| > 0
    ensures top[MinPrice(top)].pricePerPyeong <= TopAverage(top) <= top[MaxPrice(top)].pricePerPyeong
  {
    RoundedMeanBounds(Prices(top), top[MinPrice(top)].pricePerPyeong, top[MaxPrice(top)].pricePerPyeong);
  }
}

=== FILE: text.dfy ===
/** Python string operations the collector relies on: `strip`, `replace(',', '')`,
    `zfill`, the substring test `in`, code-point ordering of strings and
    `sorted(set(...))` of strings. */
module Text {

  /** Python's `str.isspace()` for a single character. */
  predicate IsSpace(c: char) {
    || ('\t' <= c <= '\r')
    || ('\U{1C}' <= c <= '\U{1F}')
    || c == ' ' || c == '\U{85}' || c == '\U{A0}' || c == '\U{1680}'
    || ('\U{2000}' <= c <= '\U{200A}')
    || c == '\U{2028}' || c == '\U{2029}' || c == '\U{202F}' || c == '\U{205F}'
    || c == '\U{3000}'
  }

  /** The characters of `s` from `lo` up to `hi` are all whitespace. */
  ghost predicate SpaceBetween(s: string, lo: int, hi: int) {
    forall i | lo <= i < hi && 0 <= i < |s| :: IsSpace(s[i])
  }

  function LeadingSpaces(s: string): (n: nat)
    ensures n <= |s|
    ensures SpaceBetween(s, 0, n)
    ensures n < |s| ==> !IsSpace(s[n])
  {
    if |s| > 0 && IsSpace(s[0]) then 1 + LeadingSpaces(s[1..]) else 0
  }

  function TrailingSpaces(s: string): (n: nat)
    ensures n <= |s|
    ensures SpaceBetween(s, |s| - n, |s|)
    ensures n < |s| ==> !IsSpace(s[|s| - n - 1])
  {
    if |s| > 0 && IsSpace(s[|s| - 1]) then 1 + TrailingSpaces(s[..|s| - 1]) else 0
  }

  /** Python's `str.strip()`. */
  function Strip(s: string): (r: string)
    ensures |r| <= |s|
  {
    var a := LeadingSpaces(s);
    var t := s[a..];
    t[..|t| - TrailingSpaces(t)]
  }

  /** `strip` removes exactly the surrounding whitespace: `s` is whitespace,
      then the result, then whitespace, and the result neither starts nor ends
      with whitespace. */
  lemma StripShape(s: string)
    ensures var r := Strip(s);
      && (exists a, b | 0 <= a <= b <= |s| ::
            r == s[a..b] && SpaceBetween(s, 0, a) && SpaceBetween(s, b, |s|))
      && (|r| > 0 ==> !IsSpace(r[0]) && !IsSpace(r[|r| - 1]))
  {
    var a := LeadingSpaces(s);
    var t := s[a..];
    var b := TrailingSpaces(t);
    assert t[..|t| - b] == s[a..|s| - b];
    assert SpaceBetween(s, |s| - b, |s|) by {
      forall i | |s| - b <= i < |s| ensures IsSpace(s[i]) {
        assert s[i] == t[i - a];
      }
    }
  }

  /** Python's `s.replace(c, '')` for a one-character pattern. */
  function Remove(s: string, c: char): (r: string)
    ensures |r| <= |s|
  {
    if |s| == 0 then []
    else if s[0] == c then Remove(s[1..], c)
    else [s[0]] + Remove(s[1..], c)
  }

  /** What `replace(c, '')` keeps: every character of `s` but `c`. */
  lemma {:induction false} RemoveMembers(s: string, c: char)
    ensures forall x :: x in Remove(s, c) <==> x in s && x != c
  {
    if |s| > 0 {
      RemoveMembers(s[1..], c);
      assert s == [s[0]] + s[1..];
    }
  }

  lemma {:induction false} RemoveAppend(a: string, b: string, c: char)
    ensures Remove(a + b, c) == Remove(a, c) + Remove(b, c)
  {
    if |a| == 0 {
      assert a + b == b;
    } else {
      assert (a + b)[1..] == a[1..] + b;
      RemoveAppend(a[1..], b, c);
    }
  }

  lemma {:induction false} RemoveAbsent(s: string, c: char)
    requires c !in s
    ensures Remove(s, c) == s
  {
    if |s| > 0 {
      RemoveAbsent(s[1..], c);
    }
  }

  /** Position of the first `c` in `s`, or |s| when there is none. */
  function IndexOf(s: string, c: char): (k: nat)
    ensures k <= |s|
    ensures k < |s| ==> s[k] == c
    ensures forall i | 0 <= i < k :: s[i] != c
  {
    if |s| == 0 || s[0] == c then 0 else 1 + IndexOf(s[1..], c)
  }

  /** The first `c` of `w + rest` is the head of `rest` when `w` has none. */
  lemma IndexOfAfter(w: string, rest: string, c: char)
    requires c !in w
    requires |rest| > 0 && rest[0] == c
    ensures IndexOf(w + rest, c) == |w|
  {
    assert (w + rest)[|w|] == c;
    assert forall i | 0 <= i < |w| :: (w + rest)[i] == w[i] && w[i] in w;
  }

  function Repeat(c: char, n: nat): (r: string)
    ensures |r| == n
    ensures forall i | 0 <= i < n :: r[i] == c
  {
    if n == 0 then [] else [c] + Repeat(c, n - 1)
  }

  /** Python's `str.zfill(width)`: left-pad with '0' to `width`, keeping a
      leading sign in front of the padding. */
  function ZFill(s: string, width: int): (r: string)
    ensures |s| >= width ==> r == s
    ensures |s| < width ==> |r| == width
    ensures |s| < width && (|s| == 0 || (s[0] != '+' && s[0] != '-')) ==>
      r[width - |s|..] == s && forall i | 0 <= i < width - |s| :: r[i] == '0'
    ensures |s| < width && |s| > 0 && (s[0] == '+' || s[0] == '-') ==>
      r[0] == s[0] && r[width - |s| + 1..] == s[1..] &&
      forall i | 1 <= i <= width - |s| :: r[i] == '0'
  {
    if |s| >= width then s
    else if |s| > 0 && (s[0] == '+' || s[0] == '-') then
      [s[0]] + Repeat('0', width - |s|) + s[1..]
    else Repeat('0', width - |s|) + s
  }

  predicate OccursAt(s: string, sub: string, i: int) {
    0 <= i <= |s| - |sub| && s[i..i + |sub|] == sub
  }

  /** Python's `sub in s`. */
  ghost predicate Contains(s: string, sub: string)
  {
    exists i :: OccursAt(s, sub, i)
  }

  /** A recursive search for `sub` in `s`, in the way CPython scans. */
  function Find(s: string, sub: string): (found: bool)
    ensures found <==> Contains(s, sub)
    decreases |s|
  {
    if |sub| > |s| then false
    else if s[..|sub|] == sub then assert OccursAt(s, sub, 0); true
    else
      var rest := Find(s[1..], sub);
      assert rest ==> Contains(s, sub) by {
        if rest {
          var i :| OccursAt(s[1..], sub, i);
          assert s[i + 1..i + 1 + |sub|] == sub;
          assert OccursAt(s, sub, i + 1);
        }
      }
      assert Contains(s, sub) ==> rest by {
        if Contains(s, sub) {
          var i :| OccursAt(s, sub, i);
          assert i != 0;
          assert s[1..][i - 1..i - 1 + |sub|] == sub;
          assert OccursAt(s[1..], sub, i - 1);
        }
      }
      rest
  }

  // ---------------------------------------------------------------------
  // Ordering of strings by code point, as Python compares `str` values.

  predicate Less(a: string, b: string)
    decreases |a|
  {
    if |a| == 0 then |b| > 0
    else if |b| == 0 then false
    else if a[0] < b[0] then true
    else if a[0] == b[0] then Less(a[1..], b[1..])
    else false
  }

  lemma {:induction false} LessIrreflexive(a: string)
    ensures !Less(a, a)
  {
    if |a| > 0 {
      LessIrreflexive(a[1..]);
    }
  }

  lemma {:induction false} LessTransitive(a: string, b: string, c: string)
    requires Less(a, b) && Less(b, c)
    ensures Less(a, c)
    decreases |a|
  {
    if |a| > 0 && |b| > 0 && |c| > 0 && a[0] == b[0] && b[0] == c[0] {
      LessTransitive(a[1..], b[1..], c[1..]);
    }
  }

  lemma {:induction false} LessTotal(a: string, b: string)
    requires a != b
    ensures Less(a, b) || Less(b, a)
    decreases |a|
  {
    if |a| > 0 && |b| > 0 && a[0] == b[0] {
      assert a == [a[0]] + a[1..] && b == [b[0]] + b[1..];
      LessTotal(a[1..], b[1..]);
    }
  }

  /** Comparing two equal-length strings each extended by one character. */
  lemma {:induction false} LessSnoc(a: string, b: string, x: char, y: char)
    requires |a| == |b|
    ensures Less(a + [x], b + [y]) <==> Less(a, b) || (a == b && x < y)
    decreases |a|
  {
    if |a| > 0 {
      assert (a + [x])[1..] == a[1..] + [x];
      assert (b + [y])[1..] == b[1..] + [y];
      LessSnoc(a[1..], b[1..], x, y);
      if a[0] == b[0] {
        assert a == [a[0]] + a[1..] && b == [b[0]] + b[1..];
      }
    }
  }

  lemma LessAsymmetric(a: string, b: string)
    requires Less(a, b)
    ensures !Less(b, a)
  {
    if Less(b, a) {
      LessTransitive(a, b, a);
      LessIrreflexive(a);
    }
  }

  /** The elements of a list of strings, as a set. */
  function Elems(s: seq<string>): set<string> {
    set y | y in s
  }

  /** Strictly ascending, hence free of duplicates. */
  ghost predicate StrictlySorted(s: seq<string>) {
    forall i, j | 0 <= i < j < |s| :: Less(s[i], s[j])
  }

  /** A strictly ascending list has as many entries as distinct values. */
  lemma {:induction false} StrictlySortedCard(s: seq<string>)
    requires StrictlySorted(s)
    ensures |Elems(s)| == |s|
  {
    if |s| > 0 {
      var init := s[..|s| - 1];
      StrictlySortedInit(s);
      StrictlySortedCard(init);
      ElemsSnoc(s);
      forall i | 0 <= i < |init|
        ensures init[i] != s[|s| - 1]
      {
        StrictlySortedDistinct(s, i, |s| - 1);
      }
      assert s[|s| - 1] !in init;
    }
  }

  lemma ElemsSnoc(s: seq<string>)
    requires |s| > 0
    ensures Elems(s) == Elems(s[..|s| - 1]) + {s[|s| - 1]}
  {
    assert s == s[..|s| - 1] + [s[|s| - 1]];
  }

  lemma StrictlySortedInit(s: seq<string>)
    requires StrictlySorted(s) && |s| > 0
    ensures StrictlySorted(s[..|s| - 1])
  {
    var init := s[..|s| - 1];
    forall i, j | 0 <= i < j < |init|
      ensures Less(init[i], init[j])
    {
      assert init[i] == s[i] && init[j] == s[j];
    }
  }

  /** A list with a repeated entry has fewer distinct values than entries. */
  lemma {:induction false} ElemsCard(s: seq<string>)
    ensures |Elems(s)| <= |s|
    ensures (exists i, j | 0 <= i < j < |s| :: s[i] == s[j]) ==> |Elems(s)| < |s|
  {
    if |s| > 0 {
      var init := s[..|s| - 1];
      ElemsCard(init);
      ElemsSnoc(s);
      if i, j :| 0 <= i < j < |s| && s[i] == s[j] {
        if j == |s| - 1 {
          assert s[|s| - 1] in Elems(init);
          assert Elems(s) == Elems(init);
        } else {
          assert init[i] == init[j];
        }
      }
    }
  }

  lemma StrictlySortedDistinct(s: seq<string>, i: int, j: int)
    requires StrictlySorted(s)
    requires 0 <= i < |s| && 0 <= j < |s| && i != j
    ensures s[i] != s[j]
  {
    if i < j {
      assert Less(s[i], s[j]);
      LessIrreflexive(s[i]);
    } else {
      assert Less(s[j], s[i]);
      LessIrreflexive(s[j]);
    }
  }

  /** Adds `x` to an ascending list of distinct strings (a set kept sorted). */
  function InsertSorted(x: string, s: seq<string>): (r: seq<string>)
    requires StrictlySorted(s)
    ensures StrictlySorted(r)
    ensures Elems(r) == Elems(s) + {x}
    ensures |r| <= |s| + 1
    ensures x in s ==> r == s
  {
    if |s| == 0 then [x]
    else if x == s[0] then s
    else if Less(x, s[0]) then
      assert StrictlySorted([x] + s) by {
        forall i, j | 0 <= i < j < |s| + 1
          ensures Less(([x] + s)[i], ([x] + s)[j])
        {
          if i == 0 && j > 1 {
            LessTransitive(x, s[0], s[j - 1]);
          }
        }
      }
      assert x !in s by {
        if x in s {
          var k :| 0 <= k < |s| && s[k] == x;
          assert k > 0;
          LessAsymmetric(x, s[0]);
        }
      }
      [x] + s
    else
      var rest := InsertSorted(x, s[1..]);
      LessTotal(x, s[0]);
      var r := [s[0]] + rest;
      assert StrictlySorted(r) by {
        forall i, j | 0 <= i < j < |r|
          ensures Less(r[i], r[j])
        {
          if i == 0 {
            var y := r[j];
            assert y == rest[j - 1];
            assert y in Elems(rest);
            if y != x {
              assert y in Elems(s[1..]);
              var k :| 0 <= k < |s[1..]| && s[1..][k] == y;
              assert Less(s[0], s[k + 1]);
            }
          }
        }
      }
      assert x in s ==> r == s by {
        if x in s {
          assert x in s[1..];
          assert s == [s[0]] + s[1..];
        }
      }
      assert Elems(r) == Elems(s) + {x} by {
        assert s == [s[0]] + s[1..];
      }
      r
  }

  /** Python's `sorted(set(xs))` for strings, by inserting each element in turn. */
  function SortedDistinct(xs: seq<string>): (r: seq<string>)
    ensures StrictlySorted(r)
    ensures Elems(r) == Elems(xs)
    ensures |r| <= |xs|
  {
    if |xs| == 0 then []
    else
      var init := xs[..|xs| - 1];
      assert xs == init + [xs[|xs| - 1]];
      InsertSorted(xs[|xs| - 1], SortedDistinct(init))
  }

  /** In an ascending list, an element nothing exceeds is the last one. */
  lemma SortedLast(s: seq<string>, x: string)
    requires StrictlySorted(s) && x in s
    requires forall y | y in s :: !Less(x, y)
    ensures s[|s| - 1] == x
  {
    var k :| 0 <= k < |s| && s[k] == x;
    if k < |s| - 1 {
      assert Less(s[k], s[|s| - 1]);
      assert s[|s| - 1] in s;
    }
  }
}

=== FILE: wrappers.dfy ===
/** Optional values: the model's stand-in for Python's `None` and for a
    parse that raised. */
module Wrappers {

  datatype Option<+T> = None | Some(value: T) {

    /** Returns the value in Some, or `default` when None. */
    function GetOr(default: T): T {
      match this
      case Some(v) => v
      case None => default
    }
  }
}
